=== FILE: README.md ===
# A verified model of the forthvm core

forthvm is a small indirect-threaded Forth written in Rust on top of a
byte-code engine. All of its state lives in one flat byte memory:

- the register cells (HERE, LATEST, IC, A0, RSP, STATE, BASE, …) at fixed low addresses;
- the DOCOL trampoline at 80;
- the dictionary from 144 upwards.

The dictionary is a singly linked, newest-first list of entries. Each entry holds:

1. the previous entry's address;
2. a length/flags byte;
3. at most 13 name bytes and padding to a cell boundary;
4. the code field;
5. the body.

A colon definition's code field holds DOCOL and its body holds code field addresses.

This project models that core in Dafny and proves its properties. The model covers:

- the memory map;
- the entry layout and the address arithmetic of `align`, `cfa` and `>cfa`;
- the host-side writers that build the initial dictionary (`builtin_ex`, `colon_def_ex` and their `write_*` helpers);
- the two lookups: the host-side `find` and the runtime `_find`;
- the text-to-integer conversion `_number`;
- the input line buffer and the tokenizer behind `word`;
- the threaded machine: NEXT, the DOCOL trampoline and the primitives the test threads and the outer interpreter rely on (the thin one-opcode words are left out, see below), each by its net effect; `create` runs as the source writes it;
- the run of whole threads the way `run_word` starts them;
- one step of the outer interpreter `interpret`.

Modules, in dependency order:

| module | file | contents |
|---|---|---|
| Layout | layout.dfy | register map, flag bits, `align` |
| Memory | memory.dfy | byte memory, little-endian i32 cells, registers, frame predicates |
| Dictionary | dictionary.dfy | length/flags byte, `cfa`, the linked list and its invariant |
| Results, Faults | results.dfy, faults.dfy | `Option`/`Result` and the machine's fault kinds |
| Lookup | lookup.dfy | host-side `find` and runtime `_find` |
| Numbers | numbers.dfy | `_number`, its reference function, and the host's decimal parse |
| Writer | writer.dfy | `compile_cell`, the `write_*` helpers, `builtin_ex`, `colon_def_ex`, `,`, `create` |
| InputBuffer | input.dfy | `fill_input_buffer`, `read_next_char_in` |
| Tokenizer | tokenizer.dfy | `skip_white_space`, `_word` |
| Division | division.dfy | Rust's truncating `/` and `%` behind DIV_MOD |
| Machine | machine.dfy | the machine state, NEXT, DOCOL, the primitives, `interpret`, bounded runs |
| Effects | effects.dfy | the net effect of each step, and the laws pairing them |
| Threads | threads.dfy | `run_word` and the test threads run to completion |
| Outer | outer.dfy | the decision `interpret` takes for one token |
| Interpreter | interpreter.dfy | one `interpret` step, from the token it reads |

The machine's state is a `Vm` record:

- the memory;
- the parameter stack as a sequence, top last;
- IC, A0 and RSP as fields;
- the input still to be read and the output written so far.

The byte programs of the primitives run on the foreign byte-code engine. Here they are abstracted by a code table, which maps each primitive's code address to the primitive it implements. A step either keeps running, halts (`bye`) or faults.

## Model

| member | source | states |
|---|---|---|
| Layout.Align | src/lib.rs:104-106 | `align(i)` is a multiple of 4 with i <= align(i) < i + 4 |
| Layout.AlignIsLeast | src/lib.rs:104-106 | `align(i)` is the least multiple of 4 that is not below i |
| Layout.AlignIdempotent | src/tests/mod.rs:8-18 | aligning twice is aligning once, and multiples of 4 are fixed points |
| Layout.AlignExamples | src/tests/mod.rs:8-18 | align(1) = 4, align(4) = 4, align(6) = 8, align(7) = 8 |
| Layout.AlignShift | src/lib.rs:104-106 | aligning commutes with adding a multiple of 4 (so an aligned entry's padding depends only on its name length) |
| Layout.RegisterMapLayout | src/lib.rs:17-59 | the register cells are pairwise disjoint, 4-aligned and inside [4, 80); the 47-byte DOCOL program fits below DICT = 144 |
| Layout.FlagsDisjoint | src/lib.rs:62-64 | LEN_MASK, HIDDEN and IMMEDIATE are pairwise disjoint, so setting, clearing or toggling a flag keeps the length bits |
| Layout.ToggleTwice | src/init_dictionary.rs:589-611 | xor-ing a flag in twice restores the length/flags byte |
| Memory.Wrap32 | src/forthvm.rs:127-129 | a stored value keeps its low 32 bits as a two's-complement i32, congruent to the value modulo 2^32 |
| Memory.WriteI32 | src/forthvm.rs:127-129 | writing a cell changes only its four bytes, and reading it back gives the value wrapped to 32 bits |
| Memory.EncodeDecode | src/forthvm.rs:123-129 | decoding the four little-endian bytes of a value gives the value wrapped to 32 bits |
| Memory.SetReg | src/forthvm.rs:205-231 | setting a register changes only that register's cell |
| Dictionary.ToggleHidden | src/init_dictionary.rs:589-611 | flipping HIDDEN negates the hidden flag and keeps the length and IMMEDIATE |
| Dictionary.ToggleImmediate | src/init_dictionary.rs:449-477 | flipping IMMEDIATE negates the immediate flag and keeps the length and HIDDEN |
| Dictionary.LenHiddenBits | src/init_dictionary.rs:783-795 | the length and HIDDEN bits together are the length, plus 32 when hidden |
| Dictionary.FlagMasks | src/lib.rs:62-64 | the length is the byte masked with LEN_MASK |
| Dictionary.LenHiddenMask | src/init_dictionary.rs:783-795 | the byte masked with LEN_MASK or HIDDEN is the byte modulo 64 |
| Dictionary.FlagTests | src/lib.rs:62-64 | the hidden and immediate tests are the bit tests against HIDDEN and IMMEDIATE |
| Dictionary.FlagToggles | src/init_dictionary.rs:589-611 | the flag toggles are xor with HIDDEN and with IMMEDIATE |
| Dictionary.OrFlagsKeepsLength | src/forthvm.rs:334-344 | `len as u8 \| flags`, for a length below 32 and flags without length bits, has length len and exactly the flags' flag bits |
| Dictionary.AddFlags | src/forthvm.rs:334-344 | the same header byte seen as a sum of length and flags |
| Dictionary.OrExamples | src/forthvm.rs:334-344 | header bytes of an IMMEDIATE three-byte name and a HIDDEN five-byte name |
| Dictionary.StoredLen | src/forthvm.rs:334-344 | at most 13 name bytes are stored, and never more than the name has |
| Dictionary.Cfa | src/forthvm.rs:241-246 | the code field address is 4-aligned and lies within 4 bytes after the stored name |
| Dictionary.CfaIgnoresFlags | src/forthvm.rs:241-246 | the flag bits never move the code field |
| Dictionary.Chain | src/forthvm.rs:248-268 | following prev links from LATEST lists the entries newest first, each header inside the dictionary |
| Dictionary.ChainDescends | src/tests/forthvm_tests.rs:195-207 | the links strictly descend, 0 is never an entry, and the oldest entry links to 0 |
| Dictionary.ChainOkMono | src/forthvm.rs:292-304 | a well-formed list stays well formed, and the same, under a larger HERE |
| Dictionary.Walk | src/init_dictionary.rs:783-795 | the entries `_find`'s loop visits from w, newest first: each in the dictionary region at or below w with room for the 13-byte comparison; links descend strictly, headers may overlap |
| Dictionary.ChainWalks | src/init_dictionary.rs:783-795 | a well-formed chain below a bound with room for the comparison is walked through exactly its entries |
| Dictionary.WalkFrame | src/init_dictionary.rs:783-795 | the walk reads only the prev cells of its entries: a memory agreeing below w + 4 is walked the same way |
| Dictionary.DictSearchable | src/init_dictionary.rs:783-795 | a dictionary that keeps its invariant, with room above HERE for the comparison, can be walked by `_find`, and the walk visits exactly its entries |
| Dictionary.ChainFrame | src/forthvm.rs:248-268 | the list reads only the bytes below its bound, so a write above that bound keeps it |
| Lookup.HostFindFrom | src/forthvm.rs:248-268 | the host walk returns the newest entry from its start whose length bits and stored name match, or None when no entry does |
| Lookup.HostFind | src/forthvm.rs:248-268 | host `find`: the newest matching entry, found even when HIDDEN; it needs a non-empty dictionary |
| Lookup.FindFrom | src/init_dictionary.rs:783-795 | the runtime walk returns the newest entry whose length and HIDDEN bits equal the query length and whose stored name matches, or 0 |
| Lookup.Find | src/init_dictionary.rs:783-795 | `_find` from LATEST; an answer to a query shorter than 32 bytes is never hidden |
| Lookup.FindWalk | src/init_dictionary.rs:783-795 | `_find`'s loop from w returns the newest entry of the walk whose length and HIDDEN bits and stored name match, or 0 when none does |
| Lookup.FindAny | src/init_dictionary.rs:783-795 | `_find` as the machine runs it, on any chain whose links descend strictly to 0 with room for the comparison, overlapping headers included: the newest matching entry of that walk or 0, never a hidden one for a name shorter than 32 bytes |
| Lookup.FindWalkIsFindFrom | src/init_dictionary.rs:783-795 | on a well-formed chain the runtime walk and the bounded search give the same answer |
| Lookup.FindAnyIsFind | src/init_dictionary.rs:783-795 | on a dictionary that keeps its invariant, that walk gives the answer of `_find` over the entries below HERE |
| Lookup.FindFromBound | src/init_dictionary.rs:783-795 | the walk's answer depends only on the links it follows, not on the bound it was given |
| Lookup.HiddenNeverMatches | src/init_dictionary.rs:783-795 | a hidden entry never equals a query shorter than 32 bytes |
| Lookup.MatchIgnoresImmediate | src/tests/word_tests.rs:503-526 | toggling IMMEDIATE does not change whether an entry matches |
| Lookup.HostMatchIgnoresFlags | src/forthvm.rs:248-268 | neither flag changes the host-side comparison |
| Lookup.LookupsAgree | src/forthvm.rs:248-268 | when no entry is hidden, host `find` and `_find` give the same entry for every name shorter than 32 bytes |
| Lookup.HostFindFrame | src/forthvm.rs:292-304 | appending above the list does not change what host `find` returns |
| Numbers.ToDigit | src/init_dictionary.rs:806-841 | `to_digit`: a digit exactly when its value is below the radix |
| Numbers.ParseNumber | src/init_dictionary.rs:806-841 | `_number` as a reference function: the value, and the count of bytes left unconverted, with 0 as the value whenever the count is nonzero |
| Numbers.ParseNumberFailure | src/init_dictionary.rs:806-841 | the conversion fails exactly when a byte after the optional minus is not a digit; the count locates the first such byte |
| Numbers.Number | src/init_dictionary.rs:806-841 | the source's look-ahead loop computes exactly the reference result |
| Numbers.RenderDigits | src/init_dictionary.rs:806-841 | the rendering of a natural number consists of digits whose value is that number |
| Numbers.ParseFormat | src/init_dictionary.rs:806-841 | converting the text of any integer gives it back with nothing unconverted |
| Numbers.ParseI32 | src/forthvm.rs:362-373 | the host's decimal parse yields only i32 values |
| Numbers.ParseI32AgreesWithNumber | src/forthvm.rs:362-373 | for tokens without '+', the host's decimal parse succeeds exactly when `_number` in radix 10 converts the whole token, and with the same value |
| Numbers.ValueSnoc | src/init_dictionary.rs:824-832 | each further digit multiplies the accumulator by the radix and adds the digit |
| Numbers.DecimalExamples | src/tests/word_tests.rs:752-808 | "127" gives (127, 0), "-1234" gives (-1234, 0), "12b4" gives (0, 2), and "-" and "" give (0, 0) |
| Numbers.OtherRadixExamples | src/tests/word_tests.rs:752-808 | "12ab" in radix 16 gives 0x12ab and "1010" in radix 2 gives 10 |
| InputBuffer.Fill | src/forthvm.rs:574-582 | the length byte holds the line length modulo 256, the line follows it, and the pending bytes are the line truncated to that length |
| InputBuffer.ReadNextChar | src/forthvm.rs:560-572 | the next byte and the advanced cursor, or None exactly when nothing is pending |
| InputBuffer.Drain | src/forthvm.rs:560-572 | reading until None yields exactly the pending bytes, and the cursor then stays |
| InputBuffer.FillThenDrain | src/tests/forthvm_tests.rs:15-23 | a line shorter than 256 bytes reads back in full after being filled |
| Tokenizer.SkipSpace | src/init_dictionary.rs:889-905 | skipping leaves a byte that is neither whitespace nor a backslash, taken from the input |
| Tokenizer.SkipComment | src/init_dictionary.rs:889-905 | a comment runs through the next newline, and skipping resumes after it |
| Tokenizer.ScanToken | src/init_dictionary.rs:876-887 | the token is the input before its first whitespace byte, and that byte is consumed |
| Tokenizer.Word | src/init_dictionary.rs:876-887 | `_word` returns a non-empty token without whitespace, written in the input before a whitespace byte |
| Tokenizer.SkipSpaceOfSpaced | src/init_dictionary.rs:889-905 | leading whitespace is skipped up to the first other byte |
| Tokenizer.SkipCommentOf | src/init_dictionary.rs:889-905 | a backslash comment is skipped through its newline |
| Tokenizer.ScanTokenOf | src/init_dictionary.rs:876-887 | the scan stops exactly at the whitespace byte after a token |
| Tokenizer.WordOfSpaced | src/init_dictionary.rs:876-905 | whitespace, a token and a whitespace byte give back that token and the rest |
| Tokenizer.WordAtStart | src/init_dictionary.rs:876-905 | a token at the very start of the input, then a whitespace byte, is read back |
| Tokenizer.TokensOfUnwords | src/init_dictionary.rs:876-905 | writing tokens out separated by spaces and reading them back gives the same tokens |
| Tokenizer.SkipAllSpace | src/init_dictionary.rs:889-905 | input of whitespace only holds no token |
| Tokenizer.SkipSpaceToComment | src/init_dictionary.rs:889-905 | whitespace in front of a backslash is skipped and the comment starts |
| Tokenizer.WordSkipsComment | src/tests/word_tests.rs:704-727 | "     \sbvasd", a newline, " testing-word " yields "testing-word" |
| Division.TruncatedDivision | src/forthvm.rs:26-35 | quotient and remainder recompose the dividend, the remainder is smaller than the divisor and has the dividend's sign |
| Division.SignedRemainder | src/forthvm.rs:26-35 | Rust's `%` is the remainder of the magnitudes, carrying the dividend's sign |
| Division.QuotientRange | src/forthvm.rs:26-35 | of all i32 divisions only I32_MIN / -1 overflows |
| Writer.Comma | src/init_dictionary.rs:739-744 | `,` stores the value at HERE, advances HERE by a cell and changes nothing else |
| Writer.CompileCell | src/forthvm.rs:324-328 | `compile_cell` does what `,` does |
| Writer.WritePreviousIdx | src/forthvm.rs:330-332 | the new entry's prev cell links to LATEST |
| Writer.WriteName | src/forthvm.rs:334-344 | the length/flags byte and at most 13 name bytes, with HERE aligned after them |
| Writer.WriteCodewordBuiltin | src/forthvm.rs:346-348 | a primitive's code field points at the next cell |
| Writer.WriteCode | src/forthvm.rs:350-356 | the code bytes are copied to HERE, with HERE aligned after them |
| Writer.WriteDocolAddr | src/forthvm.rs:358-360 | a colon definition's code field holds DOCOL |
| Writer.HeaderDeclares | src/forthvm.rs:241-246 | the header the writer lays down declares the name's length and its flags, stores its first 13 bytes, and has its code field exactly where `cfa` computes it |
| Writer.WriteHeader | src/forthvm.rs:330-344 | after the prev cell and the name, HERE is the code field address of the new entry |
| Writer.AppendKeepsDict | src/forthvm.rs:292-304 | appending above HERE leaves the list seen from LATEST unchanged |
| Writer.LinkFrame | src/forthvm.rs:292-304 | setting LATEST to a header written at the old HERE, linked to the old LATEST, puts it in front of the old entries |
| Writer.BuiltinEx | src/forthvm.rs:292-304 | `builtin_ex` returns the old HERE as the new entry; it writes the header and a code field pointing at the copied code, aligns HERE after the code, sets LATEST, changes nothing else, and host `find` then finds the entry by name |
| Writer.SetLatest | src/forthvm.rs:205-207 | only LATEST changes |
| Writer.EntryLinked | src/forthvm.rs:292-322 | the common tail of both writers: the finished entry heads the list with its code field where `cfa` looks |
| Writer.Resolve | src/forthvm.rs:362-373 | a token becomes the code field of the entry host `find` returns, otherwise its decimal value; it fails exactly when it is neither |
| Writer.ResolveFrame | src/forthvm.rs:362-373 | compiling cells above HERE does not change how later tokens resolve |
| Writer.ResolveAll | src/forthvm.rs:362-373 | one resolution per token, in order |
| Writer.WriteColonDef | src/forthvm.rs:362-373 | `write_colon_def` appends one cell per token, each holding its resolution, or stops at the first token that does not resolve |
| Writer.ResolvesFrame | src/forthvm.rs:362-373 | appending above HERE keeps every token's resolution and the first failing token |
| Writer.ColonDefEx | src/forthvm.rs:310-322 | `colon_def_ex` writes the header, DOCOL in the code field and one cell per token; HERE ends one cell per token after the code field; the entry heads the list and is found by name; it fails at the first unresolvable token |
| Writer.WriteColonHeader | src/forthvm.rs:310-322 | the header of a colon definition followed by its DOCOL code field |
| Writer.CopyLen | src/init_dictionary.rs:746-773 | `create` copies min(len, 13) bytes, and 13 for a negative length |
| Writer.CreateHeader | src/init_dictionary.rs:746-773 | `create`'s prev cell holds LATEST, its length byte follows, and then the name bytes |
| Writer.CreateWith | src/init_dictionary.rs:746-773 | `create` makes the old HERE the newest entry |
| Writer.CreateAsWritten | src/init_dictionary.rs:746-773 | `create` as written advances HERE by 12 whatever the name's length |
| Writer.CreateAsWrittenMisplacesHere | src/init_dictionary.rs:746-773 | as written, HERE ends at the new entry's code field only for names of 4 to 7 bytes; a 9-byte name leaves HERE 4 bytes short of it |
| Writer.CreateAsWrittenLinks | src/init_dictionary.rs:746-773 | as written, `create` still puts a visible entry holding the name's first bytes in front of the list `_find` walks; the headers stay at or below HERE exactly for names of at most 7 bytes, and HERE is the code field exactly for 4 to 7 |
| Writer.CreateAsWrittenSearchable | src/init_dictionary.rs:746-773 | `create` as written, on any searchable list whose LATEST lies a cell below HERE, leaves it searchable: the new entry heads the walk, the old walk follows, and LATEST stays a cell below the new HERE |
| Writer.BackToBackCreates | src/init_dictionary.rs:746-773 | creating a 9-byte name and then a 3-byte one leaves the first header reaching past the new HERE, so the invariant fails, yet the walk visits both new entries, newest first, then the old ones |
| Writer.AlignAfterName | src/forthvm.rs:241-246 | an aligned entry's code field is 12 bytes after it exactly for 4 to 7 stored name bytes, and 16 bytes after it for 9 |
| Writer.Create | src/init_dictionary.rs:746-773 | corrected `create`: HERE ends at the new entry's code field |
| Writer.CreateLinks | src/tests/word_tests.rs:668-702 | corrected `create` adds a well-formed entry that heads the list, is neither hidden nor immediate, stores the name's first bytes and has HERE at its code field |
| Writer.CreateWrites | src/init_dictionary.rs:746-773 | `create` changes only the new header's bytes, HERE and LATEST |
| Machine.Step | src/forthvm.rs:16-24 | NEXT reads the token at IC, moves IC one cell on, keeps the token in A0 and runs the code its code field names; Threads.NextPrim and Effects.NextEntersColon state the two cases, and every running or halted result keeps the register block |
| Machine.Docol | src/lib.rs:79-101 | DOCOL pushes IC on the return stack, lowers RSP one cell and sets IC to the cell after A0's code field; it never halts (Effects.NextEntersColon) |
| Machine.Exec | src/init_dictionary.rs:12-626 | one primitive by its net effect; the Effects lemmas state each one, and a running or halted result keeps the register block |
| Machine.CharBytes | src/init_dictionary.rs:733-736 | the bytes `emit` prints for a byte taken as a char: the byte itself below 128, otherwise the two-byte UTF-8 form whose payload bits give the byte back |
| Machine.ToCfaOf | src/init_dictionary.rs:512-550 | `>cfa`'s arithmetic lands on the first cell boundary at or after the end of the stored name; Effects.ToCfaIsCfa ties it to the dictionary's code field |
| Machine.CreateStep | src/init_dictionary.rs:746-773 | `create` as written; Effects.CreateEffect states its effect |
| Machine.FindStep | src/init_dictionary.rs:776-795 | `find`; Effects.FindEffect states its result over the chain from LATEST |
| Machine.NumberStep | src/init_dictionary.rs:797-841 | `number`; Effects.NumberStepAgrees and Effects.NumberWithoutDigits state its results and faults |
| Machine.WordStep | src/init_dictionary.rs:867-887 | `word`; Effects.WordEffect states the copy and the pushed address and length |
| Machine.InterpretStep | src/init_dictionary.rs:646-714 | `interpret` as one step; the Interpreter lemmas state its run, compile, literal and unknown cases |
| Threads.Start | src/forthvm.rs:152-153 | once `run_word` has the code field address x, START_ADR holds x (wrapped to 32 bits) and IC points at START_ADR; nothing else in memory or the machine changes |
| Threads.RunWordEnters | src/forthvm.rs:151-158 | `run_word` on an entry w computes its code field with `cfa`; when that field holds DOCOL the first step enters the definition, with IC at the cell after the code field |
| Threads.RunWord | src/forthvm.rs:151-158 | `run_word` on the entry at w: a bounded run from Threads.Start at the code field `cfa` computes for w; Threads.RunWordEnters states its first step |
| Effects.NextEntersColon | src/lib.rs:74-102 | NEXT into a colon definition, then DOCOL: the return stack receives the address after the fetched cell, RSP moves down a cell, A0 holds the token and IC is the cell after the code field; only that return stack cell changes in memory |
| Effects.ExitReturnsFromDocol | src/init_dictionary.rs:228-259 | `exit` undoes DOCOL, restoring the caller's IC and RSP |
| Effects.LitPushesInline | src/init_dictionary.rs:200-226 | `lit` pushes the cell at IC and steps past it |
| Effects.BranchJumps | src/init_dictionary.rs:377-394 | `branch` adds the offset stored at IC to IC |
| Effects.ZeroBranchChooses | src/init_dictionary.rs:409-434 | `0branch` branches on 0 and otherwise skips its offset cell |
| Effects.ToRThenRFrom | src/tests/word_tests.rs:320-340 | `>r` then `r>` leaves both stacks and IC as they were |
| Effects.RDropDiscards | src/init_dictionary.rs:317-337 | `rdrop` discards the top of the return stack and nothing else |
| Effects.ExecuteIsNext | src/init_dictionary.rs:185-198 | `execute` on a token runs it exactly as NEXT would after fetching it |
| Effects.ToCfaIsCfa | src/init_dictionary.rs:512-550 | the masking arithmetic of `>cfa` computes `cfa` |
| Effects.ToCfaPushesCfa | src/init_dictionary.rs:512-550 | `>cfa` replaces an entry address by its code field address |
| Effects.HiddenToggles | src/init_dictionary.rs:589-611 | `hidden` flips HIDDEN of the given entry, keeps the length and IMMEDIATE, and changes no other byte |
| Effects.HiddenTwice | src/tests/word_tests.rs:528-552 | `hidden` twice restores the machine |
| Effects.HiddenEntryNotFound | src/tests/word_tests.rs:528-552 | a hidden entry is never what `_find` returns for a name shorter than 32 bytes |
| Effects.ImmediateToggles | src/init_dictionary.rs:449-477 | `immediate` flips IMMEDIATE of LATEST, keeps the length and HIDDEN, and changes no other byte |
| Effects.BracketsSetState | src/init_dictionary.rs:552-588 | `[` sets STATE to 0 and `]` sets it to 1, and nothing else changes |
| Effects.OverCopiesSecond | src/forthvm.rs:36-43 | OVER ( a b -- a b a ) |
| Effects.RotOnce | src/forthvm.rs:44-52 | ROT ( a b c -- b c a ) |
| Effects.RotThrice | src/forthvm.rs:44-52 | three ROTs restore the stack |
| Effects.ArithmeticEffect | src/init_dictionary.rs:139-149 | `+` and `*` push the wrapped sum and product |
| Effects.StackWordsEffect | src/init_dictionary.rs:132-166 | `dup` copies the top and a constant word pushes its value |
| Effects.FetchEffect | src/init_dictionary.rs:166 | `@` replaces an address by the cell there, and faults exactly when the cell lies outside memory or overlaps DSP, RSP, IC or A0 |
| Effects.DivModEffect | src/forthvm.rs:26-35 | DIV_MOD pushes the remainder, then the quotient; it faults on division by zero and on I32_MIN / -1 |
| Effects.CommaEffect | src/init_dictionary.rs:739-744 | the word `,` appends the popped value and changes nothing else |
| Effects.CreateEffect | src/init_dictionary.rs:746-773 | the word `create` on a short name, as written: LATEST becomes the old HERE, HERE moves 12 bytes past it, the visible new entry heads the list `_find` walks; HERE is its code field exactly for 4 to 7 bytes, and the invariant that headers end at or below HERE survives exactly up to 7 |
| Effects.FindEffect | src/init_dictionary.rs:776-795 | the word `find` on any chain whose links descend strictly to 0 with room for the comparison, overlapping headers included, replaces the query by the newest matching entry of that walk or 0, never a hidden one for a short name |
| Effects.CreateKeepsSearchable | src/init_dictionary.rs:746-773 | the word `create` on any searchable list, overlapping headers included, puts the new entry at the head of the walk and keeps the old walk behind it, so `find` keeps working after back-to-back creates |
| Effects.NumberStepAgrees | src/init_dictionary.rs:797-841 | on text inside memory and a valid BASE, the word `number` pushes the reference conversion's value and unconverted count, and faults only when the value leaves the i32 range |
| Effects.NumberWithoutDigits | src/init_dictionary.rs:806-841 | the word `number` pushes 0 0 for a zero or negative length and for a lone minus sign, whatever BASE holds, since the conversion loop of `_number` never runs |
| Effects.NumberStepAt | src/init_dictionary.rs:797-841 | `number` on text that converts completely to v replaces address and length by v and 0 |
| Effects.NumberOfFormat | src/init_dictionary.rs:797-841 | the word `number` converts the text of an integer back to it with 0 unconverted |
| Effects.WordEffect | src/init_dictionary.rs:867-887 | the word `word` copies the next token to IN_STREAM, pushes its address and length, and consumes the input through the separator |
| Effects.KeyThenEmitEchoes | src/init_dictionary.rs:733-736 | `key` then `emit` echoes the next input byte as the UTF-8 form of that byte taken as a char, which is the byte itself below 128 |
| Effects.KeyAtEnd | src/init_dictionary.rs:843-864 | `key` on exhausted input stops with an end-of-input fault |
| Threads.EnterWord | src/forthvm.rs:151-158 | the first step of `run_word` enters the colon definition through DOCOL |
| Threads.EnterRuns | src/forthvm.rs:151-158 | `run_word` for n + 1 steps is n steps from the entered definition |
| Threads.EnterThread | src/forthvm.rs:151-158 | after entry IC is the first body cell, the parameter stack is untouched and every dictionary cell below the return stack cell is kept |
| Threads.NextPrim | src/forthvm.rs:16-25 | NEXT on a primitive's token runs the primitive with IC past the token and the token in A0 |
| Threads.ByeHalts | src/init_dictionary.rs:184 | `bye` halts the run |
| Threads.BranchSkipsLiteral | src/tests/word_tests.rs:210-232 | the thread [branch 12 lit 4711 + bye] on 42 58 halts with 100 |
| Threads.ZeroBranchTaken | src/tests/word_tests.rs:235-261 | the thread [0branch 12 lit 256 lit 512 bye] on 0 halts with 512 |
| Threads.ZeroBranchNotTaken | src/tests/word_tests.rs:235-261 | the same thread on a nonzero flag halts with 256 512 |
| Threads.SquareCalled | src/tests/word_tests.rs:860-884 | [square bye], with square = [dup * exit], run on a, halts with a * a wrapped to 32 bits |
| Outer.Interpretation | src/init_dictionary.rs:646-714 | a literal only while interpreting; compiling appends one or two cells; a rejected token leaves 0 |
| Outer.CommaAll | src/init_dictionary.rs:739-744 | `,` on each cell in turn writes only the cells from the old HERE on, and advances HERE by one cell each |
| Outer.CommaAllStores | src/init_dictionary.rs:739-744 | after `,` on each cell in turn, the i-th cell from the old HERE holds cell i wrapped to 32 bits |
| Outer.InterpretsWord | src/init_dictionary.rs:646-714 | the newest matching entry is run when IMMEDIATE or while interpreting, and its code field is appended otherwise |
| Outer.InterpretsNumeral | src/init_dictionary.rs:646-714 | an unnamed numeral is pushed while interpreting and appended after `lit` while compiling |
| Outer.InterpretsUnknown | src/init_dictionary.rs:646-714 | an unnamed token is rejected exactly when it is not a number in BASE, and 0 stays on the stack |
| Interpreter.CopyKeeps | src/init_dictionary.rs:876-887 | copying a token to IN_STREAM keeps the registers, the list and every header, and the copy is matched by exactly the entries naming the token |
| Interpreter.InterpretExecutes | src/tests/word_tests.rs:941-972 | a found word, IMMEDIATE or found while interpreting, is run as `execute` runs its code field address |
| Interpreter.InterpretCompilesWord | src/init_dictionary.rs:646-714 | a found word that is not IMMEDIATE is appended while compiling, as `,` appends it |
| Interpreter.InterpretPushesNumber | src/init_dictionary.rs:646-714 | while interpreting, an unnamed number is pushed |
| Interpreter.InterpretCompilesNumber | src/init_dictionary.rs:646-714 | while compiling, an unnamed number is appended as `lit` and the number, HERE advancing two cells |
| Interpreter.InterpretRejects | src/init_dictionary.rs:646-714 | any other token emits '?' and leaves 0 on the stack |
| Interpreter.InterpretAtEnd | src/init_dictionary.rs:867-905 | whitespace-only input ends the run |
| Interpreter.InterpretPushes128 | src/tests/word_tests.rs:941-972 | interpreting "128 " pushes 128 |
| Interpreter.InterpretCompiles777 | src/tests/word_tests.rs:941-972 | compiling "777 " appends `lit` and 777 and advances HERE by 8 |

## Left out

- Input is a finite byte sequence. The refill loops of `key` and `word`, and the stdin and file readers of src/input_stream.rs, are I/O; where they would wait for a line, the model faults with end of input.
- The input buffer's cursor lives in a register the register map does not define. It is a plain value passed along.
- `.` prints its number in decimal on stdout; that, and all debug printing, are left out. `emit` appends the UTF-8 bytes that printing its byte as a char produces to an output sequence; stdout's buffering is left out.
- The `vocabulary` map of the host side is diagnostic only.
- The byte programs of the primitives are not decoded. A code table maps each code address to the primitive it implements, and each primitive is modelled by its net effect as described in the source's comments.
- The thin one-opcode words (`-`, `/`, `mod`, comparisons, logic, `!`, `c!`, `c@`, `drop`, `swap`, `negate`, `1+`, `4+`, `rsp@`, `rsp!`, the variable and constant words) are left out. `+`, `*`, `dup`, `@` and the constant words are kept because the test threads use them.
- IC, A0 and RSP are fields of the machine record, not cells in memory, and the parameter stack is a sequence, so DSP has no cell either. `@` faults on a cell that overlaps DSP, RSP, IC or A0 instead of reading the value the source would hold there.
- Machine.Exec: `@` on an address inside the parameter stack's memory region reads memory, which the model does not keep in step with the stack sequence; the source would read the stacked items.
- The parameter stack is a sequence, so `pstack_depth` is its length. `rstack_depth` and the stack-region carving in `from_config` are left out.
- Machine.Exec: every write below DICT is a fault (Clobber). This covers `hidden` and `immediate` on an entry below DICT (for instance `immediate` with LATEST = 0 toggles byte 4 in the source), `,` with HERE below DICT, `>r` and DOCOL with RSP below DICT, and `create`, `word` and `interpret` when HERE or IN_STREAM lies below DICT. The source writes there without complaint; the model keeps the register block [0, DICT) out of reach of the words it runs, because several of those cells are record fields here.
- Stack underflow, and a return-stack cell outside the dictionary region, are faults. Writes and reads outside memory are faults as well, because the model's memory is bounded.
- The colon definitions `2dup` and `hide` are left out. They are compositions of modelled words.
- `:`, `;` and `quit` are left out. They are compositions of `word`, `create`, `,`, `hidden`, `[`, `]` and `interpret`, each of which is modelled. So are the `: square dup * ;` compilation scenario and `16 cells` through `quit`. The thread that `: square dup * ;` compiles is run by Threads.SquareCalled.
- Outer.Interpretation: `interpret` is modelled as one macro step. The interpreter's return-stack temporaries (`>r`/`r>` inside its body) and its own return address are not modelled, and a word it runs is dispatched the way `execute` dispatches it.
- Interpreter.CopyKeeps: the scratch buffer at IN_STREAM is required to lie above HERE plus 13 bytes (BufferClear). The source places it above the return stack, far above the dictionary.
- Interpreter.InterpretCompilesNumber: requires two free cells at HERE. Without them the model faults.
- Effects.CreateEffect: stated for lengths below 32. Longer lengths set flag bits in the header byte. The machine's `create` is the source's, with HERE 12 bytes past the old HERE; the corrected `create` (Writer.Create) is proved about separately and no machine word runs it.
- Machine.FindStep: the walk faults (Corrupt) when a link from LATEST points upwards or to itself, into the register block other than to 0, or to an entry whose 13 name bytes would not all lie in memory. On a cycle the source's walk loops forever. An upward link without a cycle, or a link into the register block, the source would follow, and it reads an entry's name bytes only when the lengths agree; the source's own dictionary writers link every new entry down to the previous LATEST. Overlapping headers, which back-to-back `create`s of long names leave, are walked like any other (Writer.BackToBackCreates).
- Machine.FindStep: faults with a bad address unless all len bytes of the query lie in memory, even where the source never reads them: with LATEST = 0, or when no entry's length matches, `_find` returns 0 without touching the query (for instance len 5 at ptr = the size of memory returns 0 in the source).
- Outer.Interpretation: faults when the dictionary invariant fails, for instance after an as-written `create` of a name of 8 or more bytes, whose header reaches past HERE. The source's `interpret` would still search the list. The interpreter's lemmas are all stated under the invariant.
- Machine.NumberStep: faults with a bad address unless all len bytes of the token lie in memory, even where `_number` stops at an earlier non-digit and returns the count of bytes left (for instance, in radix 10, a token of length 5 whose first byte is an 'x' in the last byte of memory gives 0 5 in the source and a fault here).
- Machine.NumberStep: after the last digit, the source's conversion loop reads the byte just past the token before it leaves the loop. The model does not require that byte to exist, so a token ending exactly at the end of memory converts where the source would panic.
- Numbers.ParseNumber: computes over unbounded integers. The i32 overflow of the accumulator in `_number` is left out, and the machine's `number` faults when the magnitude leaves the i32 range.
- Effects.DivModEffect: division by zero and I32_MIN / -1 are faults. The source would panic.
- Lookup.HostFind: requires a non-empty dictionary. With LATEST = 0 the source would read the register block as an entry.
- Writer.WriteName: the source's test expects HERE + 8 after a 9-byte name. That matches a 7-byte name limit, not the 13 the source defines, so the model follows the code.
- The words that read undefined names in the tests (`1-`, `4-`, `char`) and the references that do not resolve in the source (`SOURCE_ID`, `INPUT_BUFFER_IN`, `make_string`) are left out.

## Findings

| source | as written | input that shows it | evidently intended | confidence | as-written member | corrected member |
|---|---|---|---|---|---|---|
| src/init_dictionary.rs:746-773 | `create` sets HERE to the old HERE plus 12 whatever the name's length | a 9-byte name at an aligned HERE: the code field is at HERE + 16, so the new HERE lies 4 bytes short of it, inside the stored name | HERE becomes the new entry's code field address, where `,` stores the code word and where `>cfa` looks | not executed | Writer.CreateAsWritten, Writer.CreateAsWrittenMisplacesHere, Writer.CreateAsWrittenLinks, Writer.BackToBackCreates, Effects.CreateEffect | Writer.Create, Writer.CreateLinks |

=== FILE: dictionary.dfy ===
/** Layout of a dictionary entry and the shape of the dictionary.

    An entry at address w is: the previous entry's address (one cell), the
    length/flags byte at w+4, the first min(len, 13) name bytes from w+5,
    padding up to the next 4-byte boundary, the code field, then the body.
    The dictionary is a singly linked list threaded through the prev cells,
    newest first, from LATEST down to the terminator 0.
 */
module Dictionary {
  import opened Layout
  import opened Memory

  function Here(m: Mem): int
    requires HasRegisters(m)
  {
    Reg(m, HERE)
  }

  function Latest(m: Mem): int
    requires HasRegisters(m)
  {
    Reg(m, LATEST)
  }

  /** The prev cell of the entry at w. */
  function Prev(m: Mem, w: int): int
    requires CellIn(m, w)
  {
    ReadI32(m, w)
  }

  function LenFlags(m: Mem, w: int): Byte
    requires ByteIn(m, w + 4)
  {
    m[w + 4]
  }

  /** The declared name length: the low five bits (LEN_MASK) of a
      length/flags byte. */
  function LenOf(b: Byte): (n: int)
    ensures 0 <= n < 32
  {
    b % 32
  }

  /** The HIDDEN bit (0x20) of a length/flags byte. */
  function IsHidden(b: Byte): bool {
    b % 64 >= 32
  }

  /** The IMMEDIATE bit (0x80) of a length/flags byte. */
  function IsImmediate(b: Byte): bool {
    b >= 128
  }

  /** The byte with its HIDDEN bit flipped. */
  function ToggleHidden(b: Byte): (r: Byte)
    ensures IsHidden(r) == !IsHidden(b)
    ensures LenOf(r) == LenOf(b) && IsImmediate(r) == IsImmediate(b)
  {
    if IsHidden(b) then b - 32 else b + 32
  }

  /** The byte with its IMMEDIATE bit flipped. */
  function ToggleImmediate(b: Byte): (r: Byte)
    ensures IsImmediate(r) == !IsImmediate(b)
    ensures LenOf(r) == LenOf(b) && IsHidden(r) == IsHidden(b)
  {
    if IsImmediate(b) then b - 128 else b + 128
  }

  /** The length and HIDDEN bits together are the length when the entry is
      not hidden, and the length plus 32 when it is. */
  lemma LenHiddenBits(b: Byte)
    ensures b % 64 == LenOf(b) + (if IsHidden(b) then 32 else 0)
  {
  }

  /** 2 to the power k: the bound of a k-bit value, never 0. */
  function Pow2(k: nat): (p: nat)
    ensures p >= 1
  {
    if k == 0 then 1 else 2 * Pow2(k - 1)
  }

  /** Bitwise or of two naturals, computed lowest bit first. */
  function OrNat(a: nat, b: nat): nat
    decreases a + b
  {
    if a == 0 then b
    else if b == 0 then a
    else (if a % 2 == 1 || b % 2 == 1 then 1 else 0) + 2 * OrNat(a / 2, b / 2)
  }

  /** Or-ing two values of k bits gives a value of k bits. */
  lemma {:induction false} OrNatBound(a: nat, b: nat, k: nat)
    requires a < Pow2(k) && b < Pow2(k)
    ensures OrNat(a, b) < Pow2(k)
    decreases a + b
  {
    if a != 0 && b != 0 {
      OrNatBound(a / 2, b / 2, k - 1);
    }
  }

  /** Bitwise or of two bytes. */
  function Or(a: Byte, b: Byte): Byte {
    assert Pow2(8) == 256;
    OrNatBound(a, b, 8);
    OrNat(a, b)
  }

  /** The arithmetic forms above are the source's bit operations on the
      length/flags byte: masking with LEN_MASK, with LEN_MASK | HIDDEN, and
      testing each flag. */
  lemma FlagMasks(b: bv8)
    ensures LenOf(b as int) == (b & LEN_MASK) as int
  {
  }

  lemma LenHiddenMask(b: bv8)
    ensures b as int % 64 == (b & (LEN_MASK | HIDDEN)) as int
  {
  }

  lemma FlagTests(b: bv8)
    ensures IsHidden(b as int) == (b & HIDDEN != 0)
    ensures IsImmediate(b as int) == (b & IMMEDIATE != 0)
  {
  }

  /** Flipping a flag with exclusive or is the arithmetic toggle. */
  lemma FlagToggles(b: bv8)
    ensures ToggleHidden(b as int) == (b ^ HIDDEN) as int
    ensures ToggleImmediate(b as int) == (b ^ IMMEDIATE) as int
  {
  }

  /** Or-ing a value below 2^j with a multiple of 2^j adds them. */
  lemma {:induction false} OrNatDisjoint(a: nat, c: nat, j: nat)
    requires a < Pow2(j)
    ensures OrNat(a, Pow2(j) * c) == a + Pow2(j) * c
    decreases a
  {
    if a != 0 && c != 0 {
      var p := Pow2(j - 1);
      assert Pow2(j) * c == 2 * (p * c);
      OrNatDisjoint(a / 2, c, j - 1);
    }
  }

  /** Or-ing flags without length bits into a length below 32 adds them, so
      the length bits of `len as u8 | flags` are len and the flag bits are
      those of flags. */
  lemma OrFlagsKeepsLength(len: int, flags: Byte)
    requires 0 <= len < 32 && flags % 32 == 0
    ensures Or(len, flags) == len + flags && LenOf(Or(len, flags)) == len
    ensures IsHidden(Or(len, flags)) == IsHidden(flags) && IsImmediate(Or(len, flags)) == IsImmediate(flags)
  {
    assert Pow2(5) == 32;
    assert flags == Pow2(5) * (flags / 32);
    OrNatDisjoint(len, flags / 32, 5);
    AddFlags(len, flags);
  }

  /** Adding flags without length bits to a length below 32 keeps the
      length and sets exactly the flags' bits. */
  lemma AddFlags(len: int, flags: Byte)
    requires 0 <= len < 32 && flags % 32 == 0
    ensures len + flags < 256 && LenOf(len + flags) == len
    ensures IsHidden(len + flags) == IsHidden(flags) && IsImmediate(len + flags) == IsImmediate(flags)
  {
  }

  /** Header bytes of a three-byte IMMEDIATE name and a five-byte HIDDEN
      name, and an or of overlapping bits. */
  lemma OrExamples()
    ensures Or(3, 0x80) == 0x83 && Or(5, 0x20) == 0x25 && Or(0x25, 0x30) == 0x35
  {
  }

  /** How many bytes of a name of declared length n are stored. */
  function StoredLen(n: int): (k: int)
    ensures k <= MAX_WORD_LEN
    ensures 0 <= n ==> 0 <= k <= n
  {
    if n < MAX_WORD_LEN then n else MAX_WORD_LEN
  }

  function NameLen(m: Mem, w: int): (k: int)
    requires ByteIn(m, w + 4)
    ensures 0 <= k <= MAX_WORD_LEN
  {
    StoredLen(LenOf(LenFlags(m, w)))
  }

  /** Code field address of the entry at w: the fixed header part (prev
      cell and length byte) plus the stored name, rounded up to a cell. */
  function Cfa(m: Mem, w: int): (c: int)
    requires ByteIn(m, w + 4)
    ensures c % 4 == 0
    ensures w + 5 + NameLen(m, w) <= c < w + 9 + NameLen(m, w)
  {
    Align(w + 5 + NameLen(m, w))
  }

  /** The code field depends only on the length bits: the HIDDEN and
      IMMEDIATE flags never move it. */
  lemma CfaIgnoresFlags(m: Mem, m': Mem, w: int)
    requires ByteIn(m, w + 4) && ByteIn(m', w + 4)
    requires LenOf(LenFlags(m', w)) == LenOf(LenFlags(m, w))
    ensures Cfa(m', w) == Cfa(m, w)
  {
  }

  /** The stored name bytes of the entry at w. */
  function StoredName(m: Mem, w: int): seq<Byte>
    requires ByteIn(m, w + 4) && RangeIn(m, w + 5, NameLen(m, w))
  {
    m[w + 5 .. w + 5 + NameLen(m, w)]
  }

  /** The header of the entry at w (prev cell, length byte and stored name)
      lies inside [DICT, bound). */
  predicate HeaderIn(m: Mem, w: int, bound: int)
    requires bound <= |m|
  {
    DICT <= w && w + 5 <= bound && w + 5 + NameLen(m, w) <= bound
  }

  /** Following prev links from w visits headers that each lie wholly below
      the entry visited before (below bound for the first), ending at 0. */
  predicate ChainOk(m: Mem, w: int, bound: int)
    requires bound <= |m|
    decreases bound
  {
    w == 0 || (HeaderIn(m, w, bound) && ChainOk(m, Prev(m, w), w))
  }

  /** The entries reachable from w, newest first. */
  function Chain(m: Mem, w: int, bound: int): (c: seq<int>)
    requires bound <= |m| && ChainOk(m, w, bound)
    ensures forall i :: 0 <= i < |c| ==> HeaderIn(m, c[i], bound)
    ensures w != 0 ==> |c| > 0 && c[0] == w
    decreases bound
  {
    if w == 0 then [] else [w] + Chain(m, Prev(m, w), w)
  }

  /** The dictionary invariant: registers present, HERE a cell boundary
      inside the dictionary region, and a well-formed chain from LATEST whose
      headers all lie below HERE. */
  predicate DictInv(m: Mem) {
    && HasRegisters(m)
    && DICT <= Here(m) <= |m|
    && Here(m) % 4 == 0
    && ChainOk(m, Latest(m), Here(m))
  }

  /** The entries of the dictionary, newest first. */
  function Entries(m: Mem): seq<int>
    requires DictInv(m)
  {
    Chain(m, Latest(m), Here(m))
  }

  /** Where the last header the runtime walk visits may start its name:
      it leaves room for the 13-byte name comparison before the end of
      memory. */
  function SearchBound(m: Mem): int {
    |m| - MAX_WORD_LEN
  }

  /** The walk of `_find` from w: every entry it visits lies in the
      dictionary region with its prev cell, length byte and 13 bytes of
      name inside memory, and every link leads strictly downwards, so the
      walk ends at 0. Headers may overlap: nothing keeps one entry's name
      clear of the next newer entry, nor below HERE. */
  predicate WalkOk(m: Mem, w: int)
    decreases w
  {
    w == 0 || (DICT <= w && w + 5 <= SearchBound(m) && Prev(m, w) < w && WalkOk(m, Prev(m, w)))
  }

  /** The entries the walk from w visits, newest first. */
  function Walk(m: Mem, w: int): (c: seq<int>)
    requires WalkOk(m, w)
    ensures forall i :: 0 <= i < |c| ==> DICT <= c[i] <= w && c[i] + 5 <= SearchBound(m)
    ensures w != 0 ==> |c| > 0 && c[0] == w
    decreases w
  {
    if w == 0 then [] else [w] + Walk(m, Prev(m, w))
  }

  /** The walk from LATEST ends at 0 and reads only inside memory. */
  predicate Searchable(m: Mem) {
    HasRegisters(m) && WalkOk(m, Latest(m))
  }

  /** The entries the runtime walk visits, newest first. */
  function SearchEntries(m: Mem): seq<int>
    requires Searchable(m)
  {
    Walk(m, Latest(m))
  }

  /** A well-formed chain with room for the comparison above its bound is
      walked through exactly its entries. */
  lemma {:induction false} ChainWalks(m: Mem, w: int, bound: int)
    requires bound + MAX_WORD_LEN <= |m| && ChainOk(m, w, bound)
    ensures WalkOk(m, w) && Walk(m, w) == Chain(m, w, bound)
    decreases bound
  {
    if w != 0 {
      ChainWalks(m, Prev(m, w), w);
    }
  }

  /** The walk reads only the prev cells of its entries, all in
      [DICT, w + 4): a memory of the same size that agrees there is walked
      the same way. */
  lemma {:induction false} WalkFrame(m: Mem, m': Mem, w: int)
    requires WalkOk(m, w) && |m'| == |m| && AgreeOn(m, m', DICT, w + CELL)
    ensures WalkOk(m', w) && Walk(m', w) == Walk(m, w)
    decreases w
  {
    if w != 0 {
      AgreeBytes(m, m', DICT, w + CELL, w, w + CELL);
      WalkFrame(m, m', Prev(m, w));
    }
  }

  /** A dictionary that keeps its invariant, with room for the comparison
      above HERE, can be searched, and the walk visits exactly its entries. */
  lemma DictSearchable(m: Mem)
    requires DictInv(m) && Here(m) + MAX_WORD_LEN <= |m|
    ensures Searchable(m) && SearchEntries(m) == Entries(m)
  {
    ChainWalks(m, Latest(m), Here(m));
  }

  /** Every entry's prev link points strictly downwards, and 0 is never an
      entry: the walk from LATEST visits strictly decreasing addresses and
      its last entry links to the terminator 0. */
  lemma {:induction false} ChainDescends(m: Mem, w: int, bound: int)
    requires bound <= |m| && ChainOk(m, w, bound)
    ensures var c := Chain(m, w, bound);
      && (forall i :: 0 <= i < |c| ==> 0 < c[i])
      && (forall i, j :: 0 <= i < j < |c| ==> c[j] < c[i])
      && (|c| > 0 ==> Prev(m, c[|c| - 1]) == 0)
    decreases bound
  {
    if w != 0 {
      var c := Chain(m, w, bound);
      var c' := Chain(m, Prev(m, w), w);
      ChainDescends(m, Prev(m, w), w);
      assert c == [w] + c';
      forall i, j | 0 <= i < j < |c|
        ensures c[j] < c[i]
      {
        assert c[j] == c'[j - 1];
        if i > 0 {
          assert c[i] == c'[i - 1];
        }
      }
      if |c'| == 0 {
        assert Prev(m, w) == 0;
      } else {
        assert c[|c| - 1] == c'[|c'| - 1];
      }
    }
  }

  /** A chain below some bound is a chain below any larger bound. */
  lemma {:induction false} ChainOkMono(m: Mem, w: int, bound: int, bound': int)
    requires bound <= bound' <= |m| && ChainOk(m, w, bound)
    ensures ChainOk(m, w, bound') && Chain(m, w, bound') == Chain(m, w, bound)
    decreases bound
  {
    if w != 0 {
      ChainOkMono(m, Prev(m, w), w, w);
    }
  }

  /** The chain reads only the bytes of [DICT, bound): a memory that agrees
      there has the same chain, with the same header bytes. */
  lemma {:induction false} ChainFrame(m: Mem, m': Mem, w: int, bound: int)
    requires bound <= |m| && bound <= |m'| && ChainOk(m, w, bound)
    requires AgreeOn(m, m', DICT, bound)
    ensures ChainOk(m', w, bound) && Chain(m', w, bound) == Chain(m, w, bound)
    decreases bound
  {
    if w != 0 {
      AgreeBytes(m, m', DICT, bound, w, w + 5);
      ChainFrame(m, m', Prev(m, w), w);
    }
  }

  /** An entry whose header bytes agree has the same length byte, code
      field address and stored name. */
  lemma HeaderAgrees(m: Mem, m': Mem, w: int, bound: int)
    requires bound <= |m| && bound <= |m'| && HeaderIn(m, w, bound)
    requires AgreeOn(m, m', DICT, bound)
    ensures LenFlags(m', w) == LenFlags(m, w) && Cfa(m', w) == Cfa(m, w)
    ensures StoredName(m', w) == StoredName(m, w)
  {
    AgreeBytes(m, m', DICT, bound, w, w + 5 + NameLen(m, w));
  }

  /** Every entry of a chain has its header, and the same header bytes, in a
      memory that agrees on [DICT, bound). */
  lemma {:induction false} ChainHeadersAgree(m: Mem, m': Mem, w: int, bound: int)
    requires bound <= |m| && bound <= |m'| && ChainOk(m, w, bound)
    requires AgreeOn(m, m', DICT, bound)
    ensures forall e :: e in Chain(m, w, bound) ==>
      LenFlags(m', e) == LenFlags(m, e) && Cfa(m', e) == Cfa(m, e) && StoredName(m', e) == StoredName(m, e)
    decreases bound
  {
    if w != 0 {
      var c := Chain(m, Prev(m, w), w);
      ChainHeadersAgree(m, m', Prev(m, w), w);
      HeaderAgrees(m, m', w, bound);
      assert Chain(m, w, bound) == [w] + c;
    }
  }
}

=== FILE: division.dfy ===
/** Rust's integer division on i32: `/` rounds toward zero and `%` takes
    the sign of the dividend, unlike Dafny's Euclidean operators. */
module Division {
  import opened Memory

  function Abs(x: int): nat {
    if x < 0 then -x else x
  }

  /** Rust's `/`: the quotient of the magnitudes, negated when the signs
      differ. */
  function TDiv(a: int, b: int): int
    requires b != 0
  {
    var q := Abs(a) / Abs(b);
    if (a < 0) == (b < 0) then q else -q
  }

  /** Rust's `%`: what the truncated quotient leaves over. */
  function TRem(a: int, b: int): int
    requires b != 0
  {
    a - b * TDiv(a, b)
  }

  /** Truncating division: dividend = divisor * quotient + remainder, the
      remainder is smaller than the divisor in magnitude and has the
      dividend's sign, and the quotient never overshoots. */
  lemma TruncatedDivision(a: int, b: int)
    requires b != 0
    ensures a == b * TDiv(a, b) + TRem(a, b)
    ensures Abs(TRem(a, b)) < Abs(b)
    ensures TRem(a, b) == 0 || (TRem(a, b) < 0 <==> a < 0)
    ensures Abs(TDiv(a, b)) * Abs(b) <= Abs(a)
  {
    Euclid(Abs(a), Abs(b));
    SignedRemainder(a, b);
  }

  /** Dafny's division on a natural and a positive divisor. */
  lemma Euclid(n: nat, d: int)
    requires d > 0
    ensures 0 <= n / d && d * (n / d) + n % d == n && 0 <= n % d < d
  {
  }

  /** The truncated remainder is the remainder of the magnitudes, carrying
      the dividend's sign. */
  lemma SignedRemainder(a: int, b: int)
    requires b != 0
    ensures Abs(TDiv(a, b)) == Abs(a) / Abs(b)
    ensures TRem(a, b) == if a < 0 then -(Abs(a) % Abs(b)) else Abs(a) % Abs(b)
  {
    var n, d := Abs(a), Abs(b);
    Euclid(n, d);
    var q: nat := n / d;
    SignedProduct(b, q, TDiv(a, b), (a < 0) != (b < 0));
  }

  /** b times the quotient q carrying the sign flip `neg`. */
  lemma SignedProduct(b: int, q: nat, t: int, neg: bool)
    requires t == if neg then -(q as int) else q
    ensures b * t == if neg then -(b * q) else b * q
  {
  }

  /** Of all i32 divisions only I32_MIN / -1 leaves the i32 range. */
  lemma QuotientRange(a: int, b: int)
    requires b != 0 && IsI32(a) && IsI32(b)
    ensures IsI32(TDiv(a, b)) <==> !(a == I32_MIN && b == -1)
  {
    if Abs(b) == 1 {
      assert TDiv(a, b) == if b == 1 then a else -a;
    } else {
      var n, d := Abs(a), Abs(b);
      Euclid(n, d);
      var q: nat := n / d;
      AtLeastDouble(d, q);
      assert Abs(TDiv(a, b)) == q;
    }
  }

  lemma AtLeastDouble(d: int, q: nat)
    requires 2 <= d
    ensures 2 * q <= d * q
  {
  }
}

=== FILE: effects.dfy ===
/** The net effect of NEXT, DOCOL and each primitive, and the laws that pair
    them up: DOCOL with `exit`, `>r` with `r>`, `execute` with NEXT, a flag
    toggle with itself, `>cfa` with the code field address.
 */
module Effects {
  import opened Layout
  import opened Memory
  import opened Dictionary
  import opened Results
  import opened Machine
  import Lookup
  import Numbers
  import Writer
  import Tokenizer
  import opened Division
  import opened Faults

  /** NEXT into a colon definition: the return stack receives the address of
      the cell after the one NEXT fetched, RSP moves down one cell, A0 holds
      the token and IC moves to the cell after the callee's code field. Only
      the return stack cell changes in memory. */
  lemma NextEntersColon(code: CodeTable, vm: Vm)
    requires Valid(vm) && CellIn(vm.mem, vm.ic) && IsI32(vm.ic + CELL)
    requires var xt := ReadI32(vm.mem, vm.ic);
      CellIn(vm.mem, xt) && ReadI32(vm.mem, xt) == DOCOL
    requires Writable(vm.mem, vm.rsp, CELL)
    ensures var xt := ReadI32(vm.mem, vm.ic);
      Step(code, vm) == Running(vm.(mem := WriteI32(vm.mem, vm.rsp, vm.ic + CELL), rsp := vm.rsp - CELL, ic := xt + CELL, a0 := xt))
    ensures Frame(vm.mem, WriteI32(vm.mem, vm.rsp, vm.ic + CELL), {}, vm.rsp, vm.rsp + CELL)
    ensures ReadI32(WriteI32(vm.mem, vm.rsp, vm.ic + CELL), vm.rsp) == vm.ic + CELL
  {
  }

  /** `exit` undoes DOCOL: after the callee has run with the return stack
      pointer back where DOCOL left it and the saved cell intact, `exit`
      resumes the caller at the saved IC with the caller's RSP. */
  lemma ExitReturnsFromDocol(code: CodeTable, vm: Vm, body: Vm)
    requires Valid(vm) && Writable(vm.mem, vm.rsp, CELL)
    requires Docol(vm).Running?
    requires Valid(body) && body.rsp == Docol(vm).vm.rsp
    requires CellIn(body.mem, vm.rsp) && ReadI32(body.mem, vm.rsp) == ReadI32(Docol(vm).vm.mem, vm.rsp)
    requires IsI32(vm.ic)
    ensures Exec(code, Exit, body) == Running(body.(rsp := vm.rsp, ic := vm.ic))
  {
  }

  /** `lit` pushes the cell IC points at and steps IC past it. */
  lemma LitPushesInline(code: CodeTable, vm: Vm)
    requires Valid(vm) && CellIn(vm.mem, vm.ic) && IsI32(vm.ic + CELL)
    ensures Exec(code, Lit, vm).Running?
    ensures Exec(code, Lit, vm).vm == vm.(ds := vm.ds + [ReadI32(vm.mem, vm.ic)], ic := vm.ic + CELL)
  {
  }

  /** `branch` moves IC by the offset stored in the cell it points at,
      counted from that cell. */
  lemma BranchJumps(code: CodeTable, vm: Vm)
    requires Valid(vm) && CellIn(vm.mem, vm.ic) && IsI32(vm.ic + ReadI32(vm.mem, vm.ic))
    ensures Exec(code, Branch, vm) == Running(vm.(ic := vm.ic + ReadI32(vm.mem, vm.ic)))
  {
  }

  /** `0branch` pops a flag; on 0 it branches like `branch`, otherwise it
      steps IC past the offset cell. */
  lemma ZeroBranchChooses(code: CodeTable, vm: Vm, f: int)
    requires Valid(vm) && CellIn(vm.mem, vm.ic)
    requires IsI32(vm.ic + ReadI32(vm.mem, vm.ic)) && IsI32(vm.ic + CELL)
    ensures f == 0 ==> Exec(code, ZeroBranch, Push(vm, f)) == Exec(code, Branch, vm)
    ensures f != 0 ==> Exec(code, ZeroBranch, Push(vm, f)) == Running(vm.(ic := vm.ic + CELL))
  {
    assert Pop(Push(vm, f)) == vm;
  }

  /** `>r` followed by `r>` leaves both stacks and IC as they were; only the
      return stack's free cell keeps a copy of the value. */
  lemma ToRThenRFrom(code: CodeTable, vm: Vm)
    requires Valid(vm) && |vm.ds| > 0 && Writable(vm.mem, vm.rsp, CELL)
    requires IsI32(Top(vm))
    ensures Exec(code, ToR, vm).Running?
    ensures Exec(code, RFrom, Exec(code, ToR, vm).vm) == Running(vm.(mem := WriteI32(vm.mem, vm.rsp, Top(vm))))
  {
    var v1 := Exec(code, ToR, vm).vm;
    assert ReadI32(v1.mem, vm.rsp) == Top(vm);
    assert Pop(vm).ds + [Top(vm)] == vm.ds;
  }

  /** `rdrop` discards the top of the return stack and nothing else. */
  lemma RDropDiscards(code: CodeTable, vm: Vm)
    requires Valid(vm) && IsI32(vm.rsp + CELL)
    ensures Exec(code, RDrop, vm) == Running(vm.(rsp := vm.rsp + CELL))
  {
  }

  /** `execute` runs a token exactly as NEXT would after fetching it from
      the cell at IC: same dispatch register, same code, IC left alone. */
  lemma ExecuteIsNext(code: CodeTable, vm: Vm)
    requires Valid(vm) && CellIn(vm.mem, vm.ic) && CellIn(vm.mem, ReadI32(vm.mem, vm.ic))
    ensures var after := vm.(ic := Wrap32(vm.ic + CELL));
      Step(code, vm) == Exec(code, Execute, Push(after, ReadI32(vm.mem, vm.ic)))
  {
    var xt := ReadI32(vm.mem, vm.ic);
    var after := vm.(ic := Wrap32(vm.ic + CELL));
    StepDispatches(code, vm);
    ExecuteDispatches(code, after, xt);
    assert after.(a0 := xt) == vm.(ic := Wrap32(vm.ic + CELL), a0 := xt);
  }

  /** NEXT dispatches on the cell at the token it fetches. */
  lemma StepDispatches(code: CodeTable, vm: Vm)
    requires Valid(vm) && CellIn(vm.mem, vm.ic) && CellIn(vm.mem, ReadI32(vm.mem, vm.ic))
    ensures var xt := ReadI32(vm.mem, vm.ic);
      Step(code, vm) == Dispatch(code, vm.(ic := Wrap32(vm.ic + CELL), a0 := xt), ReadI32(vm.mem, xt))
  {
  }

  /** `execute` with xt on top dispatches on the cell at xt. */
  lemma ExecuteDispatches(code: CodeTable, vm: Vm, xt: int)
    requires Valid(vm) && CellIn(vm.mem, xt)
    ensures Exec(code, Execute, Push(vm, xt)) == Dispatch(code, vm.(a0 := xt), ReadI32(vm.mem, xt))
  {
    assert Pop(Push(vm, xt)) == vm;
  }

  /** The address `>cfa` computes with its masking arithmetic is the code
      field address of the entry. */
  lemma ToCfaIsCfa(m: Mem, w: int)
    requires ByteIn(m, w + 4)
    ensures ToCfaOf(m, w) == Cfa(m, w)
  {
  }

  /** `>cfa` replaces an entry address with its code field address. */
  lemma ToCfaPushesCfa(code: CodeTable, vm: Vm, w: int)
    requires Valid(vm) && ByteIn(vm.mem, w + 4)
    ensures Exec(code, ToCfa, Push(vm, w)) == Running(Push(vm, Cfa(vm.mem, w)))
  {
    ToCfaIsCfa(vm.mem, w);
    assert Pop(Push(vm, w)) == vm;
  }

  /** `hidden` flips the HIDDEN bit of the entry at w and changes no other
      byte; the length bits and the IMMEDIATE bit stay. */
  lemma HiddenToggles(code: CodeTable, vm: Vm, w: int)
    requires Valid(vm) && Writable(vm.mem, w + 4, 1)
    ensures Exec(code, Hidden, Push(vm, w)).Running?
    ensures var m' := Exec(code, Hidden, Push(vm, w)).vm.mem;
      && Frame(vm.mem, m', {}, w + 4, w + 5)
      && IsHidden(LenFlags(m', w)) == !IsHidden(LenFlags(vm.mem, w))
      && LenOf(LenFlags(m', w)) == LenOf(LenFlags(vm.mem, w))
      && IsImmediate(LenFlags(m', w)) == IsImmediate(LenFlags(vm.mem, w))
      && Exec(code, Hidden, Push(vm, w)).vm == vm.(mem := m')
  {
    assert Pop(Push(vm, w)) == vm;
  }

  /** `hidden` twice on the same entry restores the memory. */
  lemma HiddenTwice(code: CodeTable, vm: Vm, w: int)
    requires Valid(vm) && Writable(vm.mem, w + 4, 1)
    ensures Exec(code, Hidden, Push(vm, w)).Running?
    ensures Exec(code, Hidden, Push(Exec(code, Hidden, Push(vm, w)).vm, w)) == Running(vm)
  {
    HiddenToggles(code, vm, w);
    var v1 := Exec(code, Hidden, Push(vm, w)).vm;
    HiddenToggles(code, v1, w);
    assert v1.mem[w + 4 := ToggleHidden(v1.mem[w + 4])] == vm.mem;
  }

  /** A hidden entry is invisible to `find` for names shorter than 32 bytes,
      whatever its name. */
  lemma HiddenEntryNotFound(m: Mem, w: int, len: int, ptr: int)
    requires DictInv(m) && Lookup.CompareRoom(m, Here(m)) && Lookup.QueryIn(m, len, ptr)
    requires w in Entries(m) && IsHidden(LenFlags(m, w)) && len < 32
    ensures Lookup.Find(m, len, ptr) != w
  {
  }

  /** `immediate` flips the IMMEDIATE bit of the newest entry and changes no
      other byte; what `find` returns does not change. */
  lemma ImmediateToggles(code: CodeTable, vm: Vm)
    requires Valid(vm) && Writable(vm.mem, Latest(vm.mem) + 4, 1)
    ensures Exec(code, Immediate, vm).Running?
    ensures var m' := Exec(code, Immediate, vm).vm.mem;
      var w := Latest(vm.mem);
      && Frame(vm.mem, m', {}, w + 4, w + 5)
      && IsImmediate(LenFlags(m', w)) == !IsImmediate(LenFlags(vm.mem, w))
      && LenOf(LenFlags(m', w)) == LenOf(LenFlags(vm.mem, w))
      && IsHidden(LenFlags(m', w)) == IsHidden(LenFlags(vm.mem, w))
      && Exec(code, Immediate, vm).vm == vm.(mem := m')
  {
  }

  /** `[` sets STATE to 0 (interpreting) and `]` to 1 (compiling); nothing
      else changes. */
  lemma BracketsSetState(code: CodeTable, vm: Vm)
    requires Valid(vm)
    ensures Exec(code, LeftBracket, vm).Running? && Exec(code, RightBracket, vm).Running?
    ensures var l := Exec(code, LeftBracket, vm).vm;
      var r := Exec(code, RightBracket, vm).vm;
      && Reg(l.mem, STATE) == 0 && Reg(r.mem, STATE) == 1
      && Frame(vm.mem, l.mem, {STATE}, 0, 0) && Frame(vm.mem, r.mem, {STATE}, 0, 0)
      && l == vm.(mem := l.mem) && r == vm.(mem := r.mem)
  {
  }

  /** OVER ( a b -- a b a ). */
  lemma OverCopiesSecond(code: CodeTable, vm: Vm, a: int, b: int)
    requires Valid(vm)
    ensures Exec(code, Over, Push(Push(vm, a), b)) == Running(Push(Push(Push(vm, a), b), a))
  {
  }

  /** ROT ( a b c -- b c a ). */
  lemma RotOnce(code: CodeTable, vm: Vm, a: int, b: int, c: int)
    requires Valid(vm)
    ensures Exec(code, Rot, Push(Push(Push(vm, a), b), c)) == Running(Push(Push(Push(vm, b), c), a))
  {
  }

  /** Three rotations restore the stack. */
  lemma RotThrice(code: CodeTable, vm: Vm, a: int, b: int, c: int)
    requires Valid(vm)
    ensures var v := Push(Push(Push(vm, a), b), c);
      Exec(code, Rot, Exec(code, Rot, Exec(code, Rot, v).vm).vm) == Running(v)
  {
    RotOnce(code, vm, a, b, c);
    RotOnce(code, vm, b, c, a);
    RotOnce(code, vm, c, a, b);
  }

  /** `+` and `*` replace the two top items by their sum and product,
      wrapped to 32 bits. */
  lemma ArithmeticEffect(code: CodeTable, vm: Vm, a: int, b: int)
    requires Valid(vm)
    ensures Exec(code, Add, Push(Push(vm, a), b)) == Running(Push(vm, Wrap32(a + b)))
    ensures Exec(code, Mul, Push(Push(vm, a), b)) == Running(Push(vm, Wrap32(a * b)))
  {
    assert Push(Push(vm, a), b).ds[.. |vm.ds|] == vm.ds;
  }

  /** DUP copies the top item; a constant word pushes its value. */
  lemma StackWordsEffect(code: CodeTable, vm: Vm, v: int)
    requires Valid(vm)
    ensures Exec(code, Dup, Push(vm, v)) == Running(Push(Push(vm, v), v))
    ensures Exec(code, Const(v), vm) == Running(Push(vm, v))
  {
  }

  /** `@` replaces an address by the cell there, and faults exactly when
      the cell leaves memory or overlaps a register the machine record
      holds. */
  lemma FetchEffect(code: CodeTable, vm: Vm, v: int)
    requires Valid(vm)
    ensures CellIn(vm.mem, v) && !Shadowed(v) ==> Exec(code, Fetch, Push(vm, v)) == Running(Push(vm, ReadI32(vm.mem, v)))
    ensures Exec(code, Fetch, Push(vm, v)).Running? <==> CellIn(vm.mem, v) && !(v - CELL < IC < v + CELL)
                                                          && !(v - CELL < A0 < v + CELL) && !(v - CELL < RSP < v + CELL)
                                                          && !(v - CELL < DSP < v + CELL)
  {
    assert Pop(Push(vm, v)) == vm;
  }

  /** The DIV_MOD opcode ( a b -- r q ) with its two fault cases. */
  lemma DivModEffect(code: CodeTable, vm: Vm, a: int, b: int)
    requires Valid(vm)
    ensures b == 0 ==> Exec(code, DivMod, Push(Push(vm, a), b)) == Faulted(DivideByZero)
    ensures b != 0 && IsI32(a) && IsI32(b) ==>
      (Exec(code, DivMod, Push(Push(vm, a), b)).Faulted? <==> a == I32_MIN && b == -1)
    ensures b != 0 && IsI32(TDiv(a, b)) ==>
      Exec(code, DivMod, Push(Push(vm, a), b)) == Running(Push(Push(vm, TRem(a, b)), TDiv(a, b)))
  {
    if b != 0 && IsI32(a) && IsI32(b) {
      QuotientRange(a, b);
    }
  }

  /** `,` stores the popped value at HERE, advances HERE by one cell and
      changes nothing else. */
  lemma CommaEffect(code: CodeTable, vm: Vm, v: int)
    requires Valid(vm) && Writable(vm.mem, Here(vm.mem), CELL)
    ensures Exec(code, Comma, Push(vm, v)).Running?
    ensures var m' := Exec(code, Comma, Push(vm, v)).vm.mem;
      && Exec(code, Comma, Push(vm, v)).vm == vm.(mem := m')
      && ReadI32(m', Here(vm.mem)) == Wrap32(v)
      && Here(m') == Here(vm.mem) + CELL
      && Writer.Appended(vm.mem, m', Here(vm.mem), Here(vm.mem) + CELL)
  {
    assert Pop(Push(vm, v)) == vm;
  }

  /** `create` ( ptr len -- ) on a short name, as the source writes it:
      the new entry heads the list the runtime walk searches, visible and
      holding the name's first bytes, LATEST is the old HERE and HERE moves
      12 bytes past it. That is the new code field only for names of 4 to 7
      bytes, and the headers stay at or below HERE only up to 7. */
  lemma CreateEffect(vm: Vm, ptr: int, len: int)
    requires Valid(vm) && DictInv(vm.mem) && 0 <= len < 32
    requires Writable(vm.mem, Here(vm.mem), 5 + StoredLen(len)) && RangeIn(vm.mem, ptr, StoredLen(len))
    requires ptr + StoredLen(len) <= Here(vm.mem) || Here(vm.mem) + 5 <= ptr
    requires Here(vm.mem) + 5 + StoredLen(len) <= SearchBound(vm.mem)
    ensures CreateStep(Push(Push(vm, ptr), len)).Running?
    ensures var v' := CreateStep(Push(Push(vm, ptr), len)).vm;
      var w := Here(vm.mem);
      && v' == vm.(mem := v'.mem)
      && Latest(v'.mem) == w && Here(v'.mem) == w + 12
      && Searchable(v'.mem) && SearchEntries(v'.mem) == [w] + Entries(vm.mem)
      && !IsHidden(LenFlags(v'.mem, w)) && !IsImmediate(LenFlags(v'.mem, w))
      && StoredName(v'.mem, w) == vm.mem[ptr .. ptr + StoredLen(len)]
      && (Here(v'.mem) == Cfa(v'.mem, w) <==> 4 <= len <= 7)
      && (DictInv(v'.mem) <==> len <= 7)
  {
    Writer.CreateAsWrittenLinks(vm.mem, len, ptr);
    CreateStepRuns(vm, ptr, len);
  }

  /** `create` keeps any searchable list searchable, including the
      overlapping headers earlier creates of long names leave: the new
      entry heads the walk and the old walk follows it. */
  lemma CreateKeepsSearchable(vm: Vm, ptr: int, len: int)
    requires Valid(vm) && Searchable(vm.mem) && Latest(vm.mem) + CELL <= Here(vm.mem) && 0 <= len < 32
    requires Writable(vm.mem, Here(vm.mem), 5 + StoredLen(len)) && RangeIn(vm.mem, ptr, StoredLen(len))
    requires Here(vm.mem) + 5 <= SearchBound(vm.mem)
    ensures CreateStep(Push(Push(vm, ptr), len)).Running?
    ensures var v' := CreateStep(Push(Push(vm, ptr), len)).vm;
      && v' == vm.(mem := v'.mem)
      && Searchable(v'.mem) && SearchEntries(v'.mem) == [Here(vm.mem)] + SearchEntries(vm.mem)
      && Latest(v'.mem) + CELL <= Here(v'.mem)
  {
    Writer.SmallLength(len);
    CreateStepRuns(vm, ptr, len);
    Writer.CreateAsWrittenSearchable(vm.mem, len, ptr);
  }

  lemma CreateStepRuns(vm: Vm, ptr: int, len: int)
    requires Valid(vm) && 0 <= len < 32
    requires Writable(vm.mem, Here(vm.mem), 5 + StoredLen(len)) && RangeIn(vm.mem, ptr, StoredLen(len))
    ensures CreateStep(Push(Push(vm, ptr), len)) == Running(vm.(mem := Writer.CreateAsWritten(vm.mem, len, ptr)))
  {
    var v2 := Push(Push(vm, ptr), len);
    Writer.SmallLength(len);
    assert Writer.CopyLen(len) == StoredLen(len);
    assert v2.ds[.. |v2.ds| - 2] == vm.ds;
  }

  /** `find` ( ptr len -- w ) replaces the query by the newest entry that
      matches it, or by 0 when none does; a hidden entry is never the
      answer to a query shorter than 32 bytes. */
  lemma FindEffect(code: CodeTable, vm: Vm, ptr: int, len: int)
    requires Valid(vm) && Searchable(vm.mem) && Lookup.QueryIn(vm.mem, len, ptr)
    ensures Exec(code, Find, Push(Push(vm, ptr), len)).Running?
    ensures var v' := Exec(code, Find, Push(Push(vm, ptr), len)).vm;
      var m := vm.mem;
      && |v'.ds| == |vm.ds| + 1 && v' == Push(vm, Top(v'))
      && (Top(v') != 0 ==> Top(v') in SearchEntries(m) && Lookup.Matches(m, Top(v'), len, ptr))
      && (Top(v') != 0 ==> forall e :: e in SearchEntries(m) && e > Top(v') ==> !Lookup.Matches(m, e, len, ptr))
      && (Top(v') == 0 ==> forall e :: e in SearchEntries(m) ==> !Lookup.Matches(m, e, len, ptr))
      && (Top(v') != 0 && len < 32 ==> !IsHidden(LenFlags(m, Top(v'))))
  {
    var v2 := Push(Push(vm, ptr), len);
    assert v2.ds[.. |v2.ds| - 2] == vm.ds;
  }

  /** `number` converts the text of any integer whose magnitude fits in an
      i32 back to that integer, with nothing left unconverted. */
  lemma NumberOfFormat(code: CodeTable, vm: Vm, ptr: int, v: int)
    requires Valid(vm) && Numbers.ValidRadix(Reg(vm.mem, BASE)) && -I32_MAX <= v <= I32_MAX
    requires var s := Numbers.Format(v, Reg(vm.mem, BASE));
      RangeIn(vm.mem, ptr, |s|) && vm.mem[ptr .. ptr + |s|] == s
    ensures var len := |Numbers.Format(v, Reg(vm.mem, BASE))|;
      Exec(code, Number, Push(Push(vm, ptr), len)) == Running(Push(Push(vm, v), 0))
  {
    NumberStepRuns(vm, ptr, v);
  }

  lemma NumberStepRuns(vm: Vm, ptr: int, v: int)
    requires Valid(vm) && Numbers.ValidRadix(Reg(vm.mem, BASE)) && -I32_MAX <= v <= I32_MAX
    requires var s := Numbers.Format(v, Reg(vm.mem, BASE));
      RangeIn(vm.mem, ptr, |s|) && vm.mem[ptr .. ptr + |s|] == s
    ensures var len := |Numbers.Format(v, Reg(vm.mem, BASE))|;
      NumberStep(Push(Push(vm, ptr), len)) == Running(Push(Push(vm, v), 0))
  {
    var s := FormatAt(vm, ptr, v);
    NumberStepOn(vm, ptr, s, v);
  }

  /** The text of v at ptr converts back to v. */
  lemma FormatAt(vm: Vm, ptr: int, v: int) returns (s: seq<Byte>)
    requires Valid(vm) && Numbers.ValidRadix(Reg(vm.mem, BASE))
    requires var s := Numbers.Format(v, Reg(vm.mem, BASE));
      RangeIn(vm.mem, ptr, |s|) && vm.mem[ptr .. ptr + |s|] == s
    ensures s == Numbers.Format(v, Reg(vm.mem, BASE))
    ensures RangeIn(vm.mem, ptr, |s|) && vm.mem[ptr .. ptr + |s|] == s
    ensures Numbers.ParseNumber(s, Reg(vm.mem, BASE)) == (v, 0)
  {
    s := Numbers.Format(v, Reg(vm.mem, BASE));
    Numbers.ParseFormat(v, Reg(vm.mem, BASE));
  }

  /** `number` on text at ptr that converts to v with nothing left over. */
  lemma NumberStepOn(vm: Vm, ptr: int, s: seq<Byte>, v: int)
    requires Valid(vm) && Numbers.ValidRadix(Reg(vm.mem, BASE)) && -I32_MAX <= v <= I32_MAX
    requires RangeIn(vm.mem, ptr, |s|) && vm.mem[ptr .. ptr + |s|] == s
    requires Numbers.ParseNumber(s, Reg(vm.mem, BASE)) == (v, 0)
    ensures NumberStep(Push(Push(vm, ptr), |s|)) == Running(Push(Push(vm, v), 0))
  {
    PushTwo(vm, ptr, |s|);
    PushTwo(vm, v, 0);
    NumberStepAt(vm.(ds := vm.ds + [ptr, |s|]), vm.ds, ptr, |s|, v);
  }

  lemma PushTwo(vm: Vm, a: int, b: int)
    ensures Push(Push(vm, a), b) == vm.(ds := vm.ds + [a, b])
  {
    assert vm.ds + [a] + [b] == vm.ds + [a, b];
  }

  /** `number` on a stack ending in ptr and len whose text converts to v. */
  lemma NumberStepAt(vm: Vm, d: seq<int>, ptr: int, len: int, v: int)
    requires Valid(vm) && vm.ds == d + [ptr, len] && RangeIn(vm.mem, ptr, len)
    requires Numbers.ValidRadix(Reg(vm.mem, BASE)) && -I32_MAX <= v <= I32_MAX
    requires Numbers.ParseNumber(vm.mem[ptr .. ptr + len], Reg(vm.mem, BASE)) == (v, 0)
    ensures NumberStep(vm) == Running(vm.(ds := d + [v, 0]))
  {
    assert vm.ds[.. |vm.ds| - 2] == d;
  }

  /** `number` agrees with the reference conversion: on text inside memory
      and a valid BASE it pushes the converted value and the count of bytes
      left unconverted, unless the value leaves the i32 range. */
  lemma NumberStepAgrees(vm: Vm, d: seq<int>, ptr: int, len: int)
    requires Valid(vm) && vm.ds == d + [ptr, len] && RangeIn(vm.mem, ptr, len)
    requires Numbers.ValidRadix(Reg(vm.mem, BASE))
    ensures var r := Numbers.ParseNumber(vm.mem[ptr .. ptr + len], Reg(vm.mem, BASE));
      NumberStep(vm) == if -I32_MAX <= r.0 <= I32_MAX then Running(vm.(ds := d + [r.0, r.1])) else Faulted(Overflow)
  {
    assert vm.ds[.. |vm.ds| - 2] == d;
    if len == 1 {
      assert vm.mem[ptr .. ptr + len] == [vm.mem[ptr]];
    }
  }

  /** `number` on an empty or negative length, or on a lone minus sign,
      pushes 0 0 whatever BASE holds: the conversion loop never runs. */
  lemma NumberWithoutDigits(vm: Vm, d: seq<int>, ptr: int, len: int)
    requires Valid(vm) && vm.ds == d + [ptr, len]
    requires || len == 0
             || (len < 0 && ByteIn(vm.mem, ptr) && (vm.mem[ptr] == Numbers.MINUS ==> ByteIn(vm.mem, ptr + 1)))
             || (len == 1 && ByteIn(vm.mem, ptr) && vm.mem[ptr] == Numbers.MINUS)
    ensures NumberStep(vm) == Running(vm.(ds := d + [0, 0]))
  {
    assert vm.ds[.. |vm.ds| - 2] == d;
  }

  /** `word` on input holding whitespace, a token and one more whitespace
      byte copies the token to IN_STREAM, pushes its address and length and
      leaves the input after the separator. Only the token's bytes change. */
  lemma WordEffect(code: CodeTable, vm: Vm, pre: seq<Byte>, t: seq<Byte>, sep: Byte, rest: seq<Byte>)
    requires Valid(vm) && vm.input == pre + t + [sep] + rest
    requires forall i :: 0 <= i < |pre| ==> Tokenizer.IsSpace(pre[i])
    requires Tokenizer.IsToken(t) && Tokenizer.IsSpace(sep)
    requires Writable(vm.mem, Reg(vm.mem, IN_STREAM), |t|)
    ensures Exec(code, Word, vm).Running?
    ensures var v' := Exec(code, Word, vm).vm;
      var a := Reg(vm.mem, IN_STREAM);
      && v'.ds == vm.ds + [a, |t|] && v'.input == rest
      && v'.mem[a .. a + |t|] == t && Frame(vm.mem, v'.mem, {}, a, a + |t|)
      && v' == vm.(mem := v'.mem, ds := v'.ds, input := v'.input)
  {
    Tokenizer.WordOfSpaced(pre, t, sep, rest);
  }

  /** `key` followed by `emit` echoes the next input byte to the output,
      as that byte for ASCII and as its two-byte UTF-8 form above, and
      leaves the stack as it was. */
  lemma KeyThenEmitEchoes(code: CodeTable, vm: Vm, c: Byte, rest: seq<Byte>)
    requires Valid(vm) && vm.input == [c] + rest
    ensures Exec(code, Key, vm).Running?
    ensures Exec(code, Emit, Exec(code, Key, vm).vm) == Running(vm.(input := rest, output := vm.output + CharBytes(c)))
    ensures c < 128 ==> Exec(code, Emit, Exec(code, Key, vm).vm) == Running(vm.(input := rest, output := vm.output + [c]))
  {
    KeyReads(code, vm, c, rest);
    EmitWrites(code, vm.(input := rest), c);
  }

  lemma KeyReads(code: CodeTable, vm: Vm, c: Byte, rest: seq<Byte>)
    requires Valid(vm) && vm.input == [c] + rest
    ensures Exec(code, Key, vm) == Running(Push(vm, c).(input := rest))
  {
  }

  lemma EmitWrites(code: CodeTable, vm: Vm, c: Byte)
    requires Valid(vm)
    ensures Exec(code, Emit, Push(vm, c)) == Running(vm.(output := vm.output + CharBytes(c)))
  {
    assert Pop(Push(vm, c)) == vm;
  }

  /** `key` on exhausted input stops the machine where the source would wait
      for a line. */
  lemma KeyAtEnd(code: CodeTable, vm: Vm)
    requires Valid(vm) && vm.input == []
    ensures Exec(code, Key, vm) == Faulted(EndOfInput)
  {
  }
}

=== FILE: faults.dfy ===
/** Why the machine stops short of the next step. The source either panics
    or reads garbage in these cases; the model stops instead. */
module Faults {
  datatype Fault =
    | Underflow          // a pop from an empty parameter stack
    | BadAddress         // a read or write outside memory
    | Clobber            // a write into the register block or the trampoline
    | UnknownCode(code: int)
    | DivideByZero
    | Overflow           // a quotient or a parsed number outside the i32 range
    | BadRadix
    | Corrupt            // a lookup on a dictionary whose chain is broken
    | EndOfInput
}

=== FILE: input.dfy ===
/** The length-prefixed input line buffer.

    The register INPUT_BUFFER holds the buffer's address b. The byte at b is
    the line length truncated to a byte and the line's bytes follow from
    b + 1. A cursor counts the bytes already read; the source keeps it in a
    register cell that its register map does not define, so here it is a
    plain value passed along with the memory.
 */
module InputBuffer {
  import opened Layout
  import opened Memory
  import opened Results

  /** Address of the buffer. */
  function BufferAt(m: Mem): int
    requires HasRegisters(m)
  {
    Reg(m, INPUT_BUFFER)
  }

  /** The buffer's length byte and every byte it counts lie in memory, above
      the register block. */
  predicate BufferIn(m: Mem) {
    && HasRegisters(m)
    && DOCOL <= BufferAt(m)
    && BufferAt(m) < |m|
    && RangeIn(m, BufferAt(m) + 1, m[BufferAt(m)])
  }

  /** The bytes still to be read at cursor cur: those of the line after the
      first cur. */
  function Pending(m: Mem, cur: int): (p: seq<Byte>)
    requires BufferIn(m) && 0 <= cur
    ensures |p| == if cur < m[BufferAt(m)] then m[BufferAt(m)] - cur else 0
  {
    var b := BufferAt(m);
    if cur < m[b] then m[b + 1 + cur .. b + 1 + m[b]] else []
  }

  /** `fill_input_buffer`: stores the length of s as a byte, then the bytes
      of s; the cursor becomes 0. */
  function Fill(m: Mem, s: seq<Byte>): (m': Mem)
    requires HasRegisters(m) && DOCOL <= BufferAt(m) && RangeIn(m, BufferAt(m), 1 + |s|)
    ensures BufferIn(m') && BufferAt(m') == BufferAt(m)
    ensures Frame(m, m', {}, BufferAt(m), BufferAt(m) + 1 + |s|)
    ensures Pending(m', 0) == s[.. |s| % 256]
  {
    var b := BufferAt(m);
    var m1 := WriteU8(m, b, |s| % 256);
    var m' := WriteBytes(m1, b + 1, s);
    FrameCompose(m, m1, m', {}, {}, b, b + 1, b + 1, b + 1 + |s|);
    FrameReadI32(m, m', {}, b, b + 1 + |s|, INPUT_BUFFER);
    assert At(m', b) == At(m1, b);
    assert m'[b + 1 .. b + 1 + |s| % 256] == m'[b + 1 .. b + 1 + |s|][.. |s| % 256];
    m'
  }

  /** `read_next_char_in`: the next byte of the line and the advanced cursor,
      or None once the line is used up (the cursor then stays). */
  function ReadNextChar(m: Mem, cur: int): (r: Option<(Byte, int)>)
    requires BufferIn(m) && 0 <= cur
    ensures r.None? <==> Pending(m, cur) == []
    ensures r.Some? ==> r.value.1 == cur + 1 && [r.value.0] + Pending(m, r.value.1) == Pending(m, cur)
  {
    var b := BufferAt(m);
    var len := m[b];
    if len == 0 || cur >= len then None
    else Some((m[b + cur + 1], cur + 1))
  }

  /** Reading until None yields exactly the pending bytes. */
  method Drain(m: Mem, cur: int) returns (out: seq<Byte>, cur': int)
    requires BufferIn(m) && 0 <= cur
    ensures out == Pending(m, cur)
    ensures cur <= cur' && ReadNextChar(m, cur').None?
  {
    out := [];
    cur' := cur;
    while true
      invariant cur <= cur' && out + Pending(m, cur') == Pending(m, cur)
      decreases |Pending(m, cur')|
    {
      var r := ReadNextChar(m, cur');
      if r.None? {
        break;
      }
      var (c, next) := r.value;
      Shift(out, c, Pending(m, next), Pending(m, cur'));
      out := out + [c];
      cur' := next;
    }
  }

  /** Moving the head of the rest onto the end of the prefix keeps the
      whole. */
  lemma Shift(out: seq<Byte>, c: Byte, rest: seq<Byte>, whole: seq<Byte>)
    requires [c] + rest == whole
    ensures out + [c] + rest == out + whole
  {
  }

  /** A filled line of fewer than 256 bytes reads back in full; a longer one
      reads back only its length modulo 256. */
  method FillThenDrain(m: Mem, s: seq<Byte>) returns (out: seq<Byte>)
    requires HasRegisters(m) && DOCOL <= BufferAt(m) && RangeIn(m, BufferAt(m), 1 + |s|)
    ensures out == s[.. |s| % 256]
    ensures |s| < 256 ==> out == s
  {
    var m' := Fill(m, s);
    var cur';
    out, cur' := Drain(m', 0);
  }
}

=== FILE: interpreter.dfy ===
/** One step of the outer interpreter `interpret`, seen from the token it
    reads.

    `interpret` copies the next token to the scratch buffer at IN_STREAM and
    then decides with Outer.Interpretation. The source places that buffer
    just above the return stack, far above the dictionary, so the copy
    leaves every entry, every register and the answer of each lookup as
    they were. With that, each branch of `interpret` is the effect of a
    word the system already has: a word to run is run as `execute` runs it,
    a word to compile is appended as `,` appends it, and a number is pushed
    or compiled after `lit`.
 */
module Interpreter {
  import opened Layout
  import opened Memory
  import opened Dictionary
  import opened Results
  import opened Faults
  import opened Machine
  import Lookup
  import Numbers
  import Tokenizer
  import Outer
  import Writer

  /** The scratch buffer at IN_STREAM lies above HERE and the bytes a
      lookup may read past it, and has room for n bytes. */
  predicate BufferClear(m: Mem, n: int)
    requires HasRegisters(m)
  {
    Here(m) + MAX_WORD_LEN <= Reg(m, IN_STREAM) && Writable(m, Reg(m, IN_STREAM), n)
  }

  /** The runtime comparison of the entry at e with the token t: the length
      and HIDDEN bits together equal |t|, and the stored name equals the
      first min(|t|, 13) bytes of t. */
  predicate Names(m: Mem, e: int, t: seq<Byte>)
    requires ByteIn(m, e + 4) && RangeIn(m, e + 5, MAX_WORD_LEN)
  {
    LenFlags(m, e) % 64 == |t| && t[.. StoredLen(|t|)] == m[e + 5 .. e + 5 + StoredLen(|t|)]
  }

  /** The machine after `word` has copied t to the buffer and consumed the
      input up to rest. */
  function Copied(vm: Vm, t: seq<Byte>, rest: seq<Byte>): (v: Vm)
    requires Valid(vm) && Writable(vm.mem, Reg(vm.mem, IN_STREAM), |t|)
    ensures Valid(v) && |v.mem| == |vm.mem| && Here(v.mem) == Here(vm.mem)
  {
    var a := Reg(vm.mem, IN_STREAM);
    FrameReadI32(vm.mem, WriteBytes(vm.mem, a, t), {}, a, a + |t|, HERE);
    vm.(mem := WriteBytes(vm.mem, a, t), input := rest)
  }

  /** Copying a token to the buffer keeps the dictionary, the registers
      and the headers, and the copy is named by exactly the entries that
      name the token. */
  lemma CopyKeeps(m: Mem, t: seq<Byte>) returns (m': Mem)
    requires DictInv(m) && Lookup.CompareRoom(m, Here(m)) && BufferClear(m, |t|)
    ensures m' == WriteBytes(m, Reg(m, IN_STREAM), t)
    ensures HasRegisters(m') && forall r :: IsReg(r) ==> Reg(m', r) == Reg(m, r)
    ensures DictInv(m') && Lookup.CompareRoom(m', Here(m')) && Entries(m') == Entries(m)
    ensures RangeIn(m', Reg(m, IN_STREAM), |t|) && Lookup.QueryIn(m', |t|, Reg(m, IN_STREAM))
    ensures forall e :: e in Entries(m) ==> LenFlags(m', e) == LenFlags(m, e) && Cfa(m', e) == Cfa(m, e)
    ensures forall e :: e in Entries(m) ==>
      (Lookup.Matches(m', e, |t|, Reg(m, IN_STREAM)) <==> Names(m, e, t))
  {
    m' := CopyKeepsRegisters(m, t);
    CopyAgreesBelow(m, m', t);
    ChainFrame(m, m', Latest(m), Here(m));
    ChainHeadersAgree(m, m', Latest(m), Here(m));
    CopyNames(m, m', t);
  }

  lemma CopyKeepsRegisters(m: Mem, t: seq<Byte>) returns (m': Mem)
    requires HasRegisters(m) && BufferClear(m, |t|)
    ensures m' == WriteBytes(m, Reg(m, IN_STREAM), t)
    ensures HasRegisters(m') && forall r :: IsReg(r) ==> Reg(m', r) == Reg(m, r)
  {
    var a := Reg(m, IN_STREAM);
    m' := WriteBytes(m, a, t);
    forall r | IsReg(r) ensures Reg(m', r) == Reg(m, r) {
      RegCells(r);
      FrameReadI32(m, m', {}, a, a + |t|, r);
    }
  }

  /** The copy does not reach below HERE plus the bytes a lookup reads. */
  lemma CopyAgreesBelow(m: Mem, m': Mem, t: seq<Byte>)
    requires HasRegisters(m) && BufferClear(m, |t|) && m' == WriteBytes(m, Reg(m, IN_STREAM), t)
    ensures AgreeOn(m, m', DICT, Here(m) + MAX_WORD_LEN)
  {
    var a := Reg(m, IN_STREAM);
    forall i | DICT <= i < Here(m) + MAX_WORD_LEN && 0 <= i
      ensures i < |m| && i < |m'| && At(m', i) == At(m, i)
    {
      assert !InRegs(i, {});
    }
  }

  lemma CopyNames(m: Mem, m': Mem, t: seq<Byte>)
    requires DictInv(m) && Lookup.CompareRoom(m, Here(m)) && BufferClear(m, |t|) && |m'| == |m|
    requires m'[Reg(m, IN_STREAM) .. Reg(m, IN_STREAM) + |t|] == t
    requires AgreeOn(m, m', DICT, Here(m) + MAX_WORD_LEN)
    ensures forall e :: e in Entries(m) ==>
      (Lookup.Matches(m', e, |t|, Reg(m, IN_STREAM)) <==> Names(m, e, t))
  {
    forall e | e in Entries(m)
      ensures Lookup.Matches(m', e, |t|, Reg(m, IN_STREAM)) <==> Names(m, e, t)
    {
      NameOfCopy(m, m', t, Reg(m, IN_STREAM), Here(m) + MAX_WORD_LEN, e);
    }
  }

  lemma NameOfCopy(m: Mem, m': Mem, t: seq<Byte>, a: int, top: int, e: int)
    requires AgreeOn(m, m', DICT, top) && DICT <= e && e + 5 + MAX_WORD_LEN <= top
    requires |m'| == |m| && top <= a && a + |t| <= |m| && m'[a .. a + |t|] == t
    ensures Lookup.Matches(m', e, |t|, a) <==> Names(m, e, t)
  {
    var k := StoredLen(|t|);
    AgreeBytes(m, m', DICT, top, e + 4, e + 5 + k);
    assert m'[a .. a + k] == t[.. k];
  }
  /** `interpret` is about to read the token t: `word` yields t and leaves
      rest, the dictionary is well formed and the buffer has room for t. */
  predicate Reading(vm: Vm, t: seq<Byte>, rest: seq<Byte>) {
    && Valid(vm) && DictInv(vm.mem) && Lookup.CompareRoom(vm.mem, Here(vm.mem))
    && BufferClear(vm.mem, |t|) && Tokenizer.Word(vm.input) == Some((t, rest))
  }

  /** The decision on the copied token is the decision on the entries that
      name t in the memory before the copy. */
  lemma FoundInCopy(m: Mem, lit: int, t: seq<Byte>, w: int) returns (m': Mem)
    requires DictInv(m) && Lookup.CompareRoom(m, Here(m)) && BufferClear(m, |t|)
    requires w in Entries(m) && Names(m, w, t)
    requires forall e :: e in Entries(m) && e > w ==> !Names(m, e, t)
    ensures m' == WriteBytes(m, Reg(m, IN_STREAM), t) && RangeIn(m', Reg(m, IN_STREAM), |t|)
    ensures Outer.Interpretation(m', Reg(m, IN_STREAM), |t|, lit)
      == Ok(if IsImmediate(LenFlags(m, w)) || Outer.Interpreting(m)
            then Outer.Perform(Cfa(m, w)) else Outer.Compile([Cfa(m, w)]))
  {
    m' := CopyKeeps(m, t);
    Outer.InterpretsWord(m', Reg(m, IN_STREAM), |t|, lit, w);
  }

  /** The step `interpret` takes when the copied token decides Perform(xt):
      what `execute` does with xt. */
  lemma PerformStep(code: CodeTable, vm: Vm, lit: int, t: seq<Byte>, rest: seq<Byte>, xt: int)
    requires Valid(vm) && Tokenizer.Word(vm.input) == Some((t, rest))
    requires Writable(vm.mem, Reg(vm.mem, IN_STREAM), |t|)
    requires var v := Copied(vm, t, rest);
      RangeIn(v.mem, Reg(vm.mem, IN_STREAM), |t|)
      && Outer.Interpretation(v.mem, Reg(vm.mem, IN_STREAM), |t|, lit) == Ok(Outer.Perform(xt))
    ensures InterpretStep(code, vm, lit) == Exec(code, Execute, Push(Copied(vm, t, rest), xt))
  {
    var v := Copied(vm, t, rest);
    var r := if !CellIn(v.mem, xt) then Faulted(BadAddress) else Dispatch(code, v.(a0 := xt), ReadI32(v.mem, xt));
    assert InterpretStep(code, vm, lit) == r;
    ExecutePushed(code, v, xt);
  }

  /** The step `interpret` takes when the copied token decides
      Compile([xt]): what `,` does with xt. */
  lemma CompileStep(code: CodeTable, vm: Vm, lit: int, t: seq<Byte>, rest: seq<Byte>, xt: int)
    requires Valid(vm) && Tokenizer.Word(vm.input) == Some((t, rest))
    requires Writable(vm.mem, Reg(vm.mem, IN_STREAM), |t|)
    requires var v := Copied(vm, t, rest);
      RangeIn(v.mem, Reg(vm.mem, IN_STREAM), |t|)
      && Outer.Interpretation(v.mem, Reg(vm.mem, IN_STREAM), |t|, lit) == Ok(Outer.Compile([xt]))
    ensures InterpretStep(code, vm, lit) == Exec(code, Comma, Push(Copied(vm, t, rest), xt))
  {
    var v := Copied(vm, t, rest);
    var ok := Writable(v.mem, Here(v.mem), CELL);
    var r := if !ok then Faulted(Clobber) else Running(v.(mem := Writer.Comma(v.mem, xt)));
    if ok {
      Outer.CommaAllOne(v.mem, xt);
    }
    assert InterpretStep(code, vm, lit) == r;
    CommaPushed(code, v, xt);
  }

  /** `execute` on a pushed xt dispatches to the code at xt with A0 = xt. */
  lemma ExecutePushed(code: CodeTable, v: Vm, xt: int)
    requires Valid(v)
    ensures Exec(code, Execute, Push(v, xt))
      == if !CellIn(v.mem, xt) then Faulted(BadAddress) else Dispatch(code, v.(a0 := xt), ReadI32(v.mem, xt))
  {
    assert Pop(Push(v, xt)) == v by {
      assert (v.ds + [xt])[.. |v.ds|] == v.ds;
    }
  }

  /** `,` on a pushed value appends it, or faults when HERE has no room. */
  lemma CommaPushed(code: CodeTable, v: Vm, x: int)
    requires Valid(v)
    ensures Exec(code, Comma, Push(v, x))
      == if !Writable(v.mem, Here(v.mem), CELL) then Faulted(Clobber) else Running(v.(mem := Writer.Comma(v.mem, x)))
  {
    assert Pop(Push(v, x)) == v by {
      assert (v.ds + [x])[.. |v.ds|] == v.ds;
    }
  }

  /** A found word that is IMMEDIATE, or found while interpreting, is run
      exactly as `execute` runs its code field address. */
  lemma InterpretExecutes(code: CodeTable, vm: Vm, lit: int, t: seq<Byte>, rest: seq<Byte>, w: int)
    requires Reading(vm, t, rest)
    requires w in Entries(vm.mem) && Names(vm.mem, w, t)
    requires forall e :: e in Entries(vm.mem) && e > w ==> !Names(vm.mem, e, t)
    requires IsImmediate(LenFlags(vm.mem, w)) || Outer.Interpreting(vm.mem)
    ensures InterpretStep(code, vm, lit) == Exec(code, Execute, Push(Copied(vm, t, rest), Cfa(vm.mem, w)))
  {
    var m' := FoundInCopy(vm.mem, lit, t, w);
    PerformStep(code, vm, lit, t, rest, Cfa(vm.mem, w));
  }

  /** A found word that is not IMMEDIATE is appended while compiling,
      exactly as `,` appends its code field address. */
  lemma InterpretCompilesWord(code: CodeTable, vm: Vm, lit: int, t: seq<Byte>, rest: seq<Byte>, w: int)
    requires Reading(vm, t, rest)
    requires w in Entries(vm.mem) && Names(vm.mem, w, t)
    requires forall e :: e in Entries(vm.mem) && e > w ==> !Names(vm.mem, e, t)
    requires !IsImmediate(LenFlags(vm.mem, w)) && !Outer.Interpreting(vm.mem)
    ensures InterpretStep(code, vm, lit) == Exec(code, Comma, Push(Copied(vm, t, rest), Cfa(vm.mem, w)))
  {
    var m' := FoundInCopy(vm.mem, lit, t, w);
    CompileStep(code, vm, lit, t, rest, Cfa(vm.mem, w));
  }
  /** A number nobody names, copied to the buffer, is pushed while
      interpreting and compiled after `lit` while compiling. */
  lemma NumeralInCopy(m: Mem, lit: int, v: int) returns (m': Mem)
    requires DictInv(m) && Lookup.CompareRoom(m, Here(m))
    requires Numbers.ValidRadix(Reg(m, BASE)) && -I32_MAX <= v <= I32_MAX
    requires var t := Numbers.Format(v, Reg(m, BASE));
      BufferClear(m, |t|) && forall e :: e in Entries(m) ==> !Names(m, e, t)
    ensures var t := Numbers.Format(v, Reg(m, BASE));
      && m' == WriteBytes(m, Reg(m, IN_STREAM), t) && RangeIn(m', Reg(m, IN_STREAM), |t|)
      && Here(m') == Here(m)
      && Outer.Interpretation(m', Reg(m, IN_STREAM), |t|, lit)
        == Ok(if Outer.Interpreting(m) then Outer.Literal(v) else Outer.Compile([lit, v]))
  {
    var t := Numbers.Format(v, Reg(m, BASE));
    m' := CopyKeeps(m, t);
    Outer.InterpretsNumeral(m', Reg(m, IN_STREAM), lit, v);
  }

  /** A token nobody names and that is not a number in BASE, copied to
      the buffer, is rejected with 0 left on the stack. */
  lemma UnknownInCopy(m: Mem, lit: int, t: seq<Byte>) returns (m': Mem)
    requires DictInv(m) && Lookup.CompareRoom(m, Here(m)) && BufferClear(m, |t|)
    requires Numbers.ValidRadix(Reg(m, BASE)) && forall e :: e in Entries(m) ==> !Names(m, e, t)
    requires var start := if |t| > 0 && t[0] == Numbers.MINUS then 1 else 0;
      start <= |t| && !Numbers.AllDigits(t[start..], Reg(m, BASE))
    ensures m' == WriteBytes(m, Reg(m, IN_STREAM), t) && RangeIn(m', Reg(m, IN_STREAM), |t|)
    ensures Outer.Interpretation(m', Reg(m, IN_STREAM), |t|, lit) == Ok(Outer.Unknown(0))
  {
    m' := CopyKeeps(m, t);
    Outer.InterpretsUnknown(m', Reg(m, IN_STREAM), |t|, lit);
  }

  /** The step `interpret` takes when the copied token decides Literal(n). */
  lemma LiteralStep(code: CodeTable, vm: Vm, lit: int, t: seq<Byte>, rest: seq<Byte>, n: int)
    requires Valid(vm) && Tokenizer.Word(vm.input) == Some((t, rest))
    requires Writable(vm.mem, Reg(vm.mem, IN_STREAM), |t|)
    requires var v := Copied(vm, t, rest);
      RangeIn(v.mem, Reg(vm.mem, IN_STREAM), |t|)
      && Outer.Interpretation(v.mem, Reg(vm.mem, IN_STREAM), |t|, lit) == Ok(Outer.Literal(n))
    ensures InterpretStep(code, vm, lit) == Running(Push(Copied(vm, t, rest), n))
  {
  }

  /** The step `interpret` takes when the copied token decides Unknown(n). */
  lemma UnknownStep(code: CodeTable, vm: Vm, lit: int, t: seq<Byte>, rest: seq<Byte>, n: int)
    requires Valid(vm) && Tokenizer.Word(vm.input) == Some((t, rest))
    requires Writable(vm.mem, Reg(vm.mem, IN_STREAM), |t|)
    requires var v := Copied(vm, t, rest);
      RangeIn(v.mem, Reg(vm.mem, IN_STREAM), |t|)
      && Outer.Interpretation(v.mem, Reg(vm.mem, IN_STREAM), |t|, lit) == Ok(Outer.Unknown(n))
    ensures InterpretStep(code, vm, lit)
      == Running(Push(Copied(vm, t, rest), n).(output := vm.output + [Outer.QUESTION]))
  {
  }

  /** The step `interpret` takes when the copied token decides
      Compile(cells) and the cells fit. */
  lemma CompileCellsStep(code: CodeTable, vm: Vm, lit: int, t: seq<Byte>, rest: seq<Byte>, cells: seq<int>)
    requires Valid(vm) && Tokenizer.Word(vm.input) == Some((t, rest))
    requires Writable(vm.mem, Reg(vm.mem, IN_STREAM), |t|)
    requires var v := Copied(vm, t, rest);
      && RangeIn(v.mem, Reg(vm.mem, IN_STREAM), |t|)
      && Outer.Interpretation(v.mem, Reg(vm.mem, IN_STREAM), |t|, lit) == Ok(Outer.Compile(cells))
      && Writable(v.mem, Here(v.mem), CELL * |cells|)
    ensures var v := Copied(vm, t, rest);
      InterpretStep(code, vm, lit) == Running(v.(mem := Outer.CommaAll(v.mem, cells)))
  {
  }

  /** While interpreting, a number that no entry names is pushed. */
  lemma InterpretPushesNumber(code: CodeTable, vm: Vm, lit: int, v: int, rest: seq<Byte>)
    requires Valid(vm) && Numbers.ValidRadix(Reg(vm.mem, BASE)) && -I32_MAX <= v <= I32_MAX
    requires var t := Numbers.Format(v, Reg(vm.mem, BASE));
      Reading(vm, t, rest) && forall e :: e in Entries(vm.mem) ==> !Names(vm.mem, e, t)
    requires Outer.Interpreting(vm.mem)
    ensures var t := Numbers.Format(v, Reg(vm.mem, BASE));
      InterpretStep(code, vm, lit) == Running(Push(Copied(vm, t, rest), v))
  {
    var t := Numbers.Format(v, Reg(vm.mem, BASE));
    var m' := NumeralInCopy(vm.mem, lit, v);
    LiteralStep(code, vm, lit, t, rest, v);
  }

  /** While compiling, a number that no entry names is appended as the two
      cells `lit` and the number: HERE advances by two cells and nothing
      else changes. */
  lemma InterpretCompilesNumber(code: CodeTable, vm: Vm, lit: int, v: int, rest: seq<Byte>)
    requires Valid(vm) && Numbers.ValidRadix(Reg(vm.mem, BASE)) && -I32_MAX <= v <= I32_MAX
    requires var t := Numbers.Format(v, Reg(vm.mem, BASE));
      Reading(vm, t, rest) && forall e :: e in Entries(vm.mem) ==> !Names(vm.mem, e, t)
    requires !Outer.Interpreting(vm.mem) && Writable(vm.mem, Here(vm.mem), 2 * CELL)
    ensures var t := Numbers.Format(v, Reg(vm.mem, BASE));
      var c := Copied(vm, t, rest);
      var m2 := Outer.CommaAll(c.mem, [lit, v]);
      var h := Here(vm.mem);
      && InterpretStep(code, vm, lit) == Running(c.(mem := m2))
      && Here(m2) == h + 2 * CELL
      && ReadI32(m2, h) == Wrap32(lit) && ReadI32(m2, h + CELL) == Wrap32(v)
      && Writer.Appended(c.mem, m2, h, h + 2 * CELL)
  {
    var t, c := CompilesNumberFacts(vm, lit, v, rest);
    CompileCellsStep(code, vm, lit, t, rest, [lit, v]);
    Outer.CommaTwo(c.mem, lit, v);
  }

  /** What InterpretCompilesNumber needs of the copy, named by the token. */
  lemma CompilesNumberFacts(vm: Vm, lit: int, v: int, rest: seq<Byte>) returns (t: seq<Byte>, c: Vm)
    requires Valid(vm) && Numbers.ValidRadix(Reg(vm.mem, BASE)) && -I32_MAX <= v <= I32_MAX
    requires var t := Numbers.Format(v, Reg(vm.mem, BASE));
      Reading(vm, t, rest) && forall e :: e in Entries(vm.mem) ==> !Names(vm.mem, e, t)
    requires !Outer.Interpreting(vm.mem) && Writable(vm.mem, Here(vm.mem), 2 * CELL)
    ensures t == Numbers.Format(v, Reg(vm.mem, BASE))
    ensures Tokenizer.Word(vm.input) == Some((t, rest)) && Writable(vm.mem, Reg(vm.mem, IN_STREAM), |t|)
    ensures var c := Copied(vm, t, rest);
      && RangeIn(c.mem, Reg(vm.mem, IN_STREAM), |t|)
      && Outer.Interpretation(c.mem, Reg(vm.mem, IN_STREAM), |t|, lit) == Ok(Outer.Compile([lit, v]))
      && Writable(c.mem, Here(c.mem), CELL * |[lit, v]|)
    ensures c == Copied(vm, t, rest) && Writer.CanAppend(c.mem, 2 * CELL) && Here(c.mem) == Here(vm.mem)
  {
    t := Numbers.Format(v, Reg(vm.mem, BASE));
    var m' := NumeralInCopy(vm.mem, lit, v);
    c := Copied(vm, t, rest);
  }

  /** A token that no entry names and that is not a number in BASE puts
      '?' on the output and leaves 0 on the stack. */
  lemma InterpretRejects(code: CodeTable, vm: Vm, lit: int, t: seq<Byte>, rest: seq<Byte>)
    requires Reading(vm, t, rest) && Numbers.ValidRadix(Reg(vm.mem, BASE))
    requires forall e :: e in Entries(vm.mem) ==> !Names(vm.mem, e, t)
    requires var start := if |t| > 0 && t[0] == Numbers.MINUS then 1 else 0;
      start <= |t| && !Numbers.AllDigits(t[start..], Reg(vm.mem, BASE))
    ensures InterpretStep(code, vm, lit)
      == Running(Push(Copied(vm, t, rest), 0).(output := vm.output + [Outer.QUESTION]))
  {
    var m' := UnknownInCopy(vm.mem, lit, t);
    UnknownStep(code, vm, lit, t, rest, 0);
  }

  /** Input holding nothing but whitespace ends the interpreter's run:
      there is no token to read. */
  lemma InterpretAtEnd(code: CodeTable, vm: Vm, lit: int)
    requires Valid(vm) && forall i :: 0 <= i < |vm.input| ==> Tokenizer.IsSpace(vm.input[i])
    ensures InterpretStep(code, vm, lit) == Faulted(EndOfInput)
  {
    Tokenizer.SkipAllSpace(vm.input);
  }
  /** The bytes of "128" and of "777". */
  const Text128: seq<Byte> := [0x31, 0x32, 0x38]
  const Text777: seq<Byte> := [0x37, 0x37, 0x37]

  /** The decimal text of 128 and of 777. */
  lemma DecimalTexts()
    ensures Numbers.Format(128, 10) == Text128 && Numbers.Format(777, 10) == Text777
  {
    assert Numbers.Render(12, 10) == [0x31, 0x32] by {
      assert Numbers.Render(1, 10) == [0x31];
    }
    assert Numbers.Render(77, 10) == [0x37, 0x37] by {
      assert Numbers.Render(7, 10) == [0x37];
    }
  }

  /** Interpreting "128 " in decimal, with no entry named "128", pushes
      128 and leaves the input after the space. */
  lemma InterpretPushes128(code: CodeTable, vm: Vm, lit: int, rest: seq<Byte>)
    requires Valid(vm) && DictInv(vm.mem) && Lookup.CompareRoom(vm.mem, Here(vm.mem))
    requires vm.input == Text128 + [Tokenizer.SPACE] + rest && BufferClear(vm.mem, 3)
    requires Reg(vm.mem, BASE) == 10 && Outer.Interpreting(vm.mem)
    requires forall e :: e in Entries(vm.mem) ==> !Names(vm.mem, e, Text128)
    ensures InterpretStep(code, vm, lit) == Running(Push(Copied(vm, Text128, rest), 128))
  {
    DecimalTexts();
    assert Tokenizer.IsToken(Text128);
    Tokenizer.WordAtStart(Text128, Tokenizer.SPACE, rest);
    InterpretPushesNumber(code, vm, lit, 128, rest);
  }

  /** Compiling "777 " in decimal, with no entry named "777", appends the
      cells `lit` and 777 and advances HERE by two cells. */
  lemma InterpretCompiles777(code: CodeTable, vm: Vm, lit: int, rest: seq<Byte>) returns (m2: Mem)
    requires Valid(vm) && DictInv(vm.mem) && Lookup.CompareRoom(vm.mem, Here(vm.mem))
    requires vm.input == Text777 + [Tokenizer.SPACE] + rest && BufferClear(vm.mem, 3)
    requires Reg(vm.mem, BASE) == 10 && !Outer.Interpreting(vm.mem)
    requires forall e :: e in Entries(vm.mem) ==> !Names(vm.mem, e, Text777)
    requires Writable(vm.mem, Here(vm.mem), 2 * CELL) && IsI32(lit)
    ensures InterpretStep(code, vm, lit) == Running(Copied(vm, Text777, rest).(mem := m2))
    ensures var h := Here(vm.mem);
      && |m2| == |vm.mem| && HasRegisters(m2) && Here(m2) == h + 2 * CELL
      && ReadI32(m2, h) == lit && ReadI32(m2, h + CELL) == 777
  {
    ReadsText777(vm, rest);
    var c := Copied(vm, Text777, rest);
    m2 := Outer.CommaAll(c.mem, [lit, 777]);
    InterpretCompilesNumber(code, vm, lit, 777, rest);
  }

  lemma ReadsText777(vm: Vm, rest: seq<Byte>)
    requires Valid(vm) && DictInv(vm.mem) && Lookup.CompareRoom(vm.mem, Here(vm.mem))
    requires vm.input == Text777 + [Tokenizer.SPACE] + rest && BufferClear(vm.mem, 3)
    requires Reg(vm.mem, BASE) == 10
    ensures Numbers.Format(777, Reg(vm.mem, BASE)) == Text777 && Reading(vm, Text777, rest)
  {
    DecimalTexts();
    assert Tokenizer.IsToken(Text777);
    Tokenizer.WordAtStart(Text777, Tokenizer.SPACE, rest);
  }
}

=== FILE: layout.dfy ===
/** Memory map, header flag bits and cell alignment of the Forth runtime.

    Every runtime entity lives in one flat byte memory. The low 80 bytes hold
    the register cells, the DOCOL trampoline program follows at 80, and the
    dictionary starts at DICT.
 */
module Layout {

  /** Size in bytes of one cell. */
  const CELL: int := 4

  /** Top of the parameter stack. */
  const DSP: int := 4
  /** Base (bottom) of the parameter stack. */
  const S0: int := 8
  /** Top of the return stack. */
  const RSP: int := 12
  /** Base (bottom) of the return stack. */
  const R0: int := 16
  /** Top and base of the execution engine's own call stack. */
  const CTOP: int := 20
  const CBASE: int := 24
  /** Top and base of the locals stack. */
  const LTOP: int := 28
  const LBASE: int := 32
  /** Next free byte of the dictionary. */
  const HERE: int := 36
  /** Most recently created dictionary entry (0 when there is none). */
  const LATEST: int := 40
  /** Interpreter counter: address of the cell holding the next word to run. */
  const IC: int := 44
  /** Header-or-code-field address of the word being dispatched. */
  const A0: int := 48
  /** 0 while interpreting, 1 while compiling. */
  const STATE: int := 52
  /** Address of the scratch area that `word` copies tokens into. */
  const IN_STREAM: int := 56
  /** Radix used by number parsing. */
  const BASE: int := 60
  /** Cell that `run_word` loads with the code field address to start at. */
  const START_ADR: int := 64
  /** Byte holding the NEXT opcode that every run starts from. */
  const COLD_START: int := 68
  /** Address of the length-prefixed input line buffer. */
  const INPUT_BUFFER: int := 72
  const INPUT_BUFFER_IDX: int := 76
  /** Address of the DOCOL trampoline program. */
  const DOCOL: int := 80
  /** First byte of the dictionary. */
  const DICT: int := DOCOL + 64

  /** Length in bytes of the DOCOL trampoline program. */
  const DOCOL_LEN: int := 47

  /** At most this many name bytes are stored in a header. */
  const MAX_WORD_LEN: int := 13

  /** Bits of the length/flags byte of a header. */
  const LEN_MASK: bv8 := 0x1f
  const HIDDEN: bv8 := 0x20
  const IMMEDIATE: bv8 := 0x80

  const TRUE: int := 1
  const FALSE: int := 0

  /** Values of the STATE register. */
  const INTERPRETING: int := 0
  const COMPILING: int := 1

  /** All register cells of the memory map, in address order. */
  const Registers: seq<int> :=
    [DSP, S0, RSP, R0, CTOP, CBASE, LTOP, LBASE, HERE, LATEST, IC, A0, STATE,
     IN_STREAM, BASE, START_ADR, COLD_START, INPUT_BUFFER, INPUT_BUFFER_IDX]

  /** Rounds up to the next multiple of 4. The source computes `(i + 3) & !3`;
      clearing the two low bits of a two's-complement number is rounding down
      to a multiple of 4, which Dafny's Euclidean `%` expresses exactly. */
  function Align(i: int): (r: int)
    ensures r % 4 == 0
    ensures i <= r < i + 4
  {
    (i + 3) - (i + 3) % 4
  }

  /** Align is the least multiple of 4 not below its argument. */
  lemma AlignIsLeast(i: int, k: int)
    requires k % 4 == 0 && i <= k
    ensures Align(i) <= k
  {
  }

  /** Align is idempotent and fixes every multiple of 4. */
  lemma AlignIdempotent(i: int)
    ensures Align(Align(i)) == Align(i)
    ensures i % 4 == 0 ==> Align(i) == i
  {
  }

  /** The values the source's unit test expects. */
  lemma AlignExamples()
    ensures Align(1) == 4 && Align(4) == 4 && Align(6) == 8 && Align(7) == 8
  {
  }

  /** Aligning commutes with adding a multiple of 4. */
  lemma AlignShift(a: int, i: int)
    requires a % 4 == 0
    ensures Align(a + i) == a + Align(i)
  {
  }

  /** The register cells are pairwise distinct, 4-aligned and lie in [4, 80);
      the trampoline program fits between 80 and the start of the dictionary. */
  lemma RegisterMapLayout()
    ensures forall i :: 0 <= i < |Registers| ==>
      Registers[i] % CELL == 0 && 4 <= Registers[i] && Registers[i] + CELL <= DOCOL
    ensures forall i, j :: 0 <= i < j < |Registers| ==> Registers[i] + CELL <= Registers[j]
    ensures DOCOL + DOCOL_LEN <= DICT && DICT == 144
  {
  }

  /** The three fields of the length/flags byte are pairwise disjoint, so
      setting, clearing or toggling a flag never changes the length bits. */
  lemma FlagsDisjoint(b: bv8)
    ensures LEN_MASK & HIDDEN == 0 && LEN_MASK & IMMEDIATE == 0 && HIDDEN & IMMEDIATE == 0
    ensures (b ^ HIDDEN) & LEN_MASK == b & LEN_MASK
    ensures (b ^ IMMEDIATE) & LEN_MASK == b & LEN_MASK
    ensures (b | HIDDEN) & LEN_MASK == b & LEN_MASK
    ensures (b | IMMEDIATE) & LEN_MASK == b & LEN_MASK
    ensures (b & !HIDDEN) & LEN_MASK == b & LEN_MASK
    ensures (b & !IMMEDIATE) & LEN_MASK == b & LEN_MASK
  {
  }

  /** Toggling a flag twice restores the byte. */
  lemma ToggleTwice(b: bv8, f: bv8)
    ensures (b ^ f) ^ f == b
  {
  }
}

=== FILE: lookup.dfy ===
/** The two dictionary lookups.

    The host-side `find` (used while the initial dictionary is built) takes a
    name as bytes and compares the declared length under LEN_MASK only, so it
    also finds HIDDEN entries. The runtime `_find` (behind the `find` word)
    takes the query's length and address in memory and compares it with the
    length and HIDDEN bits together, so a hidden entry never equals a plain
    length below 32.
 */
module Lookup {
  import opened Layout
  import opened Memory
  import opened Dictionary
  import opened Results

  /** Host-side match: the declared length equals |name| and the stored name
      bytes equal the first min(|name|, 13) bytes of name. */
  predicate HostMatches(m: Mem, w: int, name: seq<Byte>)
    requires ByteIn(m, w + 4) && RangeIn(m, w + 5, NameLen(m, w))
  {
    LenOf(LenFlags(m, w)) == |name| && StoredName(m, w) == name[..StoredLen(|name|)]
  }

  /** The host-side walk: it examines w before looking at the link, so it
      starts at an existing entry. */
  function HostFindFrom(m: Mem, w: int, bound: int, name: seq<Byte>): (r: Option<int>)
    requires bound <= |m| && ChainOk(m, w, bound) && w != 0
    ensures var c := Chain(m, w, bound);
      && (r.Some? ==> r.value in c && HostMatches(m, r.value, name))
      && (r.Some? ==> forall e :: e in c && e > r.value ==> !HostMatches(m, e, name))
      && (r.None? ==> forall e :: e in c ==> !HostMatches(m, e, name))
    decreases bound
  {
    if HostMatches(m, w, name) then Some(w)
    else if Prev(m, w) == 0 then None
    else HostFindFrom(m, Prev(m, w), w, name)
  }

  /** `find` on the host side: the newest entry whose name matches, if any.
      The dictionary must not be empty: on LATEST = 0 the source would read
      the register block as if it were an entry. */
  function HostFind(m: Mem, name: seq<Byte>): (r: Option<int>)
    requires DictInv(m) && Latest(m) != 0
    ensures r.Some? ==> r.value in Entries(m) && HostMatches(m, r.value, name)
    ensures r.Some? ==> forall e :: e in Entries(m) && e > r.value ==> !HostMatches(m, e, name)
    ensures r.None? ==> forall e :: e in Entries(m) ==> !HostMatches(m, e, name)
  {
    HostFindFrom(m, Latest(m), Here(m), name)
  }

  /** The runtime comparison reads the query's first min(len, 13) bytes. */
  predicate QueryIn(m: Mem, len: int, ptr: int) {
    !(0 <= len < 64) || RangeIn(m, ptr, StoredLen(len))
  }

  /** `_find`'s comparison of the entry at w with the query (len, ptr): the
      length and HIDDEN bits together equal len, and min(len, 13) bytes from
      w+5 equal those at ptr. */
  predicate Matches(m: Mem, w: int, len: int, ptr: int)
    requires ByteIn(m, w + 4) && RangeIn(m, w + 5, MAX_WORD_LEN) && QueryIn(m, len, ptr)
  {
    LenFlags(m, w) % 64 == len
    && m[ptr .. ptr + StoredLen(len)] == m[w + 5 .. w + 5 + StoredLen(len)]
  }

  /** Every header of the chain from w has 13 readable bytes after its
      length byte (the runtime comparison may read that far). */
  predicate CompareRoom(m: Mem, bound: int) {
    bound + MAX_WORD_LEN <= |m|
  }

  function FindFrom(m: Mem, w: int, bound: int, len: int, ptr: int): (r: int)
    requires bound <= |m| && CompareRoom(m, bound) && ChainOk(m, w, bound) && QueryIn(m, len, ptr)
    ensures var c := Chain(m, w, bound);
      && (r != 0 ==> r in c && Matches(m, r, len, ptr))
      && (r != 0 ==> forall e :: e in c && e > r ==> !Matches(m, e, len, ptr))
      && (r == 0 ==> forall e :: e in c ==> !Matches(m, e, len, ptr))
    decreases bound
  {
    if w == 0 then 0
    else if Matches(m, w, len, ptr) then w
    else FindFrom(m, Prev(m, w), w, len, ptr)
  }

  /** `_find`: the newest entry matching the query, or 0. */
  function Find(m: Mem, len: int, ptr: int): (r: int)
    requires DictInv(m) && CompareRoom(m, Here(m)) && QueryIn(m, len, ptr)
    ensures r != 0 ==> r in Entries(m) && Matches(m, r, len, ptr)
    ensures r != 0 ==> forall e :: e in Entries(m) && e > r ==> !Matches(m, e, len, ptr)
    ensures r == 0 ==> forall e :: e in Entries(m) ==> !Matches(m, e, len, ptr)
    ensures r != 0 && len < 32 ==> !IsHidden(LenFlags(m, r))
  {
    FindFrom(m, Latest(m), Here(m), len, ptr)
  }

  /** `_find`'s loop from w over the runtime walk. */
  function FindWalk(m: Mem, w: int, len: int, ptr: int): (r: int)
    requires WalkOk(m, w) && QueryIn(m, len, ptr)
    ensures var c := Walk(m, w);
      && (r != 0 ==> r in c && Matches(m, r, len, ptr))
      && (r != 0 ==> forall e :: e in c && e > r ==> !Matches(m, e, len, ptr))
      && (r == 0 ==> forall e :: e in c ==> !Matches(m, e, len, ptr))
    decreases w
  {
    if w == 0 then 0
    else if Matches(m, w, len, ptr) then w
    else FindWalk(m, Prev(m, w), len, ptr)
  }

  /** `_find` as the machine runs it: the walk from LATEST over any chain
      that descends to 0 inside memory, whether or not its headers lie
      below HERE or clear of each other. */
  function FindAny(m: Mem, len: int, ptr: int): (r: int)
    requires Searchable(m) && QueryIn(m, len, ptr)
    ensures r != 0 ==> r in SearchEntries(m) && Matches(m, r, len, ptr)
    ensures r != 0 ==> forall e :: e in SearchEntries(m) && e > r ==> !Matches(m, e, len, ptr)
    ensures r == 0 ==> forall e :: e in SearchEntries(m) ==> !Matches(m, e, len, ptr)
    ensures r != 0 && len < 32 ==> !IsHidden(LenFlags(m, r))
  {
    FindWalk(m, Latest(m), len, ptr)
  }

  /** On a well-formed chain the runtime walk gives the answer of the
      bounded search. */
  lemma {:induction false} FindWalkIsFindFrom(m: Mem, w: int, bound: int, len: int, ptr: int)
    requires bound <= |m| && CompareRoom(m, bound) && ChainOk(m, w, bound) && QueryIn(m, len, ptr)
    ensures WalkOk(m, w) && FindWalk(m, w, len, ptr) == FindFrom(m, w, bound, len, ptr)
    decreases bound
  {
    ChainWalks(m, w, bound);
    if w != 0 {
      FindWalkIsFindFrom(m, Prev(m, w), w, len, ptr);
    }
  }

  /** On a dictionary that keeps its invariant, the machine's walk gives
      the answer Find gives. */
  lemma FindAnyIsFind(m: Mem, len: int, ptr: int)
    requires DictInv(m) && CompareRoom(m, Here(m)) && QueryIn(m, len, ptr)
    ensures Searchable(m) && FindAny(m, len, ptr) == Find(m, len, ptr)
  {
    DictSearchable(m);
    FindWalkIsFindFrom(m, Latest(m), Here(m), len, ptr);
  }

  /** The walk's answer does not depend on the bound it was given, only on
      the chain. */
  lemma FindFromBound(m: Mem, w: int, bound: int, bound': int, len: int, ptr: int)
    requires bound <= bound' <= |m| && CompareRoom(m, bound') && ChainOk(m, w, bound) && QueryIn(m, len, ptr)
    ensures ChainOk(m, w, bound') && FindFrom(m, w, bound', len, ptr) == FindFrom(m, w, bound, len, ptr)
  {
    ChainOkMono(m, w, bound, bound');
  }

  /** A hidden entry never matches a query shorter than 32 bytes. */
  lemma HiddenNeverMatches(m: Mem, w: int, len: int, ptr: int)
    requires ByteIn(m, w + 4) && RangeIn(m, w + 5, MAX_WORD_LEN) && QueryIn(m, len, ptr)
    requires IsHidden(LenFlags(m, w)) && len < 32
    ensures !Matches(m, w, len, ptr)
  {
  }

  /** The IMMEDIATE flag plays no part in the runtime comparison. */
  lemma MatchIgnoresImmediate(m: Mem, m': Mem, w: int, len: int, ptr: int)
    requires ByteIn(m, w + 4) && RangeIn(m, w + 5, MAX_WORD_LEN) && QueryIn(m, len, ptr)
    requires |m'| == |m| && m' == m[w + 4 := ToggleImmediate(m[w + 4])]
    requires !(ptr <= w + 4 < ptr + StoredLen(len))
    ensures Matches(m', w, len, ptr) == Matches(m, w, len, ptr)
  {
    if 0 <= len < 64 {
      assert m'[ptr .. ptr + StoredLen(len)] == m[ptr .. ptr + StoredLen(len)];
      assert m'[w + 5 .. w + 5 + StoredLen(len)] == m[w + 5 .. w + 5 + StoredLen(len)];
    }
  }

  /** Neither flag plays a part in the host-side comparison. */
  lemma HostMatchIgnoresFlags(m: Mem, m': Mem, w: int, name: seq<Byte>)
    requires ByteIn(m, w + 4) && RangeIn(m, w + 5, NameLen(m, w))
    requires m' == m[w + 4 := ToggleHidden(m[w + 4])] || m' == m[w + 4 := ToggleImmediate(m[w + 4])]
    ensures ByteIn(m', w + 4) && RangeIn(m', w + 5, NameLen(m', w))
    ensures HostMatches(m', w, name) == HostMatches(m, w, name)
  {
  }

  /** On a dictionary without hidden entries the two lookups agree, for a
      query of fewer than 32 bytes whose first 13 are stored at ptr. */
  lemma {:induction false} LookupsAgree(m: Mem, w: int, bound: int, name: seq<Byte>, ptr: int)
    requires bound <= |m| && CompareRoom(m, bound) && ChainOk(m, w, bound) && w != 0
    requires |name| < 32 && RangeIn(m, ptr, StoredLen(|name|))
    requires m[ptr .. ptr + StoredLen(|name|)] == name[..StoredLen(|name|)]
    requires forall e :: e in Chain(m, w, bound) ==> !IsHidden(LenFlags(m, e))
    ensures FindFrom(m, w, bound, |name|, ptr) == match HostFindFrom(m, w, bound, name)
      case Some(e) => e
      case None => 0
    decreases bound
  {
    assert w in Chain(m, w, bound);
    LenHiddenBits(LenFlags(m, w));
    if !HostMatches(m, w, name) && Prev(m, w) != 0 {
      assert Chain(m, w, bound) == [w] + Chain(m, Prev(m, w), w);
      LookupsAgree(m, Prev(m, w), w, name, ptr);
    }
  }

  /** The host-side lookup reads only the chain's headers: a memory that
      agrees on [DICT, bound) gives the same answer, under any larger bound. */
  lemma {:induction false} HostFindFrame(m: Mem, m': Mem, w: int, bound: int, bound': int, name: seq<Byte>)
    requires bound <= |m| && bound <= bound' <= |m'| && ChainOk(m, w, bound) && w != 0
    requires AgreeOn(m, m', DICT, bound)
    ensures ChainOk(m', w, bound')
    ensures HostFindFrom(m', w, bound', name) == HostFindFrom(m, w, bound, name)
    decreases bound
  {
    ChainFrame(m, m', w, bound);
    ChainOkMono(m', w, bound, bound');
    HeaderAgrees(m, m', w, bound);
    AgreeBytes(m, m', DICT, bound, w, w + 5);
    if !HostMatches(m, w, name) && Prev(m, w) != 0 {
      HostFindFrame(m, m', Prev(m, w), w, w, name);
    }
  }
}

=== FILE: machine.dfy ===
/** The threaded-code machine: NEXT, the DOCOL trampoline and the primitives,
    each by its net effect on memory, registers and stacks.

    A word's code field holds the address of the code to run: DOCOL for a
    colon definition, or the address of a primitive's byte program. The
    model does not decode those byte programs; a code table maps each
    primitive's code address to the primitive it implements.

    The interpreter counter IC, the dispatch register A0 and the return
    stack pointer RSP live in the machine record rather than in their
    register cells, and `@` faults on those cells and on DSP's rather than
    read a value the record has moved past. The return
    stack's cells, HERE, LATEST, STATE, BASE and IN_STREAM stay in memory.
    The parameter stack is a sequence with its top at the end.
 */
module Machine {
  import opened Layout
  import opened Memory
  import opened Dictionary
  import opened Results
  import Lookup
  import Numbers
  import Writer
  import Tokenizer
  import opened Division
  import opened Faults
  import Outer

  datatype Prim =
    | Lit | Tick | Exit | ToR | RFrom | RDrop | Branch | ZeroBranch | Execute | ToCfa
    | Hidden | Immediate | LeftBracket | RightBracket
    | Over | Rot | DivMod
    | Comma | Create | Find | Number | Word | Key | Emit
    | Const(value: int) | Fetch | Dup | Add | Mul | Bye
    | RZero | RspStore | Interpret(lit: int)

  datatype Vm = Vm(mem: Mem, ds: seq<int>, ic: int, a0: int, rsp: int, input: seq<Byte>, output: seq<Byte>)

  datatype Outcome = Running(vm: Vm) | Halted(vm: Vm) | Faulted(fault: Fault)

  type CodeTable = map<int, Prim>

  /** The memory of the machine holds its registers. */
  predicate Valid(vm: Vm) {
    HasRegisters(vm.mem)
  }

  /** A write of n bytes at a lands in the dictionary region of memory. */
  predicate Writable(m: Mem, a: int, n: int) {
    DICT <= a && 0 <= n && a + n <= |m|
  }

  /** The cell at a overlaps one of the register cells DSP, RSP, IC and A0,
      whose values the machine record keeps instead of memory. */
  predicate Shadowed(a: int) {
    Overlaps(a, DSP) || Overlaps(a, RSP) || Overlaps(a, IC) || Overlaps(a, A0)
  }

  predicate Overlaps(a: int, r: int) {
    r - CELL < a < r + CELL
  }

  /** What `emit` prints for the byte b: the UTF-8 encoding of the character
      with code point b, one byte below 128 and two from 128 on (section 3
      of RFC 3629). */
  function CharBytes(b: Byte): (r: seq<Byte>)
    ensures b < 128 ==> r == [b]
    ensures 128 <= b ==> |r| == 2 && 0xC0 <= r[0] < 0xE0 && 0x80 <= r[1] < 0xC0
                         && (r[0] as int - 0xC0) * 64 + (r[1] as int - 0x80) == b as int
  {
    if b < 128 then [b] else [0xC0 + b / 64, 0x80 + b % 64]
  }

  function Push(vm: Vm, v: int): Vm {
    vm.(ds := vm.ds + [v])
  }

  function Top(vm: Vm): int
    requires |vm.ds| > 0
  {
    vm.ds[|vm.ds| - 1]
  }

  function Pop(vm: Vm): Vm
    requires |vm.ds| > 0
  {
    vm.(ds := vm.ds[.. |vm.ds| - 1])
  }

  /** `>cfa` as its byte program computes it: 4 plus the length bits capped
      at 13, plus 4 more, with the low two bits cleared. */
  function ToCfaOf(m: Mem, w: int): (r: int)
    requires ByteIn(m, w + 4)
    ensures var end := w + 5 + StoredLen(LenOf(m[w + 4]));
      r % CELL == 0 && end <= r < end + CELL
  {
    var x := w + 4 + StoredLen(LenOf(m[w + 4])) + 4;
    x - x % 4
  }

  /** One NEXT: fetch the execution token at IC, step IC past it, keep the
      token in A0 and run the code its code field points to. */
  function Step(code: CodeTable, vm: Vm): (r: Outcome)
    requires Valid(vm)
    ensures r.Running? || r.Halted? ==> Valid(r.vm)
  {
    if !CellIn(vm.mem, vm.ic) then Faulted(BadAddress)
    else
      var xt := ReadI32(vm.mem, vm.ic);
      if !CellIn(vm.mem, xt) then Faulted(BadAddress)
      else Dispatch(code, vm.(ic := Wrap32(vm.ic + CELL), a0 := xt), ReadI32(vm.mem, xt))
  }

  /** Runs the code at address c with A0 already set. */
  function Dispatch(code: CodeTable, vm: Vm, c: int): (r: Outcome)
    requires Valid(vm)
    ensures r.Running? || r.Halted? ==> Valid(r.vm)
    decreases |vm.input|, |vm.ds|, 2
  {
    if c == DOCOL then Docol(vm)
    else if c in code then Exec(code, code[c], vm)
    else Faulted(UnknownCode(c))
  }

  /** The DOCOL trampoline: push IC on the return stack, then continue at
      the cell after the code field of the word in A0. */
  function Docol(vm: Vm): (r: Outcome)
    requires Valid(vm)
    ensures r.Running? ==> Valid(r.vm)
    ensures r.Halted? == false
  {
    if !Writable(vm.mem, vm.rsp, CELL) then Faulted(Clobber)
    else Running(vm.(mem := WriteI32(vm.mem, vm.rsp, vm.ic), rsp := Wrap32(vm.rsp - CELL), ic := Wrap32(vm.a0 + CELL)))
  }

  /** Runs one primitive. */
  function Exec(code: CodeTable, p: Prim, vm: Vm): (r: Outcome)
    requires Valid(vm)
    ensures r.Running? || r.Halted? ==> Valid(r.vm)
    decreases |vm.input|, |vm.ds|, 1
  {
    match p
    case Lit => Inline(vm)
    case Tick => Inline(vm)
    case Exit =>
      if !CellIn(vm.mem, vm.rsp + CELL) then Faulted(BadAddress)
      else Running(vm.(rsp := Wrap32(vm.rsp + CELL), ic := ReadI32(vm.mem, vm.rsp + CELL)))
    case ToR =>
      if |vm.ds| == 0 then Faulted(Underflow)
      else if !Writable(vm.mem, vm.rsp, CELL) then Faulted(Clobber)
      else Running(Pop(vm).(mem := WriteI32(vm.mem, vm.rsp, Top(vm)), rsp := Wrap32(vm.rsp - CELL)))
    case RFrom =>
      if !CellIn(vm.mem, vm.rsp + CELL) then Faulted(BadAddress)
      else Running(Push(vm, ReadI32(vm.mem, vm.rsp + CELL)).(rsp := Wrap32(vm.rsp + CELL)))
    case RDrop => Running(vm.(rsp := Wrap32(vm.rsp + CELL)))
    case Branch => Jump(vm)
    case ZeroBranch =>
      if |vm.ds| == 0 then Faulted(Underflow)
      else if Top(vm) == 0 then Jump(Pop(vm))
      else Running(Pop(vm).(ic := Wrap32(vm.ic + CELL)))
    case Execute =>
      if |vm.ds| == 0 then Faulted(Underflow)
      else if !CellIn(vm.mem, Top(vm)) then Faulted(BadAddress)
      else Dispatch(code, Pop(vm).(a0 := Top(vm)), ReadI32(vm.mem, Top(vm)))
    case ToCfa =>
      if |vm.ds| == 0 then Faulted(Underflow)
      else if !ByteIn(vm.mem, Top(vm) + 4) then Faulted(BadAddress)
      else Running(Push(Pop(vm), ToCfaOf(vm.mem, Top(vm))))
    case Hidden =>
      if |vm.ds| == 0 then Faulted(Underflow)
      else if !Writable(vm.mem, Top(vm) + 4, 1) then Faulted(Clobber)
      else Running(Pop(vm).(mem := ToggleAt(vm.mem, Top(vm) + 4, ToggleHidden)))
    case Immediate =>
      if !Writable(vm.mem, Latest(vm.mem) + 4, 1) then Faulted(Clobber)
      else Running(vm.(mem := ToggleAt(vm.mem, Latest(vm.mem) + 4, ToggleImmediate)))
    case LeftBracket => Running(vm.(mem := SetReg(vm.mem, STATE, 0)))
    case RightBracket => Running(vm.(mem := SetReg(vm.mem, STATE, 1)))
    case Over =>
      if |vm.ds| < 2 then Faulted(Underflow)
      else Running(Push(vm, vm.ds[|vm.ds| - 2]))
    case Rot =>
      if |vm.ds| < 3 then Faulted(Underflow)
      else
        var n := |vm.ds|;
        Running(vm.(ds := vm.ds[.. n - 3] + [vm.ds[n - 2], vm.ds[n - 1], vm.ds[n - 3]]))
    case DivMod =>
      if |vm.ds| < 2 then Faulted(Underflow)
      else
        var n := |vm.ds|;
        var a := vm.ds[n - 2];
        var b := vm.ds[n - 1];
        if b == 0 then Faulted(DivideByZero)
        else if !IsI32(TDiv(a, b)) then Faulted(Overflow)
        else Running(vm.(ds := vm.ds[.. n - 2] + [TRem(a, b), TDiv(a, b)]))
    case Comma =>
      if |vm.ds| == 0 then Faulted(Underflow)
      else if !Writable(vm.mem, Here(vm.mem), CELL) then Faulted(Clobber)
      else Running(Pop(vm).(mem := Writer.Comma(vm.mem, Top(vm))))
    case Create => CreateStep(vm)
    case Find => FindStep(vm)
    case Number => NumberStep(vm)
    case Word => WordStep(vm)
    case Key =>
      if vm.input == [] then Faulted(EndOfInput)
      else Running(Push(vm, vm.input[0]).(input := vm.input[1..]))
    case Emit =>
      if |vm.ds| == 0 then Faulted(Underflow)
      else Running(Pop(vm).(output := vm.output + CharBytes(Top(vm) % 256)))
    case Const(v) => Running(Push(vm, v))
    case Fetch =>
      if |vm.ds| == 0 then Faulted(Underflow)
      else if !CellIn(vm.mem, Top(vm)) || Shadowed(Top(vm)) then Faulted(BadAddress)
      else Running(Push(Pop(vm), ReadI32(vm.mem, Top(vm))))
    case Dup =>
      if |vm.ds| == 0 then Faulted(Underflow)
      else Running(Push(vm, Top(vm)))
    case Add => Binary(vm, (a, b) => a + b)
    case Mul => Binary(vm, (a, b) => a * b)
    case Bye => Halted(vm)
    case RZero => Running(Push(vm, Reg(vm.mem, R0)))
    case RspStore =>
      if |vm.ds| == 0 then Faulted(Underflow)
      else Running(Pop(vm).(rsp := Wrap32(Top(vm))))
    case Interpret(lit) => InterpretStep(code, vm, lit)
  }

  /** `interpret`: reads one token, copies it to IN_STREAM and runs,
      appends, pushes or rejects it as Outer.Interpretation decides. A word
      to run is dispatched as `execute` would; the interpreter's own return
      address and its return-stack temporaries are not modelled. */
  function InterpretStep(code: CodeTable, vm: Vm, lit: int): (r: Outcome)
    requires Valid(vm)
    ensures r.Running? || r.Halted? ==> Valid(r.vm)
    decreases |vm.input|, |vm.ds|, 0
  {
    match Tokenizer.Word(vm.input)
    case None => Faulted(EndOfInput)
    case Some((t, rest)) =>
      var a := Reg(vm.mem, IN_STREAM);
      if !Writable(vm.mem, a, |t|) then Faulted(Clobber)
      else
        var v := vm.(mem := WriteBytes(vm.mem, a, t), input := rest);
        match Outer.Interpretation(v.mem, a, |t|, lit)
        case Err(f) => Faulted(f)
        case Ok(Perform(xt)) =>
          if !CellIn(v.mem, xt) then Faulted(BadAddress)
          else Dispatch(code, v.(a0 := xt), ReadI32(v.mem, xt))
        case Ok(Compile(cells)) =>
          if !Writable(v.mem, Here(v.mem), CELL * |cells|) then Faulted(Clobber)
          else Running(v.(mem := Outer.CommaAll(v.mem, cells)))
        case Ok(Literal(n)) => Running(Push(v, n))
        case Ok(Unknown(n)) => Running(Push(v, n).(output := v.output + [Outer.QUESTION]))
  }

  /** `lit` and `'`: push the cell at IC and step IC past it. */
  function Inline(vm: Vm): Outcome {
    if !CellIn(vm.mem, vm.ic) then Faulted(BadAddress)
    else Running(Push(vm, ReadI32(vm.mem, vm.ic)).(ic := Wrap32(vm.ic + CELL)))
  }

  /** `branch`: add the offset stored at IC to IC. */
  function Jump(vm: Vm): Outcome {
    if !CellIn(vm.mem, vm.ic) then Faulted(BadAddress)
    else Running(vm.(ic := Wrap32(vm.ic + ReadI32(vm.mem, vm.ic))))
  }

  /** A two-operand arithmetic word: pops b then a, pushes f(a, b) wrapped
      to 32 bits. */
  function Binary(vm: Vm, f: (int, int) -> int): Outcome {
    if |vm.ds| < 2 then Faulted(Underflow)
    else
      var n := |vm.ds|;
      Running(vm.(ds := vm.ds[.. n - 2] + [Wrap32(f(vm.ds[n - 2], vm.ds[n - 1]))]))
  }

  /** Flips one flag bit of the byte at a. */
  function ToggleAt(m: Mem, a: int, toggle: Byte -> Byte): (m': Mem)
    requires ByteIn(m, a)
    ensures |m'| == |m|
  {
    m[a := toggle(m[a])]
  }

  /** `create` ( ptr len -- ): appends a header with the name at ptr and,
      as the source writes it, moves HERE 12 bytes past the old HERE
      whatever the name's length. */
  function CreateStep(vm: Vm): Outcome
    requires Valid(vm)
  {
    if |vm.ds| < 2 then Faulted(Underflow)
    else
      var len := Top(vm);
      var ptr := vm.ds[|vm.ds| - 2];
      var k := Writer.CopyLen(len);
      if !Writable(vm.mem, Here(vm.mem), 5 + k) then Faulted(Clobber)
      else if !RangeIn(vm.mem, ptr, k) then Faulted(BadAddress)
      else Running(vm.(ds := vm.ds[.. |vm.ds| - 2], mem := Writer.CreateAsWritten(vm.mem, len, ptr)))
  }

  /** `find` ( ptr len -- w ): the newest visible entry named by the bytes at
      ptr, or 0. The walk follows whatever links it finds; a chain that does
      not descend to 0 inside memory, where the source's walk would loop or
      read past the end, is a fault. */
  function FindStep(vm: Vm): Outcome
    requires Valid(vm)
  {
    if |vm.ds| < 2 then Faulted(Underflow)
    else
      var len := Top(vm);
      var ptr := vm.ds[|vm.ds| - 2];
      if !Searchable(vm.mem) then Faulted(Corrupt)
      else if !Lookup.QueryIn(vm.mem, len, ptr) then Faulted(BadAddress)
      else Running(vm.(ds := vm.ds[.. |vm.ds| - 2] + [Lookup.FindAny(vm.mem, len, ptr)]))
  }

  /** `number` ( ptr len -- n unconverted ): converts the bytes at ptr in the
      radix held in BASE. The source accumulates the magnitude in an i32
      before negating it, so a magnitude above I32_MAX overflows even for a
      negative number. */
  function NumberStep(vm: Vm): Outcome
    requires Valid(vm)
  {
    if |vm.ds| < 2 then Faulted(Underflow)
    else
      var len := Top(vm);
      var ptr := vm.ds[|vm.ds| - 2];
      var radix := Reg(vm.mem, BASE);
      var done := Running(vm.(ds := vm.ds[.. |vm.ds| - 2] + [0, 0]));
      if len == 0 then done
      else if !ByteIn(vm.mem, ptr) then Faulted(BadAddress)
      else if len < 0 then
        // the loop never runs; only the first byte, and the one after a
        // leading minus, are read
        if vm.mem[ptr] == Numbers.MINUS && !ByteIn(vm.mem, ptr + 1) then Faulted(BadAddress) else done
      else if len == 1 && vm.mem[ptr] == Numbers.MINUS then done
      else if !RangeIn(vm.mem, ptr, len) then Faulted(BadAddress)
      else if !Numbers.ValidRadix(radix) then Faulted(BadRadix)
      else
        var r := Numbers.ParseNumber(vm.mem[ptr .. ptr + len], radix);
        if !(-I32_MAX <= r.0 <= I32_MAX) then Faulted(Overflow)
        else Running(vm.(ds := vm.ds[.. |vm.ds| - 2] + [r.0, r.1]))
  }

  /** `word` ( -- ptr len ): copies the next token of the input to the
      scratch area at IN_STREAM. */
  function WordStep(vm: Vm): Outcome
    requires Valid(vm)
  {
    match Tokenizer.Word(vm.input)
    case None => Faulted(EndOfInput)
    case Some((t, rest)) =>
      var a := Reg(vm.mem, IN_STREAM);
      if !Writable(vm.mem, a, |t|) then Faulted(Clobber)
      else Running(vm.(mem := WriteBytes(vm.mem, a, t), ds := vm.ds + [a, |t|], input := rest))
  }

  /** Runs at most fuel steps; Running means the fuel ran out first. */
  function Run(code: CodeTable, vm: Vm, fuel: nat): (r: Outcome)
    requires Valid(vm)
    ensures r.Running? || r.Halted? ==> Valid(r.vm)
    decreases fuel
  {
    if fuel == 0 then Running(vm)
    else match Step(code, vm)
      case Running(vm') => Run(code, vm', fuel - 1)
      case other => other
  }
}

=== FILE: memory.dfy ===
/** The flat byte memory of the execution engine with its typed accessors:
    unsigned 8-bit reads and writes, and signed little-endian 32-bit cells.
 */
module Memory {
  import opened Layout

  /** One byte of memory, as its unsigned value. */
  type Byte = x: int | 0 <= x < 256
  type Mem = seq<Byte>

  const I32_MIN: int := -0x8000_0000
  const I32_MAX: int := 0x7fff_ffff
  const TWO32: int := 0x1_0000_0000

  predicate IsI32(v: int) {
    I32_MIN <= v <= I32_MAX
  }

  /** Two's-complement truncation of an integer to 32 bits: what a cell
      keeps of a value stored into it. */
  function Wrap32(v: int): (r: int)
    ensures IsI32(r)
    ensures (r - v) % TWO32 == 0
    ensures IsI32(v) ==> r == v
  {
    var u := v % TWO32;
    if u > I32_MAX then u - TWO32 else u
  }

  predicate ByteIn(m: Mem, a: int) {
    0 <= a < |m|
  }

  predicate CellIn(m: Mem, a: int) {
    0 <= a && a + CELL <= |m|
  }

  predicate RangeIn(m: Mem, a: int, n: int) {
    0 <= a && 0 <= n && a + n <= |m|
  }

  /** Largest memory the model covers. Addresses are i32 values in the
      source; this bound leaves room for every small offset added to an
      in-bounds address without leaving the i32 range. */
  const MAX_MEM: int := 0x7fff_0000

  /** The memory holds every register cell and is addressable by i32 values. */
  predicate HasRegisters(m: Mem) {
    DICT <= |m| <= MAX_MEM
  }

  /** The register cells are exactly the cells from 4 up to the trampoline. */
  predicate IsReg(r: int) {
    4 <= r && r + CELL <= DOCOL && r % CELL == 0
  }

  /** Byte i lies in one of the register cells regs. */
  predicate InRegs(i: int, regs: set<int>) {
    0 <= i < DOCOL && i - i % CELL in regs
  }

  /** The byte at i (0 outside the memory). The frame predicates below
      quantify over this term rather than over plain indexing, so they are
      applied only where a proof mentions a byte through it. */
  ghost function At(m: Mem, i: int): int {
    if 0 <= i < |m| then m[i] else 0
  }

  /** m' differs from m at most in the register cells regs and in the bytes
      of [lo, hi). */
  ghost predicate Frame(m: Mem, m': Mem, regs: set<int>, lo: int, hi: int) {
    |m'| == |m| && forall i :: 0 <= i < |m| && !(lo <= i < hi) && !InRegs(i, regs) ==> At(m', i) == At(m, i)
  }

  /** m and m' hold the same bytes on [lo, hi). */
  ghost predicate AgreeOn(m: Mem, m': Mem, lo: int, hi: int) {
    forall i :: lo <= i < hi && 0 <= i ==> i < |m| && i < |m'| && At(m', i) == At(m, i)
  }

  function ReadU8(m: Mem, a: int): Byte
    requires ByteIn(m, a)
  {
    m[a]
  }

  function WriteU8(m: Mem, a: int, b: Byte): (r: Mem)
    requires ByteIn(m, a)
    ensures Frame(m, r, {}, a, a + 1) && r[a] == b
  {
    m[a := b]
  }

  /** Unsigned value of four little-endian bytes. */
  function U32Of(b0: Byte, b1: Byte, b2: Byte, b3: Byte): int {
    b0 + 256 * (b1 + 256 * (b2 + 256 * b3))
  }

  function ReadI32(m: Mem, a: int): (v: int)
    requires CellIn(m, a)
    ensures IsI32(v)
  {
    var u := U32Of(m[a], m[a + 1], m[a + 2], m[a + 3]);
    if u > I32_MAX then u - TWO32 else u
  }

  /** The four little-endian bytes of the low 32 bits of v. */
  function Encode(v: int): (bs: seq<Byte>)
    ensures |bs| == 4
  {
    var u := v % TWO32;
    [u % 256, u / 256 % 256, u / 256 / 256 % 256, u / 256 / 256 / 256]
  }

  function WriteI32(m: Mem, a: int, v: int): (r: Mem)
    requires CellIn(m, a)
    ensures Frame(m, r, {}, a, a + CELL) && ReadI32(r, a) == Wrap32(v)
  {
    var bs := Encode(v);
    EncodeDecode(v);
    m[a := bs[0]][a + 1 := bs[1]][a + 2 := bs[2]][a + 3 := bs[3]]
  }

  /** Copies bs into memory starting at a. */
  function WriteBytes(m: Mem, a: int, bs: seq<Byte>): (r: Mem)
    requires RangeIn(m, a, |bs|)
    ensures Frame(m, r, {}, a, a + |bs|) && r[a..a + |bs|] == bs
  {
    m[..a] + bs + m[a + |bs|..]
  }

  lemma DivMod256(x: int)
    requires 0 <= x
    ensures x == x % 256 + 256 * (x / 256)
  {
  }

  /** Decoding the encoding of v gives back v truncated to 32 bits. */
  lemma EncodeDecode(v: int)
    ensures var bs := Encode(v);
      var u := U32Of(bs[0], bs[1], bs[2], bs[3]);
      (if u > I32_MAX then u - TWO32 else u) == Wrap32(v)
  {
    var u := v % TWO32;
    var u1 := u / 256;
    var u2 := u1 / 256;
    var u3 := u2 / 256;
    DivMod256(u);
    DivMod256(u1);
    DivMod256(u2);
    assert U32Of(Encode(v)[0], Encode(v)[1], Encode(v)[2], Encode(v)[3]) == u;
  }

  /** A cell whose bytes did not change reads the same. */
  lemma ReadI32Unchanged(m: Mem, m': Mem, a: int)
    requires CellIn(m, a) && CellIn(m', a)
    requires m'[a] == m[a] && m'[a + 1] == m[a + 1] && m'[a + 2] == m[a + 2] && m'[a + 3] == m[a + 3]
    ensures ReadI32(m', a) == ReadI32(m, a)
  {
  }

  /** The register file: every register is a cell at a fixed low address. */
  function Reg(m: Mem, r: int): (v: int)
    requires HasRegisters(m) && IsReg(r)
  {
    ReadI32(m, r)
  }

  function SetReg(m: Mem, r: int, v: int): (m': Mem)
    requires HasRegisters(m) && IsReg(r)
    ensures HasRegisters(m') && Reg(m', r) == Wrap32(v)
    ensures Frame(m, m', {r}, 0, 0)
    ensures forall r' :: IsReg(r') && r' != r ==> Reg(m', r') == Reg(m, r')
  {
    var m' := WriteI32(m, r, v);
    RegCells(r);
    forall r' | IsReg(r') && r' != r
      ensures Reg(m', r') == Reg(m, r')
    {
      FrameReadI32(m, m', {}, r, r + CELL, r');
    }
    m'
  }

  /** A register's cell holds exactly the bytes whose cell base is the
      register, and two distinct registers do not overlap. */
  lemma RegCells(r: int)
    requires IsReg(r)
    ensures forall i {:trigger i % CELL} :: 0 <= i ==> (r <= i < r + CELL <==> i - i % CELL == r)
    ensures forall r' :: IsReg(r') && r' != r ==> r' + CELL <= r || r + CELL <= r'
  {
  }

  /** Frames compose: two successive changes are confined to the union of
      their registers and the hull of their ranges. */
  lemma FrameCompose(m1: Mem, m2: Mem, m3: Mem, r1: set<int>, r2: set<int>, lo1: int, hi1: int, lo2: int, hi2: int)
    requires Frame(m1, m2, r1, lo1, hi1) && Frame(m2, m3, r2, lo2, hi2)
    requires lo1 <= hi1 && lo2 <= hi2
    ensures Frame(m1, m3, r1 + r2, Min(lo1, lo2), Max(hi1, hi2))
  {
  }

  function Min(a: int, b: int): int { if a <= b then a else b }
  function Max(a: int, b: int): int { if a <= b then b else a }

  /** A frame may be widened to more registers and a larger range; an empty
      range is contained in every range. */
  lemma FrameWiden(m: Mem, m': Mem, regs: set<int>, lo: int, hi: int, regs': set<int>, lo': int, hi': int)
    requires Frame(m, m', regs, lo, hi) && regs <= regs'
    requires hi <= lo || (lo' <= lo && hi <= hi')
    ensures Frame(m, m', regs', lo', hi')
  {
  }

  /** A frame leaves every cell outside its range and its registers as it was. */
  lemma FrameReadI32(m: Mem, m': Mem, regs: set<int>, lo: int, hi: int, c: int)
    requires Frame(m, m', regs, lo, hi) && CellIn(m, c)
    requires c + CELL <= lo || hi <= c || hi <= lo
    requires DOCOL <= c || (IsReg(c) && c !in regs)
    ensures ReadI32(m', c) == ReadI32(m, c)
  {
    forall i | c <= i < c + CELL ensures m'[i] == m[i] {
      assert !InRegs(i, regs) by {
        if DOCOL > c {
          assert i - i % CELL == c;
        }
      }
      assert At(m', i) == At(m, i);
    }
    ReadI32Unchanged(m, m', c);
  }

  /** A frame leaves every byte range outside its range and the registers
      as it was. */
  lemma FrameSlice(m: Mem, m': Mem, regs: set<int>, lo: int, hi: int, a: int, b: int)
    requires Frame(m, m', regs, lo, hi) && 0 <= a <= b <= |m| && (DOCOL <= a || regs == {})
    requires b <= lo || hi <= a || hi <= lo
    ensures m'[a..b] == m[a..b]
  {
    forall i | a <= i < b ensures m'[i] == m[i] {
      assert At(m', i) == At(m, i);
    }
  }

  /** Memories that agree on a range agree on every byte, cell and slice in it. */
  lemma AgreeBytes(m: Mem, m': Mem, lo: int, hi: int, a: int, b: int)
    requires AgreeOn(m, m', lo, hi) && 0 <= lo <= a <= b <= hi && b <= |m| && b <= |m'|
    ensures m'[a..b] == m[a..b]
    ensures forall i :: a <= i < b ==> m'[i] == m[i]
    ensures a + CELL <= b ==> ReadI32(m', a) == ReadI32(m, a)
  {
    forall i | a <= i < b ensures m'[i] == m[i] {
      assert At(m', i) == At(m, i);
    }
  }
}

=== FILE: numbers.dfy ===
/** Text-to-integer conversion.

    `_number` (the `number` word) converts a counted string in the radix held
    in BASE and reports how many characters it could not convert; the host
    side uses Rust's `str::parse::<i32>` for the numeric tokens of colon
    definitions it builds. Both are defined here over the token's bytes, as
    reference functions, together with the loop the source actually runs.
 */
module Numbers {
  import opened Memory
  import opened Results

  const MINUS: Byte := 0x2d
  const PLUS: Byte := 0x2b

  predicate ValidRadix(radix: int) {
    2 <= radix <= 36
  }

  /** `char::to_digit`: '0'..'9' are 0..9, letters of either case are
      10..35, and the value counts only when it is below the radix. */
  function ToDigit(c: Byte, radix: int): (r: Option<int>)
    requires ValidRadix(radix)
    ensures r.Some? ==> 0 <= r.value < radix
    ensures r.Some? <==> IsDigit(c, radix)
  {
    var d := DigitValue(c);
    if d < radix then Some(d) else None
  }

  /** The value of c as a digit of radix 36, or 36 when c is none. */
  function DigitValue(c: Byte): (d: int)
    ensures 0 <= d <= 36
  {
    if 0x30 <= c <= 0x39 then c - 0x30
    else if 0x61 <= c <= 0x7a then c - 0x61 + 10
    else if 0x41 <= c <= 0x5a then c - 0x41 + 10
    else 36
  }

  predicate IsDigit(c: Byte, radix: int) {
    DigitValue(c) < radix
  }

  predicate AllDigits(s: seq<Byte>, radix: int) {
    forall i :: 0 <= i < |s| ==> IsDigit(s[i], radix)
  }

  /** The value of a string of digits, most significant first. */
  function Value(s: seq<Byte>, radix: int): int
    decreases |s|
  {
    if |s| == 0 then 0 else Value(s[..|s| - 1], radix) * radix + DigitValue(s[|s| - 1])
  }

  /** Index of the first byte of s that is not a digit, or |s|. */
  function FirstNonDigit(s: seq<Byte>, radix: int): (k: int)
    ensures 0 <= k <= |s|
    ensures forall i :: 0 <= i < k ==> IsDigit(s[i], radix)
    ensures k < |s| ==> !IsDigit(s[k], radix)
    decreases |s|
  {
    if |s| == 0 || !IsDigit(s[0], radix) then 0 else 1 + FirstNonDigit(s[1..], radix)
  }

  /** The reference result of `_number` on the counted string s: the value
      and the number of characters left unconverted. An empty string and a
      lone minus sign convert to 0 with nothing left over; a leading minus
      negates; when some byte is not a digit of the radix, the result is 0
      and the count runs from that byte to the end of the string. */
  function ParseNumber(s: seq<Byte>, radix: int): (r: (int, int))
    ensures 0 <= r.1 <= |s|
    ensures r.1 != 0 ==> r.0 == 0
  {
    if |s| == 0 then (0, 0)
    else if s[0] == MINUS && |s| == 1 then (0, 0)
    else
      var start := if s[0] == MINUS then 1 else 0;
      var k := start + FirstNonDigit(s[start..], radix);
      if k < |s| then (0, |s| - k)
      else if start == 1 then (-Value(s[1..], radix), 0)
      else (Value(s, radix), 0)
  }

  /** The conversion fails exactly when some byte after the optional minus
      sign is not a digit, and the count locates the first such byte. */
  lemma ParseNumberFailure(s: seq<Byte>, radix: int)
    requires ValidRadix(radix)
    ensures var start := if |s| > 0 && s[0] == MINUS then 1 else 0;
      && (ParseNumber(s, radix).1 != 0 <==> start <= |s| && !AllDigits(s[start..], radix))
      && (ParseNumber(s, radix).1 != 0 ==>
            var p := |s| - ParseNumber(s, radix).1;
            start <= p && !IsDigit(s[p], radix) && AllDigits(s[start..p], radix))
  {
    if |s| > 0 && !(s[0] == MINUS && |s| == 1) {
      var start := if s[0] == MINUS then 1 else 0;
      var k := FirstNonDigit(s[start..], radix);
      if k < |s| - start {
        assert s[start..][k] == s[start + k];
        assert s[start..start + k] == s[start..][..k];
      }
    }
  }

  /** `_number` as the source runs it: one byte of look-ahead in c, the
      1-based count n of bytes read, and the accumulator. The source reads the
      byte after the string when the loop ends; that byte never reaches the
      result, so it is not read here. */
  method Number(s: seq<Byte>, radix: int) returns (value: int, unparsed: int)
    requires ValidRadix(radix)
    ensures (value, unparsed) == ParseNumber(s, radix)
  {
    var len := |s|;
    if len == 0 {
      return 0, 0;
    }
    var n := 1;
    var c := s[0];
    var isNegative := false;
    if c == MINUS {
      if len == 1 {
        return 0, 0;
      }
      c := s[n];
      n := n + 1;
      isNegative := true;
    }
    var start := if isNegative then 1 else 0;
    var result := 0;
    while n <= len
      invariant start + 1 <= n <= len + 1
      invariant n <= len ==> c == s[n - 1]
      invariant AllDigits(s[start..n - 1], radix)
      invariant result == Value(s[start..n - 1], radix)
      decreases len - n
    {
      var d := ToDigit(c, radix);
      if d.None? {
        assert s[start..][..n - 1 - start] == s[start..n - 1];
        FirstNonDigitAt(s[start..], radix, n - 1 - start);
        return 0, len - n + 1;
      }
      assert s[start..n] == s[start..n - 1] + [c];
      ValueSnoc(s[start..n - 1], c, radix);
      result := result * radix + d.value;
      if n < len {
        c := s[n];
      }
      n := n + 1;
    }
    assert s[start..] == s[start..n - 1];
    FirstNonDigitAll(s[start..], radix);
    if isNegative {
      result := -result;
    }
    return result, 0;
  }

  /** FirstNonDigit finds the first non-digit. */
  lemma FirstNonDigitAt(s: seq<Byte>, radix: int, k: int)
    requires 0 <= k < |s| && AllDigits(s[..k], radix) && !IsDigit(s[k], radix)
    ensures FirstNonDigit(s, radix) == k
  {
    forall i | 0 <= i < k ensures IsDigit(s[i], radix) {
      assert s[..k][i] == s[i];
    }
  }

  /** On a string of digits FirstNonDigit reaches the end. */
  lemma FirstNonDigitAll(s: seq<Byte>, radix: int)
    requires AllDigits(s, radix)
    ensures FirstNonDigit(s, radix) == |s|
  {
  }

  /** The lower-case digit for d. */
  function DigitChar(d: int): (c: Byte)
    requires 0 <= d < 36
    ensures DigitValue(c) == d
  {
    if d < 10 then 0x30 + d else 0x61 + d - 10
  }

  /** The digits of a natural number in radix, most significant first. */
  function Render(v: nat, radix: int): (s: seq<Byte>)
    requires ValidRadix(radix)
    ensures |s| > 0
    decreases v
  {
    if v < radix then [DigitChar(v)]
    else
      DivShrinks(v, radix);
      Render(v / radix, radix) + [DigitChar(v % radix)]
  }

  lemma DivMod(v: int, r: int)
    requires r > 0
    ensures (v / r) * r + v % r == v
  {
  }

  lemma DivShrinks(v: int, r: int)
    requires r >= 2 && v >= r
    ensures 0 <= v / r < v
  {
  }

  /** The text of an integer in radix: a minus sign for negative numbers. */
  function Format(v: int, radix: int): (s: seq<Byte>)
    requires ValidRadix(radix)
  {
    if v < 0 then [MINUS] + Render(-v, radix) else Render(v, radix)
  }

  lemma {:induction false} RenderDigits(v: nat, radix: int)
    requires ValidRadix(radix)
    ensures AllDigits(Render(v, radix), radix)
    ensures Value(Render(v, radix), radix) == v
    decreases v
  {
    if v >= radix {
      var q, d := v / radix, v % radix;
      DivShrinks(v, radix);
      RenderDigits(q, radix);
      ValueSnoc(Render(q, radix), DigitChar(d), radix);
      DivMod(v, radix);
    }
  }

  /** Parsing the text of any integer gives that integer back with nothing
      left over. */
  lemma ParseFormat(v: int, radix: int)
    requires ValidRadix(radix)
    ensures ParseNumber(Format(v, radix), radix) == (v, 0)
  {
    var s := Format(v, radix);
    if v < 0 {
      RenderDigits(-v, radix);
      assert s[1..] == Render(-v, radix);
      FirstNonDigitAll(s[1..], radix);
    } else {
      RenderDigits(v, radix);
      FirstNonDigitAll(s, radix);
    }
  }

  /** Rust's `str::parse::<i32>`: an optional sign, at least one decimal
      digit, and a value inside the i32 range. */
  function ParseI32(s: seq<Byte>): (r: Option<int>)
    ensures r.Some? ==> IsI32(r.value)
  {
    if |s| == 0 then None
    else
      var signed := s[0] == MINUS || s[0] == PLUS;
      var digits := if signed then s[1..] else s;
      if |digits| == 0 || !AllDigits(digits, 10) then None
      else
        var v := if s[0] == MINUS then -Value(digits, 10) else Value(digits, 10);
        if IsI32(v) then Some(v) else None
  }

  /** For tokens without a plus sign whose value fits an i32, the host-side
      parse succeeds exactly when `_number` in radix 10 converts the whole
      token, and both give the same value. The empty token and a lone minus
      are the exceptions: `_number` reports them as 0 without error. */
  lemma ParseI32AgreesWithNumber(s: seq<Byte>)
    requires s != [] && s != [MINUS] && s[0] != PLUS
    requires IsI32(ParseNumber(s, 10).0)
    ensures ParseI32(s).Some? <==> ParseNumber(s, 10).1 == 0
    ensures ParseI32(s).Some? ==> ParseI32(s).value == ParseNumber(s, 10).0
  {
    var start := if s[0] == MINUS then 1 else 0;
    ParseNumberFailure(s, 10);
    if AllDigits(s[start..], 10) {
      FirstNonDigitAll(s[start..], 10);
    }
  }

  /** Appending a digit multiplies by the radix and adds the digit. */
  lemma ValueSnoc(s: seq<Byte>, c: Byte, radix: int)
    ensures Value(s + [c], radix) == Value(s, radix) * radix + DigitValue(c)
  {
    assert (s + [c])[..|s|] == s;
  }

  /** The conversions the source's tests expect, in radix 10. */
  lemma DecimalExamples()
    ensures ParseNumber([0x31, 0x32, 0x37], 10) == (127, 0)
    ensures ParseNumber([MINUS, 0x31, 0x32, 0x33, 0x34], 10) == (-1234, 0)
    ensures ParseNumber([0x31, 0x32, 0x62, 0x34], 10) == (0, 2)
    ensures ParseNumber([MINUS], 10) == (0, 0)
    ensures ParseNumber([], 10) == (0, 0)
  {
    ValueOf3(0x31, 0x32, 0x37, 10);
    ValueOf4(0x31, 0x32, 0x33, 0x34, 10);
    var b: seq<Byte> := [MINUS, 0x31, 0x32, 0x33, 0x34];
    assert b[1..] == [0x31, 0x32, 0x33, 0x34];
    FirstNonDigitAll(b[1..], 10);
    FirstNonDigitAll([0x31, 0x32, 0x37], 10);
    FirstNonDigitAt([0x31, 0x32, 0x62, 0x34], 10, 2);
  }

  /** The conversions the source's tests expect in radixes 16 and 2. */
  lemma OtherRadixExamples()
    ensures ParseNumber([0x31, 0x32, 0x61, 0x62], 16) == (0x12ab, 0)
    ensures ParseNumber([0x31, 0x30, 0x31, 0x30], 2) == (10, 0)
  {
    ValueOf4(0x31, 0x32, 0x61, 0x62, 16);
    ValueOf4(0x31, 0x30, 0x31, 0x30, 2);
    FirstNonDigitAll([0x31, 0x32, 0x61, 0x62], 16);
    FirstNonDigitAll([0x31, 0x30, 0x31, 0x30], 2);
  }

  lemma ValueOf3(a: Byte, b: Byte, c: Byte, radix: int)
    ensures Value([a, b, c], radix) == (DigitValue(a) * radix + DigitValue(b)) * radix + DigitValue(c)
  {
    ValueSnoc([], a, radix);
    assert [a] + [b] == [a, b];
    ValueSnoc([a], b, radix);
    assert [a, b] + [c] == [a, b, c];
    ValueSnoc([a, b], c, radix);
  }

  lemma ValueOf4(a: Byte, b: Byte, c: Byte, d: Byte, radix: int)
    ensures Value([a, b, c, d], radix)
      == ((DigitValue(a) * radix + DigitValue(b)) * radix + DigitValue(c)) * radix + DigitValue(d)
  {
    assert [a, b, c, d][..3] == [a, b, c];
    ValueOf3(a, b, c, radix);
  }
}

=== FILE: outer.dfy ===
/** The decision the outer interpreter `interpret` takes for one token.

    `interpret` reads a token with `word` and looks it up with `find`. A
    found word is run when it is IMMEDIATE or the system is interpreting,
    and its code field address is appended otherwise. A token that is not
    found is converted with `number`: the value is pushed when interpreting
    and appended after the code field of `lit` when compiling. A token that
    is neither gets a '?' on the output; the value `number` returned for it
    (always 0) stays on the parameter stack, because the error path drops
    only the interpreter's return-stack temporaries.

    The test on STATE is `state @ r> 0= and 0=` with TRUE = 1: a bitwise
    and with 1, so only bit 0 of STATE decides.
 */
module Outer {
  import opened Layout
  import opened Memory
  import opened Dictionary
  import opened Results
  import opened Faults
  import Lookup
  import Numbers
  import Writer

  /** The byte `interpret` emits for a token it cannot use: '?'. */
  const QUESTION: Byte := 63

  datatype Action =
    | Perform(xt: int)          // run the word whose code field is at xt
    | Compile(cells: seq<int>)  // append these cells at HERE
    | Literal(n: int)           // push n
    | Unknown(n: int)           // emit '?' and leave n on the stack

  /** Bit 0 of STATE is clear. */
  predicate Interpreting(m: Mem)
    requires HasRegisters(m)
  {
    Reg(m, STATE) % 2 == 0
  }

  /** The query (len, a) of a token stored at a is inside memory. */
  lemma QueryOfToken(m: Mem, a: int, len: int)
    requires RangeIn(m, a, len)
    ensures Lookup.QueryIn(m, len, a)
  {
  }

  /** What `interpret` does with the token of len bytes at a; lit is the
      code field address of `lit` compiled into the interpreter's body. */
  function Interpretation(m: Mem, a: int, len: int, lit: int): (r: Result<Action, Fault>)
    requires HasRegisters(m) && RangeIn(m, a, len)
    ensures r.Ok? ==> DictInv(m) && Lookup.CompareRoom(m, Here(m))
    ensures r.Ok? && r.value.Literal? ==> Interpreting(m)
    ensures r.Ok? && r.value.Compile? ==> !Interpreting(m) && 1 <= |r.value.cells| <= 2
    ensures r.Ok? && r.value.Unknown? ==> r.value.n == 0
  {
    if !(DictInv(m) && Lookup.CompareRoom(m, Here(m))) then Err(Corrupt)
    else
      QueryOfToken(m, a, len);
      var w := Lookup.Find(m, len, a);
      if w != 0 then
        if IsImmediate(LenFlags(m, w)) || Interpreting(m) then Ok(Perform(Cfa(m, w)))
        else Ok(Compile([Cfa(m, w)]))
      else
        var radix := Reg(m, BASE);
        if !Numbers.ValidRadix(radix) then Err(BadRadix)
        else
          var (n, unconverted) := Numbers.ParseNumber(m[a .. a + len], radix);
          if !(-I32_MAX <= n <= I32_MAX) then Err(Overflow)
          else if unconverted != 0 then Ok(Unknown(n))
          else if Interpreting(m) then Ok(Literal(n))
          else Ok(Compile([lit, n]))
  }

  /** `,` applied to each cell in turn. */
  function CommaAll(m: Mem, cells: seq<int>): (m': Mem)
    requires Writer.CanAppend(m, CELL * |cells|)
    ensures Writer.Appended(m, m', Here(m), Here(m) + CELL * |cells|)
    ensures Here(m') == Here(m) + CELL * |cells|
    decreases |cells|
  {
    if cells == [] then
      assert Frame(m, m, {HERE}, Here(m), Here(m));
      m
    else
      var h := Here(m);
      var m1 := Writer.Comma(m, cells[0]);
      var m' := CommaAll(m1, cells[1..]);
      Writer.AppendedCompose(m, m1, m', h, h + CELL, h + CELL, h + CELL * |cells|);
      m'
  }

  /** Cell i of the list lands i cells above the old HERE. */
  lemma {:induction false} CommaAllStores(m: Mem, cells: seq<int>)
    requires Writer.CanAppend(m, CELL * |cells|)
    ensures forall i :: 0 <= i < |cells| ==> ReadI32(CommaAll(m, cells), Here(m) + CELL * i) == Wrap32(cells[i])
    decreases |cells|
  {
    if cells != [] {
      var m1 := Writer.Comma(m, cells[0]);
      var m' := CommaAll(m1, cells[1..]);
      assert CommaAll(m, cells) == m';
      CommaAllStores(m1, cells[1..]);
      CommaAllCells(m, m1, m', cells);
    }
  }

  lemma CommaAllCells(m: Mem, m1: Mem, m': Mem, cells: seq<int>)
    requires Writer.CanAppend(m, CELL * |cells|) && |cells| > 0
    requires Writer.Appended(m, m1, Here(m), Here(m) + CELL)
    requires ReadI32(m1, Here(m)) == Wrap32(cells[0]) && Here(m1) == Here(m) + CELL
    requires Writer.Appended(m1, m', Here(m1), Here(m1) + CELL * |cells[1..]|)
    requires forall i :: 0 <= i < |cells[1..]| ==> ReadI32(m', Here(m1) + CELL * i) == Wrap32(cells[1..][i])
    ensures forall i :: 0 <= i < |cells| ==> ReadI32(m', Here(m) + CELL * i) == Wrap32(cells[i])
  {
    var h := Here(m);
    FrameReadI32(m1, m', {HERE}, h + CELL, h + CELL * |cells|, h);
    forall i | 1 <= i < |cells|
      ensures ReadI32(m', h + CELL * i) == Wrap32(cells[i])
    {
      assert h + CELL * i == Here(m1) + CELL * (i - 1);
      assert cells[1..][i - 1] == cells[i];
    }
  }

  /** Appending one cell is `,`. */
  lemma CommaAllOne(m: Mem, x: int)
    requires Writer.CanAppend(m, CELL)
    ensures CommaAll(m, [x]) == Writer.Comma(m, x)
  {
    assert [x][1..] == [];
  }

  /** Appending two cells. */
  lemma CommaTwo(m: Mem, a: int, b: int)
    requires Writer.CanAppend(m, 2 * CELL)
    ensures var m2 := CommaAll(m, [a, b]);
      var h := Here(m);
      && Here(m2) == h + 2 * CELL && Writer.Appended(m, m2, h, h + 2 * CELL)
      && ReadI32(m2, h) == Wrap32(a) && ReadI32(m2, h + CELL) == Wrap32(b)
  {
    var m2 := CommaAll(m, [a, b]);
    CommaAllStores(m, [a, b]);
    assert ReadI32(m2, Here(m) + CELL * 0) == Wrap32([a, b][0]);
    assert ReadI32(m2, Here(m) + CELL * 1) == Wrap32([a, b][1]);
  }

  /** The newest entry whose name matches the token is the one `interpret`
      acts on: it is run when IMMEDIATE or while interpreting, and its code
      field address is appended while compiling. */
  lemma InterpretsWord(m: Mem, a: int, len: int, lit: int, w: int)
    requires HasRegisters(m) && RangeIn(m, a, len)
    requires DictInv(m) && Lookup.CompareRoom(m, Here(m))
    requires w in Entries(m) && Lookup.QueryIn(m, len, a) && Lookup.Matches(m, w, len, a)
    requires forall e :: e in Entries(m) && e > w ==> !Lookup.Matches(m, e, len, a)
    ensures Interpretation(m, a, len, lit)
      == Ok(if IsImmediate(LenFlags(m, w)) || Interpreting(m) then Perform(Cfa(m, w)) else Compile([Cfa(m, w)]))
  {
    var r := Lookup.Find(m, len, a);
    assert r != 0;
    assert r == w;
  }

  /** A token that no entry names and that is the text of a number in the
      current BASE is pushed while interpreting, and compiled after `lit`
      while compiling. */
  lemma InterpretsNumeral(m: Mem, a: int, lit: int, v: int)
    requires HasRegisters(m) && DictInv(m) && Lookup.CompareRoom(m, Here(m))
    requires Numbers.ValidRadix(Reg(m, BASE)) && -I32_MAX <= v <= I32_MAX
    requires var s := Numbers.Format(v, Reg(m, BASE));
      RangeIn(m, a, |s|) && m[a .. a + |s|] == s
    requires var len := |Numbers.Format(v, Reg(m, BASE))|;
      Lookup.QueryIn(m, len, a) && forall e :: e in Entries(m) ==> !Lookup.Matches(m, e, len, a)
    ensures var len := |Numbers.Format(v, Reg(m, BASE))|;
      Interpretation(m, a, len, lit) == Ok(if Interpreting(m) then Literal(v) else Compile([lit, v]))
  {
    var s := Numbers.Format(v, Reg(m, BASE));
    var r := Lookup.Find(m, |s|, a);
    assert r == 0;
    Numbers.ParseFormat(v, Reg(m, BASE));
  }

  /** A token that no entry names is rejected with '?' exactly when some
      byte after its optional minus sign is not a digit of BASE, and then 0
      is what stays on the stack. */
  lemma InterpretsUnknown(m: Mem, a: int, len: int, lit: int)
    requires HasRegisters(m) && RangeIn(m, a, len) && DictInv(m) && Lookup.CompareRoom(m, Here(m))
    requires Numbers.ValidRadix(Reg(m, BASE)) && Lookup.QueryIn(m, len, a)
    requires forall e :: e in Entries(m) ==> !Lookup.Matches(m, e, len, a)
    ensures var s := m[a .. a + len];
      var start := if |s| > 0 && s[0] == Numbers.MINUS then 1 else 0;
      (Interpretation(m, a, len, lit) == Ok(Unknown(0)))
        <==> (start <= |s| && !Numbers.AllDigits(s[start..], Reg(m, BASE)))
  {
    assert Lookup.Find(m, len, a) == 0;
    Numbers.ParseNumberFailure(m[a .. a + len], Reg(m, BASE));
    UnknownWhenUnconverted(m, a, len, lit);
  }

  /** For a token no entry names, the answer is Unknown(0) exactly when
      `number` leaves some bytes unconverted. */
  lemma UnknownWhenUnconverted(m: Mem, a: int, len: int, lit: int)
    requires HasRegisters(m) && RangeIn(m, a, len) && DictInv(m) && Lookup.CompareRoom(m, Here(m))
    requires Numbers.ValidRadix(Reg(m, BASE)) && Lookup.QueryIn(m, len, a) && Lookup.Find(m, len, a) == 0
    ensures (Interpretation(m, a, len, lit) == Ok(Unknown(0)))
      <==> (Numbers.ParseNumber(m[a .. a + len], Reg(m, BASE)).1 != 0)
  {
  }
}

=== FILE: results.dfy ===
/** Optional values and fallible results. */
module Results {

  datatype Option<+T> = None | Some(value: T)

  /** A computation that either produces a value or fails with an error
      describing the cause. */
  datatype Result<+T, +E> = Ok(value: T) | Err(error: E)
}

=== FILE: threads.dfy ===
/** Running a colon definition from the outside, as `run_word` does, and the
    threads that exercise the control-flow primitives.

    `run_word` takes a word's entry, stores the code field address `cfa`
    computes for it in the START_ADR cell, points IC at that cell and
    starts at NEXT. The words a thread calls are
    given by their code field addresses; `Calls` says which primitive such
    an address leads to. The return stack cell DOCOL writes lies above every
    cell the thread reads.
 */
module Threads {
  import opened Layout
  import opened Memory
  import opened Machine
  import Dictionary
  import Effects

  /** The code field at xt leads to primitive p. */
  predicate Calls(code: CodeTable, m: Mem, xt: int, p: Prim) {
    && DICT <= xt && CellIn(m, xt)
    && ReadI32(m, xt) != DOCOL && ReadI32(m, xt) in code
    && code[ReadI32(m, xt)] == p
  }

  /** The colon definition with code field x holds the cells `body`. */
  predicate Thread(m: Mem, x: int, body: seq<int>) {
    && DICT <= x && CellIn(m, x) && ReadI32(m, x) == DOCOL
    && x + CELL + CELL * |body| <= |m|
    && forall i :: 0 <= i < |body| ==> ReadI32(m, x + CELL + CELL * i) == body[i]
  }

  /** The machine as `run_word` prepares it once it has the word's code
      field address x: START_ADR holds x and IC points at START_ADR. */
  function Start(vm: Vm, x: int): (v: Vm)
    requires Valid(vm)
    ensures Valid(v) && v.ic == START_ADR && Reg(v.mem, START_ADR) == Wrap32(x)
    ensures v == vm.(mem := v.mem, ic := v.ic)
    ensures Frame(vm.mem, v.mem, {START_ADR}, 0, 0)
  {
    vm.(mem := SetReg(vm.mem, START_ADR, x), ic := START_ADR)
  }

  /** `run_word` from the code field address x on, stopped after at most
      fuel steps. */
  function RunCfa(code: CodeTable, vm: Vm, x: int, fuel: nat): Outcome
    requires Valid(vm)
  {
    Run(code, Start(vm, x), fuel)
  }

  /** `run_word` on the entry at w: it computes the entry's code field
      address with `cfa` and runs from there. */
  function RunWord(code: CodeTable, vm: Vm, w: int, fuel: nat): Outcome
    requires Valid(vm) && ByteIn(vm.mem, w + 4)
  {
    RunCfa(code, vm, Dictionary.Cfa(vm.mem, w), fuel)
  }

  /** The memory once NEXT has entered the word: START_ADR holds x and the
      return stack cell holds the address after START_ADR. */
  function Entered(vm: Vm, x: int): (v: Vm)
    requires Valid(vm) && Writable(vm.mem, vm.rsp, CELL)
    ensures Valid(v)
  {
    var m0 := SetReg(vm.mem, START_ADR, x);
    vm.(mem := WriteI32(m0, vm.rsp, START_ADR + CELL), rsp := vm.rsp - CELL, ic := x + CELL, a0 := x)
  }

  /** The first step of `run_word` enters the colon definition at x. */
  lemma EnterWord(code: CodeTable, vm: Vm, x: int)
    requires Valid(vm) && Writable(vm.mem, vm.rsp, CELL)
    requires DICT <= x && CellIn(vm.mem, x) && ReadI32(vm.mem, x) == DOCOL
    ensures Step(code, Start(vm, x)) == Running(Entered(vm, x))
  {
    var v0 := Start(vm, x);
    FrameReadI32(vm.mem, v0.mem, {START_ADR}, 0, 0, x);
    Effects.NextEntersColon(code, v0);
  }

  /** Entering the word is the first of the steps `run_word` takes. */
  lemma EnterRuns(code: CodeTable, vm: Vm, x: int, n: nat)
    requires Valid(vm) && Writable(vm.mem, vm.rsp, CELL)
    requires DICT <= x && CellIn(vm.mem, x) && ReadI32(vm.mem, x) == DOCOL
    ensures RunCfa(code, vm, x, n + 1) == Run(code, Entered(vm, x), n)
  {
    EnterWord(code, vm, x);
    RunOn(code, Start(vm, x), Entered(vm, x), n);
  }

  /** `run_word` on the entry w is the run from its code field x. */
  lemma RunWordAt(code: CodeTable, vm: Vm, w: int, x: int, n: nat)
    requires Valid(vm) && ByteIn(vm.mem, w + 4) && Dictionary.Cfa(vm.mem, w) == x
    ensures RunWord(code, vm, w, n) == RunCfa(code, vm, x, n)
  {
  }

  /** `run_word` on an entry whose code field holds DOCOL enters the
      colon definition at the code field `cfa` computes for it. */
  lemma RunWordEnters(code: CodeTable, vm: Vm, w: int, n: nat)
    requires Valid(vm) && Writable(vm.mem, vm.rsp, CELL) && ByteIn(vm.mem, w + 4)
    requires DICT <= Dictionary.Cfa(vm.mem, w) && CellIn(vm.mem, Dictionary.Cfa(vm.mem, w))
    requires ReadI32(vm.mem, Dictionary.Cfa(vm.mem, w)) == DOCOL
    ensures RunWord(code, vm, w, n + 1) == Run(code, Entered(vm, Dictionary.Cfa(vm.mem, w)), n)
    ensures Entered(vm, Dictionary.Cfa(vm.mem, w)).ic == Dictionary.Cfa(vm.mem, w) + CELL
  {
    EnterRuns(code, vm, Dictionary.Cfa(vm.mem, w), n);
  }

  /** The machine `run_word` reaches after entering the word: IC at the
      first cell of the body, the parameter stack untouched, and every cell
      of the dictionary below the return stack cell as before. */
  lemma EnterThread(vm: Vm, x: int) returns (v: Vm)
    requires Valid(vm) && Writable(vm.mem, vm.rsp, CELL)
    ensures v == Entered(vm, x)
    ensures Valid(v) && v.ds == vm.ds && v.ic == x + CELL && |v.mem| == |vm.mem|
    ensures forall a :: DICT <= a && a + CELL <= vm.rsp ==> ReadI32(v.mem, a) == ReadI32(vm.mem, a)
  {
    v := Entered(vm, x);
    forall a | DICT <= a && a + CELL <= vm.rsp
      ensures ReadI32(v.mem, a) == ReadI32(vm.mem, a)
    {
      KeptCell(vm, x, a);
    }
  }

  /** A cell below the return stack cell reads the same after entering. */
  lemma KeptCell(vm: Vm, x: int, a: int)
    requires Valid(vm) && Writable(vm.mem, vm.rsp, CELL)
    requires DICT <= a && CellIn(vm.mem, a) && a + CELL <= vm.rsp
    ensures ReadI32(Entered(vm, x).mem, a) == ReadI32(vm.mem, a)
  {
    var m0 := SetReg(vm.mem, START_ADR, x);
    FrameReadI32(vm.mem, m0, {START_ADR}, 0, 0, a);
    FrameReadI32(m0, WriteI32(m0, vm.rsp, START_ADR + CELL), {}, vm.rsp, vm.rsp + CELL, a);
  }

  /** A cell write leaves every dictionary cell below it as it was. */
  lemma KeptBelow(m: Mem, r: int, v: int)
    requires Writable(m, r, CELL)
    ensures forall c :: DICT <= c && c + CELL <= r ==> ReadI32(WriteI32(m, r, v), c) == ReadI32(m, c)
  {
    forall c | DICT <= c && c + CELL <= r
      ensures ReadI32(WriteI32(m, r, v), c) == ReadI32(m, c)
    {
      FrameReadI32(m, WriteI32(m, r, v), {}, r, r + CELL, c);
    }
  }

  /** A code field below the return stack cell leads to the same primitive
      after entering. */
  lemma KeptCalls(code: CodeTable, vm: Vm, x: int, xt: int, p: Prim)
    requires Valid(vm) && Writable(vm.mem, vm.rsp, CELL)
    requires Calls(code, vm.mem, xt, p) && xt + CELL <= vm.rsp
    ensures Calls(code, Entered(vm, x).mem, xt, p)
  {
    KeptCell(vm, x, xt);
  }

  /** NEXT on a token whose code field leads to a primitive runs it with IC
      past the token and the token in A0. */
  lemma NextPrim(code: CodeTable, vm: Vm, p: Prim)
    requires Valid(vm) && CellIn(vm.mem, vm.ic) && IsI32(vm.ic + CELL)
    requires Calls(code, vm.mem, ReadI32(vm.mem, vm.ic), p)
    ensures Step(code, vm) == Exec(code, p, vm.(ic := vm.ic + CELL, a0 := ReadI32(vm.mem, vm.ic)))
  {
    var xt := ReadI32(vm.mem, vm.ic);
    var v := vm.(ic := vm.ic + CELL, a0 := xt);
    assert Step(code, vm) == Dispatch(code, v, ReadI32(vm.mem, xt));
  }

  /** A running step followed by n more is n + 1 steps. */
  lemma RunOn(code: CodeTable, vm: Vm, v: Vm, n: nat)
    requires Valid(vm) && Step(code, vm) == Running(v)
    ensures Run(code, vm, n + 1) == Run(code, v, n)
  {
  }

  /** A step that halts ends the run. */
  lemma RunHalts(code: CodeTable, vm: Vm, n: nat)
    requires Valid(vm) && Step(code, vm).Halted?
    ensures Run(code, vm, n + 1) == Step(code, vm)
  {
  }

  /** The machine once NEXT has fetched the token at IC. */
  function Fetched(vm: Vm): (v: Vm)
    requires Valid(vm) && CellIn(vm.mem, vm.ic)
    ensures Valid(v)
  {
    vm.(ic := vm.ic + CELL, a0 := ReadI32(vm.mem, vm.ic))
  }

  /** A NEXT into a primitive that keeps running, then n more steps. */
  lemma PrimRuns(code: CodeTable, vm: Vm, p: Prim, v: Vm, n: nat)
    requires Valid(vm) && CellIn(vm.mem, vm.ic) && IsI32(vm.ic + CELL)
    requires Calls(code, vm.mem, ReadI32(vm.mem, vm.ic), p)
    requires Exec(code, p, Fetched(vm)) == Running(v)
    ensures Run(code, vm, n + 1) == Run(code, v, n)
  {
    NextPrim(code, vm, p);
    RunOn(code, vm, v, n);
  }

  /** `bye` halts the run with IC past its token. */
  lemma ByeHalts(code: CodeTable, vm: Vm, n: nat)
    requires Valid(vm) && CellIn(vm.mem, vm.ic) && IsI32(vm.ic + CELL)
    requires Calls(code, vm.mem, ReadI32(vm.mem, vm.ic), Bye)
    ensures Run(code, vm, n + 1) == Halted(Fetched(vm))
  {
    NextPrim(code, vm, Bye);
    RunHalts(code, vm, n);
  }

  /** `branch` continues at the token its offset cell points to. */
  lemma BranchRuns(code: CodeTable, vm: Vm, n: nat)
    requires Valid(vm) && CellIn(vm.mem, vm.ic) && CellIn(vm.mem, vm.ic + CELL)
    requires Calls(code, vm.mem, ReadI32(vm.mem, vm.ic), Branch)
    requires IsI32(vm.ic + CELL + ReadI32(vm.mem, vm.ic + CELL))
    ensures Run(code, vm, n + 1) == Run(code, Fetched(vm).(ic := vm.ic + CELL + ReadI32(vm.mem, vm.ic + CELL)), n)
  {
    Effects.BranchJumps(code, Fetched(vm));
    PrimRuns(code, vm, Branch, Fetched(vm).(ic := vm.ic + CELL + ReadI32(vm.mem, vm.ic + CELL)), n);
  }

  /** `+` replaces the two top numbers with their wrapped sum. */
  lemma AddRuns(code: CodeTable, vm: Vm, a: int, b: int, n: nat)
    requires Valid(vm) && CellIn(vm.mem, vm.ic) && IsI32(vm.ic + CELL)
    requires Calls(code, vm.mem, ReadI32(vm.mem, vm.ic), Add)
    ensures Run(code, Push(Push(vm, a), b), n + 1) == Run(code, Push(Fetched(vm), Wrap32(a + b)), n)
  {
    var u := Fetched(vm);
    Effects.ArithmeticEffect(code, u, a, b);
    assert Fetched(Push(Push(vm, a), b)) == Push(Push(u, a), b);
    PrimRuns(code, Push(Push(vm, a), b), Add, Push(u, Wrap32(a + b)), n);
  }

  /** `0branch` pops a flag and branches on 0, otherwise skips its offset. */
  lemma ZeroBranchRuns(code: CodeTable, vm: Vm, f: int, n: nat)
    requires Valid(vm) && CellIn(vm.mem, vm.ic) && CellIn(vm.mem, vm.ic + CELL)
    requires Calls(code, vm.mem, ReadI32(vm.mem, vm.ic), ZeroBranch)
    requires IsI32(vm.ic + CELL + ReadI32(vm.mem, vm.ic + CELL)) && IsI32(vm.ic + 2 * CELL)
    ensures f == 0 ==> Run(code, Push(vm, f), n + 1) == Run(code, Fetched(vm).(ic := vm.ic + CELL + ReadI32(vm.mem, vm.ic + CELL)), n)
    ensures f != 0 ==> Run(code, Push(vm, f), n + 1) == Run(code, Fetched(vm).(ic := vm.ic + 2 * CELL), n)
  {
    var u := Fetched(vm);
    Effects.ZeroBranchChooses(code, u, f);
    assert Fetched(Push(vm, f)) == Push(u, f);
    if f == 0 {
      Effects.BranchJumps(code, u);
      PrimRuns(code, Push(vm, f), ZeroBranch, u.(ic := vm.ic + CELL + ReadI32(vm.mem, vm.ic + CELL)), n);
    } else {
      PrimRuns(code, Push(vm, f), ZeroBranch, u.(ic := vm.ic + 2 * CELL), n);
    }
  }

  /** `lit` pushes the cell after its token and skips it. */
  lemma LitRuns(code: CodeTable, vm: Vm, n: nat)
    requires Valid(vm) && CellIn(vm.mem, vm.ic) && CellIn(vm.mem, vm.ic + CELL) && IsI32(vm.ic + 2 * CELL)
    requires Calls(code, vm.mem, ReadI32(vm.mem, vm.ic), Lit)
    ensures Run(code, vm, n + 1) == Run(code, Push(Fetched(vm), ReadI32(vm.mem, vm.ic + CELL)).(ic := vm.ic + 2 * CELL), n)
  {
    Effects.LitPushesInline(code, Fetched(vm));
    PrimRuns(code, vm, Lit, Push(Fetched(vm), ReadI32(vm.mem, vm.ic + CELL)).(ic := vm.ic + 2 * CELL), n);
  }

  /** `dup` copies the top of the stack. */
  lemma DupRuns(code: CodeTable, vm: Vm, a: int, n: nat)
    requires Valid(vm) && CellIn(vm.mem, vm.ic) && IsI32(vm.ic + CELL)
    requires Calls(code, vm.mem, ReadI32(vm.mem, vm.ic), Dup)
    ensures Run(code, Push(vm, a), n + 1) == Run(code, Push(Push(Fetched(vm), a), a), n)
  {
    var u := Fetched(vm);
    Effects.StackWordsEffect(code, u, a);
    assert Fetched(Push(vm, a)) == Push(u, a);
    PrimRuns(code, Push(vm, a), Dup, Push(Push(u, a), a), n);
  }

  /** `*` replaces the two top numbers with their wrapped product. */
  lemma MulRuns(code: CodeTable, vm: Vm, a: int, b: int, n: nat)
    requires Valid(vm) && CellIn(vm.mem, vm.ic) && IsI32(vm.ic + CELL)
    requires Calls(code, vm.mem, ReadI32(vm.mem, vm.ic), Mul)
    ensures Run(code, Push(Push(vm, a), b), n + 1) == Run(code, Push(Fetched(vm), Wrap32(a * b)), n)
  {
    var u := Fetched(vm);
    Effects.ArithmeticEffect(code, u, a, b);
    assert Fetched(Push(Push(vm, a), b)) == Push(Push(u, a), b);
    PrimRuns(code, Push(Push(vm, a), b), Mul, Push(u, Wrap32(a * b)), n);
  }

  /** `exit` resumes at the address saved on the return stack. */
  lemma ExitRuns(code: CodeTable, vm: Vm, n: nat)
    requires Valid(vm) && CellIn(vm.mem, vm.ic) && IsI32(vm.ic + CELL)
    requires Calls(code, vm.mem, ReadI32(vm.mem, vm.ic), Exit)
    requires CellIn(vm.mem, vm.rsp + CELL) && IsI32(vm.rsp + CELL)
    ensures Run(code, vm, n + 1) == Run(code, Fetched(vm).(rsp := vm.rsp + CELL, ic := ReadI32(vm.mem, vm.rsp + CELL)), n)
  {
    var v := Fetched(vm).(rsp := vm.rsp + CELL, ic := ReadI32(vm.mem, vm.rsp + CELL));
    assert Exec(code, Exit, Fetched(vm)) == Running(v);
    PrimRuns(code, vm, Exit, v, n);
  }

  /** The machine once NEXT has entered the colon definition whose token is
      at IC: the return stack holds the address of the next token. */
  function Called(vm: Vm): (v: Vm)
    requires Valid(vm) && CellIn(vm.mem, vm.ic) && Writable(vm.mem, vm.rsp, CELL)
    ensures Valid(v)
  {
    var xt := ReadI32(vm.mem, vm.ic);
    vm.(mem := WriteI32(vm.mem, vm.rsp, vm.ic + CELL), rsp := vm.rsp - CELL, ic := xt + CELL, a0 := xt)
  }

  /** NEXT on a token of a colon definition enters it. */
  lemma ColonRuns(code: CodeTable, vm: Vm, n: nat)
    requires Valid(vm) && CellIn(vm.mem, vm.ic) && IsI32(vm.ic + CELL) && Writable(vm.mem, vm.rsp, CELL)
    requires CellIn(vm.mem, ReadI32(vm.mem, vm.ic)) && ReadI32(vm.mem, ReadI32(vm.mem, vm.ic)) == DOCOL
    ensures Run(code, vm, n + 1) == Run(code, Called(vm), n)
  {
    Effects.NextEntersColon(code, vm);
    RunOn(code, vm, Called(vm), n);
  }

  /** The thread [branch 12 lit 4711 + bye] run on 42 58 jumps over the
      literal and halts with 100 in place of the two numbers. */
  lemma BranchSkipsLiteral(code: CodeTable, vm: Vm, w: int, x: int, br: int, lit: int, add: int, bye: int)
    requires Valid(vm) && Writable(vm.mem, vm.rsp, CELL)
    requires Thread(vm.mem, x, [br, 12, lit, 4711, add, bye]) && x + 7 * CELL <= vm.rsp
    requires Calls(code, vm.mem, br, Branch) && br + CELL <= vm.rsp
    requires Calls(code, vm.mem, add, Add) && add + CELL <= vm.rsp
    requires Calls(code, vm.mem, bye, Bye) && bye + CELL <= vm.rsp
    requires ByteIn(vm.mem, w + 4) && Dictionary.Cfa(vm.mem, w) == x
    ensures RunWord(code, Push(Push(vm, 42), 58), w, 4).Halted?
    ensures RunWord(code, Push(Push(vm, 42), 58), w, 4).vm.ds == vm.ds + [100]
  {
    var v := Push(Push(vm, 42), 58);
    var v1 := BranchEntered(code, vm, x, br, lit, add, bye);
    BranchBody(code, v1, vm.ds, br, add, bye);
    EnterRuns(code, v, x, 3);
    RunWordAt(code, Push(Push(vm, 42), 58), w, x, 4);
  }

  /** Entering the thread above on 42 58. */
  lemma BranchEntered(code: CodeTable, vm: Vm, x: int, br: int, lit: int, add: int, bye: int) returns (v1: Vm)
    requires Valid(vm) && Writable(vm.mem, vm.rsp, CELL)
    requires Thread(vm.mem, x, [br, 12, lit, 4711, add, bye]) && x + 7 * CELL <= vm.rsp
    requires Calls(code, vm.mem, br, Branch) && br + CELL <= vm.rsp
    requires Calls(code, vm.mem, add, Add) && add + CELL <= vm.rsp
    requires Calls(code, vm.mem, bye, Bye) && bye + CELL <= vm.rsp
    ensures v1 == Entered(Push(Push(vm, 42), 58), x)
    ensures Valid(v1) && v1.ds == vm.ds + [42, 58] && DICT <= v1.ic && v1.ic + 6 * CELL <= |v1.mem|
    ensures ReadI32(v1.mem, v1.ic) == br && ReadI32(v1.mem, v1.ic + 4) == 12
    ensures ReadI32(v1.mem, v1.ic + 16) == add && ReadI32(v1.mem, v1.ic + 20) == bye
    ensures Calls(code, v1.mem, br, Branch) && Calls(code, v1.mem, add, Add) && Calls(code, v1.mem, bye, Bye)
  {
    var body := [br, 12, lit, 4711, add, bye];
    var v := Push(Push(vm, 42), 58);
    assert ReadI32(vm.mem, x + CELL + CELL * 0) == body[0];
    assert ReadI32(vm.mem, x + CELL + CELL * 1) == body[1];
    assert ReadI32(vm.mem, x + CELL + CELL * 4) == body[4];
    assert ReadI32(vm.mem, x + CELL + CELL * 5) == body[5];
    v1 := EnterThread(v, x);
    assert v1.ic == x + CELL + CELL * 0 && v1.ic + 4 == x + CELL + CELL * 1;
    assert v1.ic + 16 == x + CELL + CELL * 4 && v1.ic + 20 == x + CELL + CELL * 5;
  }

  /** The body of the thread above, once entered. */
  lemma BranchBody(code: CodeTable, vm: Vm, s: seq<int>, br: int, add: int, bye: int)
    requires Valid(vm) && vm.ds == s + [42, 58] && DICT <= vm.ic && vm.ic + 6 * CELL <= |vm.mem|
    requires ReadI32(vm.mem, vm.ic) == br && ReadI32(vm.mem, vm.ic + 4) == 12
    requires ReadI32(vm.mem, vm.ic + 16) == add && ReadI32(vm.mem, vm.ic + 20) == bye
    requires Calls(code, vm.mem, br, Branch) && Calls(code, vm.mem, add, Add) && Calls(code, vm.mem, bye, Bye)
    ensures Run(code, vm, 3).Halted? && Run(code, vm, 3).vm.ds == s + [100]
  {
    var w := BranchFacts(code, vm, s, br, add, bye);
    BranchRuns(code, vm, 2);
    AddRuns(code, w, 42, 58, 1);
    ByeHalts(code, Push(Fetched(w), 100), 0);
  }

  lemma BranchFacts(code: CodeTable, vm: Vm, s: seq<int>, br: int, add: int, bye: int) returns (w: Vm)
    requires Valid(vm) && vm.ds == s + [42, 58] && DICT <= vm.ic && vm.ic + 6 * CELL <= |vm.mem|
    requires ReadI32(vm.mem, vm.ic) == br && ReadI32(vm.mem, vm.ic + 4) == 12
    requires ReadI32(vm.mem, vm.ic + 16) == add && ReadI32(vm.mem, vm.ic + 20) == bye
    requires Calls(code, vm.mem, br, Branch) && Calls(code, vm.mem, add, Add) && Calls(code, vm.mem, bye, Bye)
    ensures CellIn(vm.mem, vm.ic) && CellIn(vm.mem, vm.ic + CELL)
    ensures Calls(code, vm.mem, ReadI32(vm.mem, vm.ic), Branch) && IsI32(vm.ic + CELL + ReadI32(vm.mem, vm.ic + CELL))
    ensures Valid(w) && Fetched(vm).(ic := vm.ic + CELL + ReadI32(vm.mem, vm.ic + CELL)) == Push(Push(w, 42), 58)
    ensures CellIn(w.mem, w.ic) && IsI32(w.ic + CELL) && Calls(code, w.mem, ReadI32(w.mem, w.ic), Add)
    ensures var v := Push(Fetched(w), Wrap32(42 + 58));
      Valid(v) && CellIn(v.mem, v.ic) && IsI32(v.ic + CELL) && Calls(code, v.mem, ReadI32(v.mem, v.ic), Bye)
      && Fetched(v).ds == s + [100]
  {
    w := vm.(ic := vm.ic + 16, a0 := br, ds := s);
  }

  /** The thread [0branch 12 lit 256 lit 512 bye] on flag 0 skips the
      first literal and halts with 512 in place of the flag. */
  lemma ZeroBranchTaken(code: CodeTable, vm: Vm, w: int, x: int, zb: int, lit: int, bye: int)
    requires Valid(vm) && Writable(vm.mem, vm.rsp, CELL)
    requires Thread(vm.mem, x, [zb, 12, lit, 256, lit, 512, bye]) && x + 8 * CELL <= vm.rsp
    requires Calls(code, vm.mem, zb, ZeroBranch) && zb + CELL <= vm.rsp
    requires Calls(code, vm.mem, lit, Lit) && lit + CELL <= vm.rsp
    requires Calls(code, vm.mem, bye, Bye) && bye + CELL <= vm.rsp
    requires ByteIn(vm.mem, w + 4) && Dictionary.Cfa(vm.mem, w) == x
    ensures RunWord(code, Push(vm, 0), w, 4).Halted?
    ensures RunWord(code, Push(vm, 0), w, 4).vm.ds == vm.ds + [512]
  {
    var v1 := ZeroBranchEntered(code, vm, x, 0, zb, lit, bye);
    ZeroBranchBody(code, v1, vm.ds, 0, zb, lit, bye);
    EnterRuns(code, Push(vm, 0), x, 3);
    RunWordAt(code, Push(vm, 0), w, x, 4);
  }

  /** The same thread on a flag other than 0 falls through and pushes both
      literals. */
  lemma ZeroBranchNotTaken(code: CodeTable, vm: Vm, w: int, x: int, f: int, zb: int, lit: int, bye: int)
    requires Valid(vm) && Writable(vm.mem, vm.rsp, CELL) && f != 0
    requires Thread(vm.mem, x, [zb, 12, lit, 256, lit, 512, bye]) && x + 8 * CELL <= vm.rsp
    requires Calls(code, vm.mem, zb, ZeroBranch) && zb + CELL <= vm.rsp
    requires Calls(code, vm.mem, lit, Lit) && lit + CELL <= vm.rsp
    requires Calls(code, vm.mem, bye, Bye) && bye + CELL <= vm.rsp
    requires ByteIn(vm.mem, w + 4) && Dictionary.Cfa(vm.mem, w) == x
    ensures RunWord(code, Push(vm, f), w, 5).Halted?
    ensures RunWord(code, Push(vm, f), w, 5).vm.ds == vm.ds + [256, 512]
  {
    var v1 := ZeroBranchEntered(code, vm, x, f, zb, lit, bye);
    ZeroBranchBody(code, v1, vm.ds, f, zb, lit, bye);
    EnterRuns(code, Push(vm, f), x, 4);
    RunWordAt(code, Push(vm, f), w, x, 5);
  }

  /** Entering the 0branch thread with flag f on the stack. */
  lemma ZeroBranchEntered(code: CodeTable, vm: Vm, x: int, f: int, zb: int, lit: int, bye: int) returns (v1: Vm)
    requires Valid(vm) && Writable(vm.mem, vm.rsp, CELL)
    requires Thread(vm.mem, x, [zb, 12, lit, 256, lit, 512, bye]) && x + 8 * CELL <= vm.rsp
    requires Calls(code, vm.mem, zb, ZeroBranch) && zb + CELL <= vm.rsp
    requires Calls(code, vm.mem, lit, Lit) && lit + CELL <= vm.rsp
    requires Calls(code, vm.mem, bye, Bye) && bye + CELL <= vm.rsp
    ensures v1 == Entered(Push(vm, f), x)
    ensures Valid(v1) && v1.ds == vm.ds + [f] && DICT <= v1.ic && v1.ic + 7 * CELL <= |v1.mem|
    ensures ReadI32(v1.mem, v1.ic) == zb && ReadI32(v1.mem, v1.ic + 4) == 12
    ensures ReadI32(v1.mem, v1.ic + 8) == lit && ReadI32(v1.mem, v1.ic + 12) == 256
    ensures ReadI32(v1.mem, v1.ic + 16) == lit && ReadI32(v1.mem, v1.ic + 20) == 512
    ensures ReadI32(v1.mem, v1.ic + 24) == bye
    ensures Calls(code, v1.mem, zb, ZeroBranch) && Calls(code, v1.mem, lit, Lit) && Calls(code, v1.mem, bye, Bye)
  {
    var body := [zb, 12, lit, 256, lit, 512, bye];
    assert ReadI32(vm.mem, x + CELL + CELL * 0) == body[0];
    assert ReadI32(vm.mem, x + CELL + CELL * 1) == body[1];
    assert ReadI32(vm.mem, x + CELL + CELL * 2) == body[2];
    assert ReadI32(vm.mem, x + CELL + CELL * 3) == body[3];
    assert ReadI32(vm.mem, x + CELL + CELL * 4) == body[4];
    assert ReadI32(vm.mem, x + CELL + CELL * 5) == body[5];
    assert ReadI32(vm.mem, x + CELL + CELL * 6) == body[6];
    v1 := EnterThread(Push(vm, f), x);
    assert v1.ic == x + CELL + CELL * 0 && v1.ic + 4 == x + CELL + CELL * 1;
    assert v1.ic + 8 == x + CELL + CELL * 2 && v1.ic + 12 == x + CELL + CELL * 3;
    assert v1.ic + 16 == x + CELL + CELL * 4 && v1.ic + 20 == x + CELL + CELL * 5;
    assert v1.ic + 24 == x + CELL + CELL * 6;
  }

  /** The body of the 0branch thread, once entered. */
  lemma ZeroBranchBody(code: CodeTable, vm: Vm, s: seq<int>, f: int, zb: int, lit: int, bye: int)
    requires Valid(vm) && vm.ds == s + [f] && DICT <= vm.ic && vm.ic + 7 * CELL <= |vm.mem|
    requires ReadI32(vm.mem, vm.ic) == zb && ReadI32(vm.mem, vm.ic + 4) == 12
    requires ReadI32(vm.mem, vm.ic + 8) == lit && ReadI32(vm.mem, vm.ic + 12) == 256
    requires ReadI32(vm.mem, vm.ic + 16) == lit && ReadI32(vm.mem, vm.ic + 20) == 512
    requires ReadI32(vm.mem, vm.ic + 24) == bye
    requires Calls(code, vm.mem, zb, ZeroBranch) && Calls(code, vm.mem, lit, Lit) && Calls(code, vm.mem, bye, Bye)
    ensures f == 0 ==> Run(code, vm, 3).Halted? && Run(code, vm, 3).vm.ds == s + [512]
    ensures f != 0 ==> Run(code, vm, 4).Halted? && Run(code, vm, 4).vm.ds == s + [256, 512]
  {
    var w, v2, v3 := ZeroBranchFacts(code, vm, s, f, zb, lit, bye);
    if f == 0 {
      ZeroTaken(code, vm, w, v2, lit, bye);
    } else {
      ZeroNotTaken(code, vm, w, v2, v3, f, lit, bye);
    }
  }

  lemma ZeroTaken(code: CodeTable, vm: Vm, w: Vm, v2: Vm, lit: int, bye: int)
    requires Valid(w) && Push(w, 0) == vm && CellIn(w.mem, w.ic) && CellIn(w.mem, w.ic + CELL)
    requires Calls(code, w.mem, ReadI32(w.mem, w.ic), ZeroBranch)
    requires IsI32(w.ic + CELL + ReadI32(w.mem, w.ic + CELL)) && IsI32(w.ic + 2 * CELL)
    requires v2 == Fetched(w).(ic := w.ic + CELL + ReadI32(w.mem, w.ic + CELL))
    requires DICT <= v2.ic && v2.ic + 3 * CELL <= |v2.mem|
    requires ReadI32(v2.mem, v2.ic) == lit && ReadI32(v2.mem, v2.ic + 4) == 512 && ReadI32(v2.mem, v2.ic + 8) == bye
    requires Calls(code, v2.mem, lit, Lit) && Calls(code, v2.mem, bye, Bye)
    ensures Run(code, vm, 3).Halted? && Run(code, vm, 3).vm.ds == w.ds + [512]
  {
    LitByeTail(code, v2, lit, bye, 512);
    ZeroBranchRuns(code, w, 0, 2);
  }

  lemma ZeroNotTaken(code: CodeTable, vm: Vm, w: Vm, v2: Vm, v3: Vm, f: int, lit: int, bye: int)
    requires f != 0
    requires Valid(w) && Push(w, f) == vm && CellIn(w.mem, w.ic) && CellIn(w.mem, w.ic + CELL)
    requires Calls(code, w.mem, ReadI32(w.mem, w.ic), ZeroBranch)
    requires IsI32(w.ic + CELL + ReadI32(w.mem, w.ic + CELL)) && IsI32(w.ic + 2 * CELL)
    requires v2 == Fetched(w).(ic := w.ic + 2 * CELL)
    requires CellIn(v2.mem, v2.ic) && CellIn(v2.mem, v2.ic + CELL) && IsI32(v2.ic + 2 * CELL)
    requires Calls(code, v2.mem, ReadI32(v2.mem, v2.ic), Lit)
    requires v3 == Push(Fetched(v2), ReadI32(v2.mem, v2.ic + CELL)).(ic := v2.ic + 2 * CELL)
    requires v3.ds == w.ds + [256] && DICT <= v3.ic && v3.ic + 3 * CELL <= |v3.mem|
    requires ReadI32(v3.mem, v3.ic) == lit && ReadI32(v3.mem, v3.ic + 4) == 512 && ReadI32(v3.mem, v3.ic + 8) == bye
    requires Calls(code, v3.mem, lit, Lit) && Calls(code, v3.mem, bye, Bye)
    ensures Run(code, vm, 4).Halted? && Run(code, vm, 4).vm.ds == w.ds + [256, 512]
  {
    ZeroNotTakenReaches(code, vm, w, v2, v3, f);
    LitByeTail(code, v3, lit, bye, 512);
    assert w.ds + [256] + [512] == w.ds + [256, 512];
  }

  lemma ZeroNotTakenReaches(code: CodeTable, vm: Vm, w: Vm, v2: Vm, v3: Vm, f: int)
    requires f != 0
    requires Valid(w) && Push(w, f) == vm && CellIn(w.mem, w.ic) && CellIn(w.mem, w.ic + CELL)
    requires Calls(code, w.mem, ReadI32(w.mem, w.ic), ZeroBranch)
    requires IsI32(w.ic + CELL + ReadI32(w.mem, w.ic + CELL)) && IsI32(w.ic + 2 * CELL)
    requires v2 == Fetched(w).(ic := w.ic + 2 * CELL)
    requires CellIn(v2.mem, v2.ic) && CellIn(v2.mem, v2.ic + CELL) && IsI32(v2.ic + 2 * CELL)
    requires Calls(code, v2.mem, ReadI32(v2.mem, v2.ic), Lit)
    requires v3 == Push(Fetched(v2), ReadI32(v2.mem, v2.ic + CELL)).(ic := v2.ic + 2 * CELL)
    ensures Run(code, vm, 4) == Run(code, v3, 2)
  {
    LitRuns(code, v2, 2);
    ZeroBranchRuns(code, w, f, 3);
  }

  lemma ZeroBranchFacts(code: CodeTable, vm: Vm, s: seq<int>, f: int, zb: int, lit: int, bye: int)
    returns (w: Vm, v2: Vm, v3: Vm)
    requires Valid(vm) && vm.ds == s + [f] && DICT <= vm.ic && vm.ic + 7 * CELL <= |vm.mem|
    requires ReadI32(vm.mem, vm.ic) == zb && ReadI32(vm.mem, vm.ic + 4) == 12
    requires ReadI32(vm.mem, vm.ic + 8) == lit && ReadI32(vm.mem, vm.ic + 12) == 256
    requires ReadI32(vm.mem, vm.ic + 16) == lit && ReadI32(vm.mem, vm.ic + 20) == 512
    requires ReadI32(vm.mem, vm.ic + 24) == bye
    requires Calls(code, vm.mem, zb, ZeroBranch) && Calls(code, vm.mem, lit, Lit) && Calls(code, vm.mem, bye, Bye)
    ensures Valid(w) && Push(w, f) == vm && CellIn(w.mem, w.ic) && CellIn(w.mem, w.ic + CELL)
    ensures Calls(code, w.mem, ReadI32(w.mem, w.ic), ZeroBranch)
    ensures IsI32(w.ic + CELL + ReadI32(w.mem, w.ic + CELL)) && IsI32(w.ic + 2 * CELL)
    ensures f == 0 ==> v2 == Fetched(w).(ic := w.ic + CELL + ReadI32(w.mem, w.ic + CELL))
    ensures f != 0 ==> v2 == Fetched(w).(ic := w.ic + 2 * CELL)
    ensures Valid(v2) && v2.mem == vm.mem && v2.ds == s && DICT <= v2.ic && v2.ic + 3 * CELL <= |v2.mem|
    ensures f == 0 ==> ReadI32(v2.mem, v2.ic) == lit && ReadI32(v2.mem, v2.ic + 4) == 512 && ReadI32(v2.mem, v2.ic + 8) == bye
    ensures f != 0 ==> CellIn(v2.mem, v2.ic) && CellIn(v2.mem, v2.ic + CELL) && IsI32(v2.ic + 2 * CELL)
    ensures f != 0 ==> Calls(code, v2.mem, ReadI32(v2.mem, v2.ic), Lit)
    ensures f != 0 ==> v3 == Push(Fetched(v2), ReadI32(v2.mem, v2.ic + CELL)).(ic := v2.ic + 2 * CELL)
    ensures Valid(v3) && v3.mem == vm.mem && v3.ds == s + [256] && DICT <= v3.ic && v3.ic + 3 * CELL <= |v3.mem|
    ensures Calls(code, v2.mem, lit, Lit) && Calls(code, v2.mem, bye, Bye)
    ensures f != 0 ==> ReadI32(v3.mem, v3.ic) == lit && ReadI32(v3.mem, v3.ic + 4) == 512 && ReadI32(v3.mem, v3.ic + 8) == bye
  {
    w := vm.(ds := s);
    var x := vm.ic;
    if f == 0 {
      v2 := w.(ic := x + 16, a0 := zb);
    } else {
      v2 := w.(ic := x + 8, a0 := zb);
    }
    v3 := Push(v2, 256).(ic := x + 16, a0 := lit);
  }

  /** The thread tail [lit k bye] pushes k and halts. */
  lemma LitByeTail(code: CodeTable, vm: Vm, lit: int, bye: int, k: int)
    requires Valid(vm) && DICT <= vm.ic && vm.ic + 3 * CELL <= |vm.mem|
    requires ReadI32(vm.mem, vm.ic) == lit && ReadI32(vm.mem, vm.ic + 4) == k && ReadI32(vm.mem, vm.ic + 8) == bye
    requires Calls(code, vm.mem, lit, Lit) && Calls(code, vm.mem, bye, Bye)
    ensures Run(code, vm, 2).Halted? && Run(code, vm, 2).vm.ds == vm.ds + [k]
  {
    var v := LitByeFacts(code, vm, lit, bye, k);
    ByeHalts(code, v, 0);
    LitRuns(code, vm, 1);
  }

  lemma LitByeFacts(code: CodeTable, vm: Vm, lit: int, bye: int, k: int) returns (v: Vm)
    requires Valid(vm) && DICT <= vm.ic && vm.ic + 3 * CELL <= |vm.mem|
    requires ReadI32(vm.mem, vm.ic) == lit && ReadI32(vm.mem, vm.ic + 4) == k && ReadI32(vm.mem, vm.ic + 8) == bye
    requires Calls(code, vm.mem, lit, Lit) && Calls(code, vm.mem, bye, Bye)
    ensures v == Push(Fetched(vm), ReadI32(vm.mem, vm.ic + CELL)).(ic := vm.ic + 2 * CELL)
    ensures Valid(v) && CellIn(v.mem, v.ic) && IsI32(v.ic + CELL) && Calls(code, v.mem, ReadI32(v.mem, v.ic), Bye)
    ensures Fetched(v).ds == vm.ds + [k]
  {
    v := Push(vm, k).(ic := vm.ic + 8, a0 := lit);
  }

  /** A thread [square bye], where square is the colon definition
      [dup * exit], run on a: NEXT enters square through DOCOL, `exit`
      returns to the caller and the run halts with a * a, wrapped to 32
      bits, in place of a. */
  lemma SquareCalled(code: CodeTable, vm: Vm, w: int, x: int, y: int, dup: int, mul: int, exit: int, bye: int, a: int)
    requires Valid(vm) && Writable(vm.mem, vm.rsp - CELL, 2 * CELL)
    requires Thread(vm.mem, x, [y, bye]) && x + 3 * CELL <= vm.rsp - CELL
    requires Thread(vm.mem, y, [dup, mul, exit]) && y + 4 * CELL <= vm.rsp - CELL
    requires Calls(code, vm.mem, dup, Dup) && dup + CELL <= vm.rsp - CELL
    requires Calls(code, vm.mem, mul, Mul) && mul + CELL <= vm.rsp - CELL
    requires Calls(code, vm.mem, exit, Exit) && exit + CELL <= vm.rsp - CELL
    requires Calls(code, vm.mem, bye, Bye) && bye + CELL <= vm.rsp - CELL
    requires ByteIn(vm.mem, w + 4) && Dictionary.Cfa(vm.mem, w) == x
    ensures RunWord(code, Push(vm, a), w, 6).Halted?
    ensures RunWord(code, Push(vm, a), w, 6).vm.ds == vm.ds + [Wrap32(a * a)]
  {
    var v1 := SquareEntered(code, vm, x, y, dup, mul, exit, bye, a);
    var v2 := SquareCallFacts(code, v1, vm.ds, x, y, dup, mul, exit, bye, a);
    SquareInner(code, v2, vm.ds, x, y, dup, mul, exit, bye, a);
    ColonRuns(code, v1, 4);
    EnterRuns(code, Push(vm, a), x, 5);
    RunWordAt(code, Push(vm, a), w, x, 6);
  }

  /** Entering the caller [square bye] with a on the stack. */
  lemma SquareEntered(code: CodeTable, vm: Vm, x: int, y: int, dup: int, mul: int, exit: int, bye: int, a: int)
    returns (v1: Vm)
    requires Valid(vm) && Writable(vm.mem, vm.rsp - CELL, 2 * CELL)
    requires Thread(vm.mem, x, [y, bye]) && x + 3 * CELL <= vm.rsp - CELL
    requires Thread(vm.mem, y, [dup, mul, exit]) && y + 4 * CELL <= vm.rsp - CELL
    requires Calls(code, vm.mem, dup, Dup) && dup + CELL <= vm.rsp - CELL
    requires Calls(code, vm.mem, mul, Mul) && mul + CELL <= vm.rsp - CELL
    requires Calls(code, vm.mem, exit, Exit) && exit + CELL <= vm.rsp - CELL
    requires Calls(code, vm.mem, bye, Bye) && bye + CELL <= vm.rsp - CELL
    ensures v1 == Entered(Push(vm, a), x)
    ensures Valid(v1) && v1.ds == vm.ds + [a] && v1.ic == x + CELL && v1.rsp == vm.rsp - CELL
    ensures Writable(v1.mem, v1.rsp, CELL) && DICT <= x && x + 3 * CELL <= v1.rsp && DICT <= y && y + 4 * CELL <= v1.rsp
    ensures ReadI32(v1.mem, x + 4) == y && ReadI32(v1.mem, x + 8) == bye && ReadI32(v1.mem, y) == DOCOL
    ensures ReadI32(v1.mem, y + 4) == dup && ReadI32(v1.mem, y + 8) == mul && ReadI32(v1.mem, y + 12) == exit
    ensures Calls(code, v1.mem, dup, Dup) && dup + CELL <= v1.rsp && Calls(code, v1.mem, mul, Mul) && mul + CELL <= v1.rsp
    ensures Calls(code, v1.mem, exit, Exit) && exit + CELL <= v1.rsp && Calls(code, v1.mem, bye, Bye) && bye + CELL <= v1.rsp
  {
    v1 := EnterThread(Push(vm, a), x);
    SquareCellsKept(code, vm.mem, v1.mem, vm.rsp, x, y, dup, mul, exit, bye);
  }

  /** The cells of both threads and the code fields they name, in a memory
      that agrees with m on every cell below bound. */
  lemma SquareCellsKept(code: CodeTable, m: Mem, m': Mem, bound: int, x: int, y: int, dup: int, mul: int, exit: int, bye: int)
    requires |m'| == |m| && bound <= |m| && forall a :: DICT <= a && a + CELL <= bound ==> ReadI32(m', a) == ReadI32(m, a)
    requires Thread(m, x, [y, bye]) && x + 3 * CELL <= bound - CELL
    requires Thread(m, y, [dup, mul, exit]) && y + 4 * CELL <= bound - CELL
    requires Calls(code, m, dup, Dup) && dup + CELL <= bound - CELL
    requires Calls(code, m, mul, Mul) && mul + CELL <= bound - CELL
    requires Calls(code, m, exit, Exit) && exit + CELL <= bound - CELL
    requires Calls(code, m, bye, Bye) && bye + CELL <= bound - CELL
    ensures ReadI32(m', x + 4) == y && ReadI32(m', x + 8) == bye && ReadI32(m', y) == DOCOL
    ensures ReadI32(m', y + 4) == dup && ReadI32(m', y + 8) == mul && ReadI32(m', y + 12) == exit
    ensures Calls(code, m', dup, Dup) && Calls(code, m', mul, Mul)
    ensures Calls(code, m', exit, Exit) && Calls(code, m', bye, Bye)
  {
    ThreadCellsTwo(m, x, y, bye);
    ThreadCellsThree(m, y, dup, mul, exit);
    CellKeptBelow(m, m', bound, x + 4);
    CellKeptBelow(m, m', bound, x + 8);
    CellKeptBelow(m, m', bound, y);
    CellKeptBelow(m, m', bound, y + 4);
    CellKeptBelow(m, m', bound, y + 8);
    CellKeptBelow(m, m', bound, y + 12);
    CallsKeptBelow(code, m, m', bound, dup, Dup);
    CallsKeptBelow(code, m, m', bound, mul, Mul);
    CallsKeptBelow(code, m, m', bound, exit, Exit);
    CallsKeptBelow(code, m, m', bound, bye, Bye);
  }

  /** The two cells of a thread [p, q]. */
  lemma ThreadCellsTwo(m: Mem, x: int, p: int, q: int)
    requires Thread(m, x, [p, q])
    ensures ReadI32(m, x + 4) == p && ReadI32(m, x + 8) == q
  {
    assert ReadI32(m, x + CELL + CELL * 0) == [p, q][0];
    assert ReadI32(m, x + CELL + CELL * 1) == [p, q][1];
  }

  /** The code field and the three cells of a thread [p, q, r]. */
  lemma ThreadCellsThree(m: Mem, x: int, p: int, q: int, r: int)
    requires Thread(m, x, [p, q, r])
    ensures ReadI32(m, x) == DOCOL && ReadI32(m, x + 4) == p && ReadI32(m, x + 8) == q && ReadI32(m, x + 12) == r
  {
    assert ReadI32(m, x + CELL + CELL * 0) == [p, q, r][0];
    assert ReadI32(m, x + CELL + CELL * 1) == [p, q, r][1];
    assert ReadI32(m, x + CELL + CELL * 2) == [p, q, r][2];
  }

  /** A cell below bound reads the same in a memory that keeps those cells. */
  lemma CellKeptBelow(m: Mem, m': Mem, bound: int, a: int)
    requires |m'| == |m| && bound <= |m| && forall a :: DICT <= a && a + CELL <= bound ==> ReadI32(m', a) == ReadI32(m, a)
    requires DICT <= a && a + CELL <= bound && CellIn(m, a)
    ensures ReadI32(m', a) == ReadI32(m, a)
  {
  }

  /** A code field below bound names the same primitive in a memory that
      keeps those cells. */
  lemma CallsKeptBelow(code: CodeTable, m: Mem, m': Mem, bound: int, xt: int, p: Prim)
    requires |m'| == |m| && bound <= |m| && forall a :: DICT <= a && a + CELL <= bound ==> ReadI32(m', a) == ReadI32(m, a)
    requires Calls(code, m, xt, p) && xt + CELL <= bound
    ensures Calls(code, m', xt, p)
  {
    CellKeptBelow(m, m', bound, xt);
  }

  /** The state once NEXT has entered square from the caller. */
  lemma SquareCallFacts(code: CodeTable, v1: Vm, s: seq<int>, x: int, y: int, dup: int, mul: int, exit: int, bye: int, a: int)
    returns (v2: Vm)
    requires Valid(v1) && v1.ds == s + [a] && v1.ic == x + CELL
    requires Writable(v1.mem, v1.rsp, CELL) && DICT <= x && x + 3 * CELL <= v1.rsp && DICT <= y && y + 4 * CELL <= v1.rsp
    requires ReadI32(v1.mem, x + 4) == y && ReadI32(v1.mem, x + 8) == bye && ReadI32(v1.mem, y) == DOCOL
    requires ReadI32(v1.mem, y + 4) == dup && ReadI32(v1.mem, y + 8) == mul && ReadI32(v1.mem, y + 12) == exit
    requires Calls(code, v1.mem, dup, Dup) && dup + CELL <= v1.rsp && Calls(code, v1.mem, mul, Mul) && mul + CELL <= v1.rsp
    requires Calls(code, v1.mem, exit, Exit) && exit + CELL <= v1.rsp && Calls(code, v1.mem, bye, Bye) && bye + CELL <= v1.rsp
    ensures CellIn(v1.mem, v1.ic) && IsI32(v1.ic + CELL)
    ensures CellIn(v1.mem, ReadI32(v1.mem, v1.ic)) && ReadI32(v1.mem, ReadI32(v1.mem, v1.ic)) == DOCOL
    ensures v2 == Called(v1)
    ensures Valid(v2) && v2.ds == s + [a] && v2.ic == y + CELL && DICT <= y && y + 4 * CELL <= |v2.mem|
    ensures ReadI32(v2.mem, y + 4) == dup && ReadI32(v2.mem, y + 8) == mul && ReadI32(v2.mem, y + 12) == exit
    ensures CellIn(v2.mem, v2.rsp + CELL) && IsI32(v2.rsp + CELL) && ReadI32(v2.mem, v2.rsp + CELL) == x + 8
    ensures DICT <= x && x + 3 * CELL <= |v2.mem| && ReadI32(v2.mem, x + 8) == bye
    ensures Calls(code, v2.mem, dup, Dup) && Calls(code, v2.mem, mul, Mul)
    ensures Calls(code, v2.mem, exit, Exit) && Calls(code, v2.mem, bye, Bye)
  {
    v2 := Called(v1);
    KeptBelow(v1.mem, v1.rsp, v1.ic + CELL);
  }

  /** The body of square, then `bye` back in the caller. */
  lemma SquareInner(code: CodeTable, v2: Vm, s: seq<int>, x: int, y: int, dup: int, mul: int, exit: int, bye: int, a: int)
    requires Valid(v2) && v2.ds == s + [a] && v2.ic == y + CELL && DICT <= y && y + 4 * CELL <= |v2.mem|
    requires ReadI32(v2.mem, y + 4) == dup && ReadI32(v2.mem, y + 8) == mul && ReadI32(v2.mem, y + 12) == exit
    requires CellIn(v2.mem, v2.rsp + CELL) && IsI32(v2.rsp + CELL) && ReadI32(v2.mem, v2.rsp + CELL) == x + 8
    requires DICT <= x && x + 3 * CELL <= |v2.mem| && ReadI32(v2.mem, x + 8) == bye
    requires Calls(code, v2.mem, dup, Dup) && Calls(code, v2.mem, mul, Mul)
    requires Calls(code, v2.mem, exit, Exit) && Calls(code, v2.mem, bye, Bye)
    ensures Run(code, v2, 4).Halted? && Run(code, v2, 4).vm.ds == s + [Wrap32(a * a)]
  {
    var w, u3, u4, u5 := SquareInnerFacts(code, v2, s, x, y, dup, mul, exit, bye, a);
    SquareInnerHead(code, v2, w, u3, u4, a);
    SquareInnerTail(code, u4, u5, s, a);
  }

  /** `dup` and `*` inside square. */
  lemma SquareInnerHead(code: CodeTable, v2: Vm, w: Vm, u3: Vm, u4: Vm, a: int)
    requires Valid(w) && Push(w, a) == v2 && CellIn(w.mem, w.ic) && IsI32(w.ic + CELL)
    requires Calls(code, w.mem, ReadI32(w.mem, w.ic), Dup)
    requires u3 == Fetched(w) && Push(Push(u3, a), a) == Push(Push(Fetched(w), a), a)
    requires CellIn(u3.mem, u3.ic) && IsI32(u3.ic + CELL) && Calls(code, u3.mem, ReadI32(u3.mem, u3.ic), Mul)
    requires u4 == Push(Fetched(u3), Wrap32(a * a))
    ensures Run(code, v2, 4) == Run(code, u4, 2)
  {
    DupRuns(code, w, a, 3);
    MulRuns(code, u3, a, a, 2);
  }

  /** `exit` back to the caller, then its `bye`. */
  lemma SquareInnerTail(code: CodeTable, u4: Vm, u5: Vm, s: seq<int>, a: int)
    requires Valid(u4) && CellIn(u4.mem, u4.ic) && IsI32(u4.ic + CELL) && Calls(code, u4.mem, ReadI32(u4.mem, u4.ic), Exit)
    requires CellIn(u4.mem, u4.rsp + CELL) && IsI32(u4.rsp + CELL)
    requires u5 == Fetched(u4).(rsp := u4.rsp + CELL, ic := ReadI32(u4.mem, u4.rsp + CELL))
    requires Valid(u5) && CellIn(u5.mem, u5.ic) && IsI32(u5.ic + CELL) && Calls(code, u5.mem, ReadI32(u5.mem, u5.ic), Bye)
    requires Fetched(u5).ds == s + [Wrap32(a * a)]
    ensures Run(code, u4, 2).Halted? && Run(code, u4, 2).vm.ds == s + [Wrap32(a * a)]
  {
    ExitRuns(code, u4, 1);
    ByeHalts(code, u5, 0);
  }

  lemma SquareInnerFacts(code: CodeTable, v2: Vm, s: seq<int>, x: int, y: int, dup: int, mul: int, exit: int, bye: int, a: int)
    returns (w: Vm, u3: Vm, u4: Vm, u5: Vm)
    requires Valid(v2) && v2.ds == s + [a] && v2.ic == y + CELL && DICT <= y && y + 4 * CELL <= |v2.mem|
    requires ReadI32(v2.mem, y + 4) == dup && ReadI32(v2.mem, y + 8) == mul && ReadI32(v2.mem, y + 12) == exit
    requires CellIn(v2.mem, v2.rsp + CELL) && IsI32(v2.rsp + CELL) && ReadI32(v2.mem, v2.rsp + CELL) == x + 8
    requires DICT <= x && x + 3 * CELL <= |v2.mem| && ReadI32(v2.mem, x + 8) == bye
    requires Calls(code, v2.mem, dup, Dup) && Calls(code, v2.mem, mul, Mul)
    requires Calls(code, v2.mem, exit, Exit) && Calls(code, v2.mem, bye, Bye)
    ensures Valid(w) && Push(w, a) == v2 && CellIn(w.mem, w.ic) && IsI32(w.ic + CELL)
    ensures Calls(code, w.mem, ReadI32(w.mem, w.ic), Dup)
    ensures u3 == Fetched(w) && Push(Push(u3, a), a) == Push(Push(Fetched(w), a), a)
    ensures CellIn(u3.mem, u3.ic) && IsI32(u3.ic + CELL) && Calls(code, u3.mem, ReadI32(u3.mem, u3.ic), Mul)
    ensures u4 == Push(Fetched(u3), Wrap32(a * a))
    ensures Valid(u4) && CellIn(u4.mem, u4.ic) && IsI32(u4.ic + CELL) && Calls(code, u4.mem, ReadI32(u4.mem, u4.ic), Exit)
    ensures CellIn(u4.mem, u4.rsp + CELL) && IsI32(u4.rsp + CELL)
    ensures u5 == Fetched(u4).(rsp := u4.rsp + CELL, ic := ReadI32(u4.mem, u4.rsp + CELL))
    ensures Valid(u5) && CellIn(u5.mem, u5.ic) && IsI32(u5.ic + CELL) && Calls(code, u5.mem, ReadI32(u5.mem, u5.ic), Bye)
    ensures Fetched(u5).ds == s + [Wrap32(a * a)]
  {
    w := v2.(ds := s);
    u3 := w.(ic := y + 8, a0 := dup);
    u4 := Push(u3.(ic := y + 12, a0 := mul), Wrap32(a * a));
    u5 := u4.(ic := x + 8, a0 := exit, rsp := v2.rsp + CELL);
  }
}

=== FILE: tokenizer.dfy ===
/** The tokenizer behind `word`: `skip_white_space` and `_word`.

    Input is the finite sequence of bytes still to be read. Where the source
    would refill the line buffer from its input stream, the model has run
    out of input and yields None.
 */
module Tokenizer {
  import opened Memory
  import opened Results

  const SPACE: Byte := 0x20
  const NEWLINE: Byte := 0x0a
  const BACKSLASH: Byte := 0x5c

  /** ASCII whitespace: space, tab, line feed, form feed, carriage return. */
  predicate IsSpace(c: Byte) {
    c == SPACE || c == 0x09 || c == NEWLINE || c == 0x0c || c == 0x0d
  }

  /** A token as `word` returns it: non-empty, without whitespace, and not
      starting with a backslash (that starts a comment instead). */
  predicate IsToken(t: seq<Byte>) {
    |t| > 0 && t[0] != BACKSLASH && forall i :: 0 <= i < |t| ==> !IsSpace(t[i])
  }

  /** `rest` is what remains of s after some prefix. */
  predicate SuffixOf(rest: seq<Byte>, s: seq<Byte>) {
    |rest| <= |s| && s[|s| - |rest| ..] == rest
  }

  /** `skip_white_space`: drops whitespace, and a backslash with everything
      up to and including the next newline, and returns the first byte left
      together with the input after it. */
  function SkipSpace(s: seq<Byte>): (r: Option<(Byte, seq<Byte>)>)
    ensures r.Some? ==> !IsSpace(r.value.0) && r.value.0 != BACKSLASH
    ensures r.Some? ==> SuffixOf([r.value.0] + r.value.1, s)
    decreases |s|
  {
    if s == [] then None
    else if IsSpace(s[0]) then
      var r := SkipSpace(s[1..]);
      SuffixOfTail(r, s);
      r
    else if s[0] == BACKSLASH then
      var r := SkipComment(s[1..]);
      SuffixOfTail(r, s);
      r
    else
      assert s == [s[0]] + s[1..];
      Some((s[0], s[1..]))
  }

  /** The rest of a comment: everything through the next newline goes, then
      whitespace skipping resumes. */
  function SkipComment(s: seq<Byte>): (r: Option<(Byte, seq<Byte>)>)
    ensures r.Some? ==> !IsSpace(r.value.0) && r.value.0 != BACKSLASH
    ensures r.Some? ==> SuffixOf([r.value.0] + r.value.1, s)
    decreases |s|
  {
    if s == [] then None
    else
      var r := if s[0] == NEWLINE then SkipSpace(s[1..]) else SkipComment(s[1..]);
      SuffixOfTail(r, s);
      r
  }

  /** A suffix of the input after its first byte is a suffix of the input. */
  lemma SuffixOfTail(r: Option<(Byte, seq<Byte>)>, s: seq<Byte>)
    requires |s| > 0 && (r.Some? ==> SuffixOf([r.value.0] + r.value.1, s[1..]))
    ensures r.Some? ==> SuffixOf([r.value.0] + r.value.1, s)
  {
    if r.Some? {
      var rest := [r.value.0] + r.value.1;
      assert s[|s| - |rest| ..] == s[1..][|s| - 1 - |rest| ..];
    }
  }

  /** The bytes of s before its first whitespace byte, and the input after
      that whitespace byte (which is consumed); None if s has none. */
  function ScanToken(s: seq<Byte>): (r: Option<(seq<Byte>, seq<Byte>)>)
    ensures r.Some? ==> forall i :: 0 <= i < |r.value.0| ==> !IsSpace(r.value.0[i])
    ensures r.Some? ==> var (t, rest) := r.value;
      |t| + 1 + |rest| == |s| && s[.. |t|] == t && IsSpace(s[|t|]) && s[|t| + 1 ..] == rest
    ensures r.None? <==> forall i :: 0 <= i < |s| ==> !IsSpace(s[i])
    decreases |s|
  {
    if s == [] then None
    else if IsSpace(s[0]) then Some(([], s[1..]))
    else match ScanToken(s[1..])
      case None => None
      case Some((t, rest)) => Some(([s[0]] + t, rest))
  }

  /** `_word`: the next token and the input after the whitespace byte that
      ends it. */
  function Word(s: seq<Byte>): (r: Option<(seq<Byte>, seq<Byte>)>)
    ensures r.Some? ==> IsToken(r.value.0)
    ensures r.Some? ==> var (t, rest) := r.value;
      exists sep :: IsSpace(sep) && SuffixOf(t + [sep] + rest, s)
  {
    match SkipSpace(s)
    case None => None
    case Some((c, after)) =>
      match ScanToken(after)
      case None => None
      case Some((t, rest)) =>
        var tok := [c] + t;
        assert after == t + [after[|t|]] + rest;
        assert tok + [after[|t|]] + rest == [c] + after;
        Some((tok, rest))
  }

  /** Every token in order, up to the point where the input runs out. */
  function Tokens(s: seq<Byte>): (ts: seq<seq<Byte>>)
    ensures forall i :: 0 <= i < |ts| ==> IsToken(ts[i])
    decreases |s|
  {
    match Word(s)
    case None => []
    case Some((t, rest)) => [t] + Tokens(rest)
  }

  /** Tokens written out, each followed by one space. */
  function Unwords(ts: seq<seq<Byte>>): seq<Byte> {
    if ts == [] then [] else ts[0] + [SPACE] + Unwords(ts[1..])
  }

  /** Whitespace and comments in front of a token are skipped. */
  lemma {:induction false} SkipSpaceOfSpaced(pre: seq<Byte>, c: Byte, rest: seq<Byte>)
    requires forall i :: 0 <= i < |pre| ==> IsSpace(pre[i])
    requires !IsSpace(c) && c != BACKSLASH
    ensures SkipSpace(pre + [c] + rest) == Some((c, rest))
    decreases |pre|
  {
    if pre == [] {
      assert pre + [c] + rest == [c] + rest;
    } else {
      assert (pre + [c] + rest)[1..] == pre[1..] + [c] + rest;
      SkipSpaceOfSpaced(pre[1..], c, rest);
    }
  }

  /** A comment (a backslash, bytes without newline, a newline) in front of
      whitespace and a token is skipped too. */
  lemma {:induction false} SkipCommentOf(body: seq<Byte>, pre: seq<Byte>, c: Byte, rest: seq<Byte>)
    requires forall i :: 0 <= i < |body| ==> body[i] != NEWLINE
    requires forall i :: 0 <= i < |pre| ==> IsSpace(pre[i])
    requires !IsSpace(c) && c != BACKSLASH
    ensures SkipComment(body + [NEWLINE] + pre + [c] + rest) == Some((c, rest))
    decreases |body|
  {
    if body == [] {
      assert (body + [NEWLINE] + pre + [c] + rest)[1..] == pre + [c] + rest;
      SkipSpaceOfSpaced(pre, c, rest);
    } else {
      assert (body + [NEWLINE] + pre + [c] + rest)[1..] == body[1..] + [NEWLINE] + pre + [c] + rest;
      SkipCommentOf(body[1..], pre, c, rest);
    }
  }

  /** The bytes of a token, then a whitespace byte: the scan stops exactly
      there. */
  lemma {:induction false} ScanTokenOf(t: seq<Byte>, sep: Byte, rest: seq<Byte>)
    requires forall i :: 0 <= i < |t| ==> !IsSpace(t[i])
    requires IsSpace(sep)
    ensures ScanToken(t + [sep] + rest) == Some((t, rest))
    decreases |t|
  {
    if t == [] {
      assert t + [sep] + rest == [sep] + rest;
    } else {
      assert (t + [sep] + rest)[1..] == t[1..] + [sep] + rest;
      ScanTokenOf(t[1..], sep, rest);
      assert [t[0]] + t[1..] == t;
    }
  }

  /** `word` returns a token written after whitespace, together with the
      input after its terminating whitespace byte. */
  lemma WordOfSpaced(pre: seq<Byte>, t: seq<Byte>, sep: Byte, rest: seq<Byte>)
    requires forall i :: 0 <= i < |pre| ==> IsSpace(pre[i])
    requires IsToken(t) && IsSpace(sep)
    ensures Word(pre + t + [sep] + rest) == Some((t, rest))
  {
    assert pre + t + [sep] + rest == pre + [t[0]] + (t[1..] + [sep] + rest);
    SkipSpaceOfSpaced(pre, t[0], t[1..] + [sep] + rest);
    ScanTokenOf(t[1..], sep, rest);
    assert [t[0]] + t[1..] == t;
  }

  /** A token at the very start of the input, then whitespace. */
  lemma WordAtStart(t: seq<Byte>, sep: Byte, rest: seq<Byte>)
    requires IsToken(t) && IsSpace(sep)
    ensures Word(t + [sep] + rest) == Some((t, rest))
  {
    WordOfSpaced([], t, sep, rest);
    assert [] + t + [sep] + rest == t + [sep] + rest;
  }

  /** Writing tokens out separated by spaces and reading them back gives the
      same tokens. */
  lemma {:induction false} TokensOfUnwords(ts: seq<seq<Byte>>)
    requires forall i :: 0 <= i < |ts| ==> IsToken(ts[i])
    ensures Tokens(Unwords(ts)) == ts
    decreases |ts|
  {
    if ts != [] {
      assert ts[0] + [SPACE] + Unwords(ts[1..]) == Unwords(ts);
      WordAtStart(ts[0], SPACE, Unwords(ts[1..]));
      TokensOfUnwords(ts[1..]);
      assert [ts[0]] + ts[1..] == ts;
    }
  }

  /** Input of whitespace only holds no token. */
  lemma {:induction false} SkipAllSpace(s: seq<Byte>)
    requires forall i :: 0 <= i < |s| ==> IsSpace(s[i])
    ensures SkipSpace(s) == None && Word(s) == None
    decreases |s|
  {
    if s != [] {
      SkipAllSpace(s[1..]);
    }
  }

  /** Whitespace in front of a backslash is skipped, and the comment
      starts. */
  lemma {:induction false} SkipSpaceToComment(pre: seq<Byte>, body: seq<Byte>)
    requires forall i :: 0 <= i < |pre| ==> IsSpace(pre[i])
    ensures SkipSpace(pre + [BACKSLASH] + body) == SkipComment(body)
    decreases |pre|
  {
    if pre == [] {
      assert pre + [BACKSLASH] + body == [BACKSLASH] + body;
    } else {
      assert (pre + [BACKSLASH] + body)[1..] == pre[1..] + [BACKSLASH] + body;
      SkipSpaceToComment(pre[1..], body);
    }
  }

  /** The bytes of "sbvasd" and of "testing-word". */
  const Sbvasd: seq<Byte> := [0x73, 0x62, 0x76, 0x61, 0x73, 0x64]
  const TestingWord: seq<Byte> := [0x74, 0x65, 0x73, 0x74, 0x69, 0x6e, 0x67, 0x2d, 0x77, 0x6f, 0x72, 0x64]

  /** A comment line in front of a token is skipped: five spaces, a
      backslash, "sbvasd", a newline, a space, "testing-word" and a space
      yield "testing-word" and leave nothing. */
  lemma WordSkipsComment()
    ensures Word([SPACE, SPACE, SPACE, SPACE, SPACE, BACKSLASH] + Sbvasd + [NEWLINE, SPACE] + TestingWord + [SPACE])
      == Some((TestingWord, []))
  {
    var t := TestingWord;
    var pre := [SPACE, SPACE, SPACE, SPACE, SPACE];
    var tail := t[1..] + [SPACE];
    assert [SPACE, SPACE, SPACE, SPACE, SPACE, BACKSLASH] + Sbvasd + [NEWLINE, SPACE] + TestingWord + [SPACE]
      == pre + [BACKSLASH] + (Sbvasd + [NEWLINE] + [SPACE] + [t[0]] + tail);
    SkipSpaceToComment(pre, Sbvasd + [NEWLINE] + [SPACE] + [t[0]] + tail);
    SkipCommentOf(Sbvasd, [SPACE], t[0], tail);
    ScanTokenOf(t[1..], SPACE, []);
    assert [t[0]] + t[1..] == t;
  }
}

=== FILE: writer.dfy ===
/** The host-side dictionary writer, and the two runtime words that append
    to the dictionary (`create` and `,`).

    Every writer appends at HERE and advances it; a new entry becomes
    visible only when LATEST is finally set to its address. Between those
    points the dictionary seen from LATEST is unchanged.
 */
module Writer {
  import opened Layout
  import opened Memory
  import opened Dictionary
  import opened Lookup
  import opened Numbers
  import opened Results

  /** HERE lies in the dictionary region and n more bytes fit after it. */
  predicate CanAppend(m: Mem, n: int) {
    HasRegisters(m) && DICT <= Here(m) && Here(m) + n <= |m|
  }

  /** m' differs from m only in the HERE register and in [lo, hi). */
  ghost predicate Appended(m: Mem, m': Mem, lo: int, hi: int)
    requires HasRegisters(m)
  {
    && HasRegisters(m')
    && Frame(m, m', {HERE}, lo, hi)
    && (forall r :: IsReg(r) && r != HERE ==> Reg(m', r) == Reg(m, r))
  }

  /** Two appends in a row, the second after the first, are one append. */
  lemma AppendedCompose(m1: Mem, m2: Mem, m3: Mem, lo1: int, hi1: int, lo2: int, hi2: int)
    requires HasRegisters(m1) && HasRegisters(m2)
    requires Appended(m1, m2, lo1, hi1) && Appended(m2, m3, lo2, hi2)
    requires lo1 <= hi1 <= lo2 <= hi2
    ensures Appended(m1, m3, lo1, hi2)
  {
    FrameCompose(m1, m2, m3, {HERE}, {HERE}, lo1, hi1, lo2, hi2);
    assert {HERE} + {HERE} == {HERE};
  }

  /** An append inside [lo, hi) is also one inside any larger range. */
  lemma AppendedCovers(m: Mem, m': Mem, lo: int, hi: int, hi': int)
    requires HasRegisters(m) && Appended(m, m', lo, hi) && lo <= hi <= hi'
    ensures Appended(m, m', lo, hi')
  {
  }

  /** Setting HERE (m1 to m') after writing only inside [lo, hi) of the
      dictionary region (m to m1) is an append. */
  lemma SetHereAppends(m: Mem, m1: Mem, m': Mem, lo: int, hi: int)
    requires HasRegisters(m) && DICT <= lo <= hi && Frame(m, m1, {}, lo, hi)
    requires HasRegisters(m1) && HasRegisters(m') && Frame(m1, m', {HERE}, 0, 0)
    requires forall r :: IsReg(r) && r != HERE ==> Reg(m', r) == Reg(m1, r)
    ensures Appended(m, m', lo, hi)
  {
    forall r | IsReg(r) && r != HERE
      ensures Reg(m', r) == Reg(m, r)
    {
      FrameReadI32(m, m1, {}, lo, hi, r);
    }
    FrameWiden(m1, m', {HERE}, 0, 0, {HERE}, lo, hi);
    FrameCompose(m, m1, m', {}, {HERE}, lo, hi, lo, hi);
    assert {} + {HERE} == {HERE};
  }

  /** The word `,`: stores v at HERE and advances HERE by one cell. */
  function Comma(m: Mem, v: int): (m': Mem)
    requires CanAppend(m, CELL)
    ensures Appended(m, m', Here(m), Here(m) + CELL)
    ensures ReadI32(m', Here(m)) == Wrap32(v) && Here(m') == Here(m) + CELL
  {
    var h := Here(m);
    var m1 := WriteI32(m, h, v);
    var m' := SetReg(m1, HERE, h + CELL);
    SetHereAppends(m, m1, m', h, h + CELL);
    FrameReadI32(m1, m', {HERE}, 0, 0, h);
    m'
  }

  /** `compile_cell`, the host-side twin of `,`. */
  method CompileCell(m: Mem, v: int) returns (m': Mem)
    requires CanAppend(m, CELL)
    ensures Appended(m, m', Here(m), Here(m) + CELL)
    ensures ReadI32(m', Here(m)) == Wrap32(v) && Here(m') == Here(m) + CELL
  {
    m' := Comma(m, v);
  }


  /** `write_previous_idx`: the prev cell of a new entry links to LATEST. */
  method WritePreviousIdx(m: Mem) returns (m': Mem)
    requires CanAppend(m, CELL)
    ensures Appended(m, m', Here(m), Here(m) + CELL)
    ensures Prev(m', Here(m)) == Latest(m) && Here(m') == Here(m) + CELL
  {
    m' := CompileCell(m, Latest(m));
  }

  /** s is stored at a. */
  predicate BytesAt(m: Mem, a: int, s: seq<Byte>) {
    0 <= a && a + |s| <= |m| && m[a .. a + |s|] == s
  }

  /** The length byte and stored name bytes `write_name` lays down at h. */
  predicate NameAt(m: Mem, h: int, name: seq<Byte>, flags: Byte) {
    && 0 <= h < |m|
    && m[h] == Or(|name| % 256, flags)
    && BytesAt(m, h + 1, name[..StoredLen(|name|)])
  }

  /** Bytes kept by a frame that excludes them keep their contents. */
  lemma BytesAtFrame(m: Mem, m': Mem, a: int, s: seq<Byte>, regs: set<int>, lo: int, hi: int)
    requires BytesAt(m, a, s) && DOCOL <= a && Frame(m, m', regs, lo, hi)
    requires a + |s| <= lo || hi <= a || hi <= lo
    ensures BytesAt(m', a, s)
  {
    FrameSlice(m, m', regs, lo, hi, a, a + |s|);
  }

  /** `write_name`: the length byte is the name's length truncated to a
      byte and or-ed with the flags, followed by at most 13 name bytes;
      HERE moves to the next cell boundary after them. */
  method WriteName(m: Mem, name: seq<Byte>, flags: Byte) returns (m': Mem)
    requires CanAppend(m, 1 + StoredLen(|name|))
    ensures Appended(m, m', Here(m), Here(m) + 1 + StoredLen(|name|))
    ensures NameAt(m', Here(m), name, flags)
    ensures Here(m') == Align(Here(m) + 1 + StoredLen(|name|))
  {
    var h := Here(m);
    var s := name[..StoredLen(|name|)];
    var m1 := WriteU8(m, h, Or(|name| % 256, flags));
    var m2 := WriteBytes(m1, h + 1, s);
    m' := SetReg(m2, HERE, Align(h + 1 + |s|));
    NameWritten(m, m1, m2, m', h, Or(|name| % 256, flags), s);
  }

  /** The facts behind WriteName, about the intermediate memories. */
  lemma NameWritten(m: Mem, m1: Mem, m2: Mem, m': Mem, h: int, b: Byte, s: seq<Byte>)
    requires HasRegisters(m) && DICT <= h && h + 1 + |s| <= |m|
    requires Frame(m, m1, {}, h, h + 1) && m1[h] == b
    requires Frame(m1, m2, {}, h + 1, h + 1 + |s|) && m2[h + 1 .. h + 1 + |s|] == s
    requires HasRegisters(m2) && HasRegisters(m') && Frame(m2, m', {HERE}, 0, 0)
    requires forall r :: IsReg(r) && r != HERE ==> Reg(m', r) == Reg(m2, r)
    ensures Appended(m, m', h, h + 1 + |s|) && m'[h] == b && BytesAt(m', h + 1, s)
  {
    FrameCompose(m, m1, m2, {}, {}, h, h + 1, h + 1, h + 1 + |s|);
    assert At(m2, h) == At(m1, h) && At(m', h) == At(m2, h);
    SetHereAppends(m, m2, m', h, h + 1 + |s|);
    BytesAtFrame(m2, m', h + 1, s, {HERE}, 0, 0);
  }

  /** `write_codeword_builtin`: the code field points at the next cell, where
      the machine code follows. */
  method WriteCodewordBuiltin(m: Mem) returns (m': Mem)
    requires CanAppend(m, CELL)
    ensures Appended(m, m', Here(m), Here(m) + CELL)
    ensures ReadI32(m', Here(m)) == Here(m') && Here(m') == Here(m) + CELL
  {
    m' := CompileCell(m, Here(m) + CELL);
  }

  /** `write_code`: copies the code bytes to HERE and moves HERE to the next
      cell boundary after them. */
  method WriteCode(m: Mem, code: seq<Byte>) returns (m': Mem)
    requires CanAppend(m, |code|)
    ensures Appended(m, m', Here(m), Here(m) + |code|)
    ensures BytesAt(m', Here(m), code) && Here(m') == Align(Here(m) + |code|)
  {
    var h := Here(m);
    var m1 := WriteBytes(m, h, code);
    m' := SetReg(m1, HERE, Align(h + |code|));
    SetHereAppends(m, m1, m', h, h + |code|);
    BytesAtFrame(m1, m', h, code, {HERE}, 0, 0);
  }

  /** `write_docol_addr`: a colon definition's code field holds DOCOL. */
  method WriteDocolAddr(m: Mem) returns (m': Mem)
    requires CanAppend(m, CELL)
    ensures Appended(m, m', Here(m), Here(m) + CELL)
    ensures ReadI32(m', Here(m)) == DOCOL && Here(m') == Here(m) + CELL
  {
    m' := CompileCell(m, DOCOL);
  }

  /** The header of an entry at w: the prev cell, then the length byte and
      name bytes that `write_name` lays down. */
  predicate HeaderAt(m: Mem, w: int, prev: int, name: seq<Byte>, flags: Byte) {
    CellIn(m, w) && ReadI32(m, w) == prev && NameAt(m, w + CELL, name, flags)
  }

  /** A header survives every change outside its bytes and the registers. */
  lemma HeaderAtFrame(m: Mem, m': Mem, w: int, prev: int, name: seq<Byte>, flags: Byte, regs: set<int>, lo: int, hi: int)
    requires HeaderAt(m, w, prev, name, flags) && DOCOL <= w
    requires Frame(m, m', regs, lo, hi) && (w + 5 + StoredLen(|name|) <= lo || hi <= w || hi <= lo)
    ensures HeaderAt(m', w, prev, name, flags)
  {
    FrameReadI32(m, m', regs, lo, hi, w);
    assert At(m', w + CELL) == At(m, w + CELL);
    BytesAtFrame(m, m', w + 5, name[..StoredLen(|name|)], regs, lo, hi);
  }

  /** Where the writer puts the code field of an entry at w named name. */
  function CodeField(w: int, name: seq<Byte>): int {
    Align(w + 5 + StoredLen(|name|))
  }

  /** For a name shorter than 32 bytes and flags without length bits, the
      header the writer lays down declares the name's length, stores its
      first 13 bytes, and has its code field where the writer put it. */
  lemma HeaderDeclares(m: Mem, w: int, prev: int, name: seq<Byte>, flags: Byte)
    requires HeaderAt(m, w, prev, name, flags) && |name| < 32 && flags % 32 == 0
    ensures LenOf(LenFlags(m, w)) == |name| && NameLen(m, w) == StoredLen(|name|)
    ensures IsHidden(LenFlags(m, w)) == IsHidden(flags) && IsImmediate(LenFlags(m, w)) == IsImmediate(flags)
    ensures StoredName(m, w) == name[..StoredLen(|name|)] && HostMatches(m, w, name)
    ensures Cfa(m, w) == CodeField(w, name)
  {
    assert |name| % 256 == |name|;
    OrFlagsKeepsLength(|name|, flags);
    assert LenFlags(m, w) == Or(|name|, flags);
  }

  /** `write_previous_idx` then `write_name`: the header of a new entry at
      the old HERE, with HERE left at the writer's code field. */
  method WriteHeader(m: Mem, name: seq<Byte>, flags: Byte) returns (m': Mem)
    requires CanAppend(m, 5 + StoredLen(|name|))
    ensures Appended(m, m', Here(m), Here(m) + 5 + StoredLen(|name|))
    ensures HeaderAt(m', Here(m), Latest(m), name, flags)
    ensures Here(m') == CodeField(Here(m), name)
  {
    var m1 := WritePreviousIdx(m);
    m' := WriteName(m1, name, flags);
    HeaderWritten(m, m1, m', name, flags);
  }

  lemma HeaderWritten(m: Mem, m1: Mem, m2: Mem, name: seq<Byte>, flags: Byte)
    requires CanAppend(m, 5 + StoredLen(|name|)) && HasRegisters(m1)
    requires Appended(m, m1, Here(m), Here(m) + CELL)
    requires Prev(m1, Here(m)) == Latest(m) && Here(m1) == Here(m) + CELL
    requires Appended(m1, m2, Here(m1), Here(m1) + 1 + StoredLen(|name|))
    requires NameAt(m2, Here(m1), name, flags) && Here(m2) == Align(Here(m1) + 1 + StoredLen(|name|))
    ensures Appended(m, m2, Here(m), Here(m) + 5 + StoredLen(|name|))
    ensures HeaderAt(m2, Here(m), Latest(m), name, flags)
    ensures Here(m2) == CodeField(Here(m), name)
  {
    var w := Here(m);
    AppendedCompose(m, m1, m2, w, w + CELL, w + CELL, w + 5 + StoredLen(|name|));
    FrameReadI32(m1, m2, {HERE}, w + CELL, w + 5 + StoredLen(|name|), w);
  }

  /** Appending above HERE leaves the dictionary seen from LATEST as it was,
      under the new HERE. */
  lemma AppendKeepsDict(m: Mem, m': Mem, hi: int)
    requires DictInv(m) && Appended(m, m', Here(m), hi)
    requires Here(m) <= Here(m') <= |m'| && Here(m') % 4 == 0
    ensures DictInv(m') && Latest(m') == Latest(m) && Entries(m') == Entries(m)
    ensures AgreeOn(m, m', DICT, Here(m))
  {
    assert AgreeOn(m, m', DICT, Here(m));
    ChainFrame(m, m', Latest(m), Here(m));
    ChainOkMono(m', Latest(m), Here(m), Here(m'));
  }

  /** A new entry w at the old HERE, linked to the old LATEST and made
      LATEST, with nothing changed below it, goes in front of the old
      entries. */
  lemma LinkFrame(m: Mem, m': Mem, w: int, hi: int)
    requires DictInv(m) && w == Here(m) && w <= hi
    requires HasRegisters(m') && Frame(m, m', {HERE, LATEST}, w, hi)
    requires Latest(m') == w && w + CELL < Here(m') <= |m'| && Here(m') % 4 == 0
    requires Prev(m', w) == Latest(m) && HeaderIn(m', w, Here(m'))
    ensures DictInv(m') && Entries(m') == [w] + Entries(m)
  {
    assert AgreeOn(m, m', DICT, w);
    ChainFrame(m, m', Latest(m), w);
    assert ChainOk(m', w, Here(m'));
  }

  /** The body of a primitive: the code field at c points at the next cell,
      where the code bytes follow. */
  predicate PrimitiveAt(m: Mem, c: int, code: seq<Byte>) {
    CellIn(m, c) && ReadI32(m, c) == c + CELL && BytesAt(m, c + CELL, code)
  }

  /** The code field and code writes of `builtin_ex`, after the header. */
  lemma CodeWritten(m: Mem, m1: Mem, m2: Mem, code: seq<Byte>)
    requires CanAppend(m, CELL + |code|) && HasRegisters(m1) && HasRegisters(m2)
    requires Appended(m, m1, Here(m), Here(m) + CELL)
    requires ReadI32(m1, Here(m)) == Here(m1) && Here(m1) == Here(m) + CELL
    requires Appended(m1, m2, Here(m1), Here(m1) + |code|) && BytesAt(m2, Here(m1), code)
    ensures Appended(m, m2, Here(m), Here(m) + CELL + |code|) && PrimitiveAt(m2, Here(m), code)
  {
    var c := Here(m);
    AppendedCompose(m, m1, m2, c, c + CELL, c + CELL, c + CELL + |code|);
    FrameReadI32(m1, m2, {HERE}, c + CELL, c + CELL + |code|, c);
  }

  /** `builtin_ex`: appends an entry for a primitive whose code field points
      at the code bytes that follow it, and makes it the newest entry. It
      returns the new entry's address, the old HERE. For a name shorter than
      32 bytes and flags without length bits, the result is a dictionary
      with the new entry in front, whose code field is where `cfa` looks
      and which the host-side `find` finds by its name. */
  method BuiltinEx(m: Mem, name: seq<Byte>, flags: Byte, code: seq<Byte>) returns (m': Mem, w: int)
    requires HasRegisters(m) && DICT <= Here(m) && Align(CodeField(Here(m), name) + CELL + |code|) <= |m|
    ensures HasRegisters(m') && w == Here(m) && Latest(m') == w
    ensures HeaderAt(m', w, Latest(m), name, flags)
    ensures PrimitiveAt(m', CodeField(w, name), code)
    ensures Here(m') == Align(CodeField(w, name) + CELL + |code|)
    ensures Frame(m, m', {HERE, LATEST}, w, CodeField(w, name) + CELL + |code|)
    ensures forall r :: IsReg(r) && r != HERE && r != LATEST ==> Reg(m', r) == Reg(m, r)
    ensures DictInv(m) && |name| < 32 && flags % 32 == 0 ==>
      && DictInv(m') && Entries(m') == [w] + Entries(m)
      && Cfa(m', w) == CodeField(w, name) && HostFind(m', name) == Some(w)
  {
    w := Here(m);
    var m1 := WriteHeader(m, name, flags);
    var m2 := WriteCodewordBuiltin(m1);
    var m3 := WriteCode(m2, code);
    CodeWritten(m1, m2, m3, code);
    m' := SetLatest(m3, w);
    EntryLinked(m, m1, m3, m', w, w + 5 + StoredLen(|name|), CodeField(w, name) + CELL + |code|, name, flags);
    PrimitiveAtFrame(m3, m', CodeField(w, name), code, {LATEST}, 0, 0);
  }

  /** `set_latest`. */
  method SetLatest(m: Mem, w: int) returns (m': Mem)
    requires HasRegisters(m)
    ensures HasRegisters(m') && Latest(m') == Wrap32(w) && Frame(m, m', {LATEST}, 0, 0)
    ensures forall r :: IsReg(r) && r != LATEST ==> Reg(m', r) == Reg(m, r)
  {
    m' := SetReg(m, LATEST, w);
  }

  /** A primitive body survives every change outside it and the registers. */
  lemma PrimitiveAtFrame(m: Mem, m': Mem, c: int, code: seq<Byte>, regs: set<int>, lo: int, hi: int)
    requires PrimitiveAt(m, c, code) && DOCOL <= c
    requires Frame(m, m', regs, lo, hi) && (c + CELL + |code| <= lo || hi <= c || hi <= lo)
    ensures PrimitiveAt(m', c, code)
  {
    FrameReadI32(m, m', regs, lo, hi, c);
    BytesAtFrame(m, m', c + CELL, code, regs, lo, hi);
  }

  /** The common tail of `builtin_ex` and `colon_def_ex`: a header written
      at w inside [w, mid) (m to m1), a body appended after it inside
      [Here(m1), hi) (m1 to mA), then LATEST set to w (mA to m'). */
  lemma EntryLinked(m: Mem, m1: Mem, mA: Mem, m': Mem, w: int, mid: int, hi: int, name: seq<Byte>, flags: Byte)
    requires CanAppend(m, 5 + StoredLen(|name|)) && w == Here(m)
    requires HasRegisters(m1) && w + 5 + StoredLen(|name|) <= mid <= Here(m1) && Appended(m, m1, w, mid)
    requires HeaderAt(m1, w, Latest(m), name, flags) && CodeField(w, name) <= Here(m1)
    requires Here(m1) <= hi && HasRegisters(mA) && hi <= Here(mA) <= |mA| && Here(mA) % 4 == 0
    requires w + CELL < Here(mA) && Appended(m1, mA, Here(m1), hi)
    requires HasRegisters(m') && Frame(mA, m', {LATEST}, 0, 0) && Latest(m') == w
    requires forall r :: IsReg(r) && r != LATEST ==> Reg(m', r) == Reg(mA, r)
    ensures HeaderAt(m', w, Latest(m), name, flags) && Here(m') == Here(mA)
    ensures Frame(m, m', {HERE, LATEST}, w, hi)
    ensures forall r :: IsReg(r) && r != HERE && r != LATEST ==> Reg(m', r) == Reg(m, r)
    ensures DictInv(m) && |name| < 32 && flags % 32 == 0 ==>
      && DictInv(m') && Entries(m') == [w] + Entries(m)
      && Cfa(m', w) == CodeField(w, name) && HostFind(m', name) == Some(w)
  {
    AppendedCompose(m, m1, mA, w, mid, Here(m1), hi);
    HeaderAtFrame(m1, mA, w, Latest(m), name, flags, {HERE}, Here(m1), hi);
    HeaderAtFrame(mA, m', w, Latest(m), name, flags, {LATEST}, 0, 0);
    FrameWiden(mA, m', {LATEST}, 0, 0, {LATEST}, w, hi);
    FrameCompose(m, mA, m', {HERE}, {LATEST}, w, hi, w, hi);
    FrameWiden(m, m', {HERE} + {LATEST}, w, hi, {HERE, LATEST}, w, hi);
    if DictInv(m) && |name| < 32 && flags % 32 == 0 {
      HeaderDeclares(m', w, Latest(m), name, flags);
      LinkFrame(m, m', w, hi);
    }
  }


  /** How `write_colon_def` turns one token into a cell: the code field of
      the newest entry the host-side `find` gives for it, otherwise the
      token read as a decimal i32; a token that is neither is an error. */
  function Resolve(m: Mem, tok: seq<Byte>): (r: Result<int, seq<Byte>>)
    requires DictInv(m) && Latest(m) != 0
    ensures r.Ok? ==> IsI32(r.value)
    ensures r.Err? <==> HostFind(m, tok).None? && ParseI32(tok).None?
    ensures r.Err? ==> r.error == tok
  {
    match HostFind(m, tok)
    case Some(e) => Ok(Cfa(m, e))
    case None =>
      match ParseI32(tok)
      case Some(n) => Ok(n)
      case None => Err(tok)
  }

  /** Resolution reads only the dictionary below HERE: appending above it
      changes no token's cell. */
  lemma ResolveFrame(m: Mem, m': Mem, tok: seq<Byte>)
    requires DictInv(m) && DictInv(m') && Latest(m) != 0 && Latest(m') == Latest(m)
    requires Here(m) <= Here(m') && AgreeOn(m, m', DICT, Here(m))
    ensures Resolve(m', tok) == Resolve(m, tok)
  {
    HostFindFrame(m, m', Latest(m), Here(m), Here(m'), tok);
    match HostFind(m, tok)
    case Some(e) =>
      HeaderAgrees(m, m', e, Here(m));
    case None =>
  }

  /** Every token of calls resolves. */
  predicate Resolves(m: Mem, calls: seq<seq<Byte>>)
    requires DictInv(m) && (calls != [] ==> Latest(m) != 0)
  {
    forall j :: 0 <= j < |calls| ==> Resolve(m, calls[j]).Ok?
  }

  /** tok is the first token of calls that does not resolve. */
  predicate FirstUnresolved(m: Mem, calls: seq<seq<Byte>>, tok: seq<Byte>)
    requires DictInv(m) && (calls != [] ==> Latest(m) != 0)
  {
    exists j :: 0 <= j < |calls| && Resolve(m, calls[j]) == Err(tok)
      && forall k :: 0 <= k < j ==> Resolve(m, calls[k]).Ok?
  }

  /** The cells from a hold the values of the successful results rs, in
      order. */
  predicate CellsHold(m: Mem, a: int, rs: seq<Result<int, seq<Byte>>>) {
    forall j :: 0 <= j < |rs| ==> rs[j].Ok? && CellIn(m, a + CELL * j) && ReadI32(m, a + CELL * j) == rs[j].value
  }

  /** The resolution of every token of calls. */
  function ResolveAll(m: Mem, calls: seq<seq<Byte>>): (rs: seq<Result<int, seq<Byte>>>)
    requires DictInv(m) && (calls != [] ==> Latest(m) != 0)
    ensures |rs| == |calls| && forall j :: 0 <= j < |calls| ==> rs[j] == Resolve(m, calls[j])
  {
    seq(|calls|, j requires 0 <= j < |calls| => Resolve(m, calls[j]))
  }

  /** After compiling the first i of the resolutions rs from m: an append of
      i cells at the old HERE, each holding its resolution. */
  ghost predicate Compiled(m: Mem, cur: Mem, rs: seq<Result<int, seq<Byte>>>, i: int)
    requires HasRegisters(m)
  {
    && 0 <= i <= |rs|
    && Appended(m, cur, Here(m), Here(m) + CELL * i) && Here(cur) == Here(m) + CELL * i
    && forall j :: 0 <= j < i ==> rs[j].Ok? && CellIn(cur, Here(m) + CELL * j) && ReadI32(cur, Here(m) + CELL * j) == rs[j].value
  }

  /** `write_colon_def`: compiles one cell per token, in order, at HERE. The
      source stops the program at the first token that does not resolve;
      here that token is the error. */
  method WriteColonDef(m: Mem, calls: seq<seq<Byte>>) returns (r: Result<Mem, seq<Byte>>)
    requires DictInv(m) && (calls != [] ==> Latest(m) != 0) && Here(m) + CELL * |calls| <= |m|
    ensures r.Ok? <==> Resolves(m, calls)
    ensures r.Err? ==> FirstUnresolved(m, calls, r.error)
    ensures r.Ok? ==> Appended(m, r.value, Here(m), Here(m) + CELL * |calls|)
    ensures r.Ok? ==> Here(r.value) == Here(m) + CELL * |calls| && CellsHold(r.value, Here(m), ResolveAll(m, calls))
  {
    ghost var rs := ResolveAll(m, calls);
    var cur := m;
    var i := 0;
    FrameWiden(m, m, {}, 0, 0, {HERE}, Here(m), Here(m));
    while i < |calls|
      invariant 0 <= i <= |calls| && Compiled(m, cur, rs, i)
    {
      var res := ResolveAt(m, cur, calls, rs, i);
      if res.Err? {
        FirstUnresolvedAt(m, calls, rs, i);
        return Err(res.error);
      }
      var next := CompileCell(cur, res.value);
      CompiledStep(m, cur, next, rs, i);
      cur := next;
      i := i + 1;
    }
    CompiledAll(m, cur, calls, rs);
    r := Ok(cur);
  }

  /** Resolving the next token on the memory compiled so far gives what it
      gives on the memory before the definition. */
  method ResolveAt(m: Mem, cur: Mem, calls: seq<seq<Byte>>, ghost rs: seq<Result<int, seq<Byte>>>, i: int)
    returns (res: Result<int, seq<Byte>>)
    requires DictInv(m) && 0 <= i < |calls| && Latest(m) != 0 && rs == ResolveAll(m, calls)
    requires Compiled(m, cur, rs, i) && Here(m) + CELL * |calls| <= |m|
    ensures CanAppend(cur, CELL) && res == rs[i]
  {
    CellMultiple(Here(m), i);
    AppendKeepsDict(m, cur, Here(m) + CELL * i);
    ResolveFrame(m, cur, calls[i]);
    res := Resolve(cur, calls[i]);
  }

  lemma CellMultiple(a: int, i: int)
    requires a % 4 == 0
    ensures (a + CELL * i) % 4 == 0
  {
    assert a + CELL * i == 4 * (a / 4 + i);
  }

  /** One more compiled cell extends the compiled prefix by one. */
  lemma CompiledStep(m: Mem, cur: Mem, next: Mem, rs: seq<Result<int, seq<Byte>>>, i: int)
    requires HasRegisters(m) && DOCOL <= Here(m) && 0 <= i < |rs| && Compiled(m, cur, rs, i) && rs[i].Ok?
    requires Appended(cur, next, Here(cur), Here(cur) + CELL) && Here(next) == Here(cur) + CELL
    requires CellIn(next, Here(cur)) && ReadI32(next, Here(cur)) == rs[i].value
    ensures Compiled(m, next, rs, i + 1)
  {
    var a := Here(m);
    AppendedCompose(m, cur, next, a, a + CELL * i, Here(cur), Here(cur) + CELL);
    forall j | 0 <= j < i
      ensures CellIn(next, a + CELL * j) && ReadI32(next, a + CELL * j) == rs[j].value
    {
      FrameReadI32(cur, next, {HERE}, Here(cur), Here(cur) + CELL, a + CELL * j);
    }
  }

  lemma CompiledAll(m: Mem, cur: Mem, calls: seq<seq<Byte>>, rs: seq<Result<int, seq<Byte>>>)
    requires DictInv(m) && (calls != [] ==> Latest(m) != 0) && rs == ResolveAll(m, calls)
    requires Compiled(m, cur, rs, |calls|)
    ensures Resolves(m, calls) && CellsHold(cur, Here(m), rs)
  {
  }

  /** The first failure stops compilation at the token that caused it. */
  lemma FirstUnresolvedAt(m: Mem, calls: seq<seq<Byte>>, rs: seq<Result<int, seq<Byte>>>, i: int)
    requires DictInv(m) && 0 <= i < |calls| && Latest(m) != 0 && rs == ResolveAll(m, calls)
    requires forall j :: 0 <= j < i ==> rs[j].Ok?
    requires rs[i].Err?
    ensures !Resolves(m, calls) && FirstUnresolved(m, calls, rs[i].error)
  {
  }

  /** Appending above HERE changes no token's resolution. */
  lemma ResolvesFrame(m: Mem, m': Mem, calls: seq<seq<Byte>>, hi: int)
    requires DictInv(m) && (calls != [] ==> Latest(m) != 0)
    requires Appended(m, m', Here(m), hi) && Here(m) <= Here(m') <= |m'| && Here(m') % 4 == 0
    ensures DictInv(m') && Latest(m') == Latest(m)
    ensures ResolveAll(m', calls) == ResolveAll(m, calls)
    ensures Resolves(m', calls) == Resolves(m, calls)
    ensures forall tok :: FirstUnresolved(m', calls, tok) == FirstUnresolved(m, calls, tok)
  {
    AppendKeepsDict(m, m', hi);
    forall j | 0 <= j < |calls|
      ensures Resolve(m', calls[j]) == Resolve(m, calls[j])
    {
      ResolveFrame(m, m', calls[j]);
    }
  }


  /** Compiled cells survive setting LATEST. */
  lemma CellsHoldFrame(mA: Mem, m': Mem, a: int, rs: seq<Result<int, seq<Byte>>>)
    requires DOCOL <= a && CellsHold(mA, a, rs) && Frame(mA, m', {LATEST}, 0, 0)
    ensures CellsHold(m', a, rs)
  {
    forall j | 0 <= j < |rs|
      ensures CellIn(m', a + CELL * j) && ReadI32(m', a + CELL * j) == rs[j].value
    {
      FrameReadI32(mA, m', {LATEST}, 0, 0, a + CELL * j);
    }
  }

  /** `colon_def_ex`: appends an entry whose code field holds DOCOL and
      whose body holds one cell per token, then makes it the newest entry.
      It fails at the first token that is neither found nor a number. For a
      name shorter than 32 bytes and flags without length bits, the new
      entry is in front of the old ones, its code field is where `cfa`
      looks, and the host-side `find` finds it by its name. */
  method ColonDefEx(m: Mem, name: seq<Byte>, flags: Byte, calls: seq<seq<Byte>>) returns (r: Result<(Mem, int), seq<Byte>>)
    requires DictInv(m) && (calls != [] ==> Latest(m) != 0)
    requires CodeField(Here(m), name) + CELL + CELL * |calls| <= |m|
    ensures r.Ok? <==> Resolves(m, calls)
    ensures r.Err? ==> FirstUnresolved(m, calls, r.error)
    ensures r.Ok? ==> r.value.1 == Here(m) && HasRegisters(r.value.0) && Latest(r.value.0) == Here(m)
    ensures r.Ok? ==> HeaderAt(r.value.0, Here(m), Latest(m), name, flags)
    ensures r.Ok? ==> CellIn(r.value.0, CodeField(Here(m), name)) && ReadI32(r.value.0, CodeField(Here(m), name)) == DOCOL
    ensures r.Ok? ==> CellsHold(r.value.0, CodeField(Here(m), name) + CELL, ResolveAll(m, calls))
    ensures r.Ok? ==> Here(r.value.0) == CodeField(Here(m), name) + CELL + CELL * |calls|
    ensures r.Ok? ==> Frame(m, r.value.0, {HERE, LATEST}, Here(m), Here(r.value.0))
    ensures r.Ok? ==> forall q :: IsReg(q) && q != HERE && q != LATEST ==> Reg(r.value.0, q) == Reg(m, q)
    ensures r.Ok? && |name| < 32 && flags % 32 == 0 ==>
      && DictInv(r.value.0) && Entries(r.value.0) == [Here(m)] + Entries(m)
      && Cfa(r.value.0, Here(m)) == CodeField(Here(m), name) && HostFind(r.value.0, name) == Some(Here(m))
  {
    var w := Here(m);
    var m2 := WriteColonHeader(m, name, flags);
    CellMultiple(CodeField(w, name), 1);
    ResolvesFrame(m, m2, calls, Here(m2));
    var body := WriteColonDef(m2, calls);
    if body.Err? {
      return Err(body.error);
    }
    var m3 := body.value;
    var m' := SetLatest(m3, w);
    CellMultiple(Here(m2), |calls|);
    EntryLinked(m, m2, m3, m', w, Here(m2), Here(m3), name, flags);
    FrameReadI32(m2, m3, {HERE}, Here(m2), Here(m3), CodeField(w, name));
    FrameReadI32(m3, m', {LATEST}, 0, 0, CodeField(w, name));
    CellsHoldFrame(m3, m', Here(m2), ResolveAll(m, calls));
    r := Ok((m', w));
  }

  /** The header of a colon definition and its DOCOL code field. */
  method WriteColonHeader(m: Mem, name: seq<Byte>, flags: Byte) returns (m': Mem)
    requires CanAppend(m, 5 + StoredLen(|name|)) && CodeField(Here(m), name) + CELL <= |m|
    ensures Appended(m, m', Here(m), CodeField(Here(m), name) + CELL)
    ensures HeaderAt(m', Here(m), Latest(m), name, flags)
    ensures CellIn(m', CodeField(Here(m), name)) && ReadI32(m', CodeField(Here(m), name)) == DOCOL
    ensures Here(m') == CodeField(Here(m), name) + CELL
  {
    var w := Here(m);
    var m1 := WriteHeader(m, name, flags);
    m' := WriteDocolAddr(m1);
    AppendedCompose(m, m1, m', w, w + 5 + StoredLen(|name|), Here(m1), Here(m1) + CELL);
    HeaderAtFrame(m1, m', w, Latest(m), name, flags, {HERE}, Here(m1), Here(m1) + CELL);
  }


  /** How many name bytes `create` copies for a length popped as an i32: a
      negative length converts to a huge unsigned one, so 13. */
  function CopyLen(len: int): (k: int)
    ensures 0 <= k <= MAX_WORD_LEN
    ensures 0 <= len ==> k == StoredLen(len)
  {
    if len < 0 then MAX_WORD_LEN else StoredLen(len)
  }

  /** The three memory writes of `create` at w: the prev cell holds LATEST,
      the next byte b, then k bytes copied from ptr as they are after the
      first two writes. */
  function CreateHeader(m: Mem, b: Byte, ptr: int, k: int): (m': Mem)
    requires CanAppend(m, 5 + k) && 0 <= k && RangeIn(m, ptr, k)
    ensures Frame(m, m', {}, Here(m), Here(m) + 5 + k)
    ensures Prev(m', Here(m)) == Latest(m) && m'[Here(m) + 4] == b
    ensures ptr + k <= Here(m) || Here(m) + 5 <= ptr ==> BytesAt(m', Here(m) + 5, m[ptr .. ptr + k])
  {
    var w := Here(m);
    var m1 := WriteI32(m, w, Latest(m));
    var m2 := WriteU8(m1, w + 4, b);
    var m3 := WriteBytes(m2, w + 5, m2[ptr .. ptr + k]);
    HeaderWrites(m, m1, m2, m3, b, ptr, k);
    m3
  }

  lemma HeaderWrites(m: Mem, m1: Mem, m2: Mem, m3: Mem, b: Byte, ptr: int, k: int)
    requires CanAppend(m, 5 + k) && 0 <= k && RangeIn(m, ptr, k)
    requires Frame(m, m1, {}, Here(m), Here(m) + CELL) && ReadI32(m1, Here(m)) == Wrap32(Latest(m))
    requires Frame(m1, m2, {}, Here(m) + 4, Here(m) + 5) && m2[Here(m) + 4] == b
    requires Frame(m2, m3, {}, Here(m) + 5, Here(m) + 5 + k) && m3[Here(m) + 5 .. Here(m) + 5 + k] == m2[ptr .. ptr + k]
    ensures Frame(m, m3, {}, Here(m), Here(m) + 5 + k)
    ensures Prev(m3, Here(m)) == Latest(m) && m3[Here(m) + 4] == b
    ensures ptr + k <= Here(m) || Here(m) + 5 <= ptr ==> BytesAt(m3, Here(m) + 5, m[ptr .. ptr + k])
  {
    var w := Here(m);
    FrameCompose(m, m1, m2, {}, {}, w, w + CELL, w + 4, w + 5);
    FrameCompose(m, m2, m3, {}, {}, w, w + 5, w + 5, w + 5 + k);
    FrameReadI32(m1, m3, {}, w + 4, w + 5 + k, w);
    assert At(m3, w + 4) == At(m2, w + 4);
    if ptr + k <= w || w + 5 <= ptr {
      FrameSlice(m, m2, {}, w, w + 5, ptr, ptr + k);
    }
  }

  /** Sets HERE to here' and LATEST to w. */
  function SetLink(m: Mem, here': int, w: int): (m': Mem)
    requires HasRegisters(m)
    ensures HasRegisters(m') && Here(m') == Wrap32(here') && Latest(m') == Wrap32(w)
    ensures Frame(m, m', {HERE, LATEST}, 0, 0)
    ensures forall r :: IsReg(r) && r != HERE && r != LATEST ==> Reg(m', r) == Reg(m, r)
  {
    var m1 := SetReg(m, HERE, here');
    var m2 := SetReg(m1, LATEST, w);
    FrameCompose(m, m1, m2, {HERE}, {LATEST}, 0, 0, 0, 0);
    assert {HERE} + {LATEST} == {HERE, LATEST};
    m2
  }

  /** The writes of `create` with the new HERE as a parameter: the prev
      cell at the old HERE holds LATEST, the next byte the length truncated
      to a byte with no flags, then the first bytes at ptr; LATEST becomes
      the old HERE. */
  function CreateWith(m: Mem, len: int, ptr: int, here': int): (m': Mem)
    requires CanAppend(m, 5 + CopyLen(len)) && RangeIn(m, ptr, CopyLen(len))
    ensures HasRegisters(m') && Latest(m') == Here(m) && Here(m') == Wrap32(here')
  {
    SetLink(CreateHeader(m, len % 256, ptr, CopyLen(len)), here', Here(m))
  }

  /** `create` as written: HERE moves past the prev cell, the length
      byte and a fixed 7 more bytes, whatever the name's length. */
  function CreateAsWritten(m: Mem, len: int, ptr: int): (m': Mem)
    requires CanAppend(m, 5 + CopyLen(len)) && RangeIn(m, ptr, CopyLen(len))
    ensures HasRegisters(m') && Latest(m') == Here(m) && Here(m') == Here(m) + 12
  {
    CreateWith(m, len, ptr, Here(m) + 12)
  }

  /** The code field address of an entry created at w with length len. */
  function CreatedCfa(w: int, len: int): int {
    Align(w + 5 + StoredLen(LenOf(len % 256)))
  }

  /** `create` as intended: HERE moves to the new entry's code field, where
      `,` then stores the code word and where `>cfa` looks for it. */
  function Create(m: Mem, len: int, ptr: int): (m': Mem)
    requires CanAppend(m, 5 + CopyLen(len)) && RangeIn(m, ptr, CopyLen(len))
    ensures HasRegisters(m') && Latest(m') == Here(m) && Here(m') == CreatedCfa(Here(m), len)
  {
    CreateWith(m, len, ptr, CreatedCfa(Here(m), len))
  }

  /** The facts CreateWrites gives about a `create` result m'. */
  ghost predicate CreateResult(m: Mem, m': Mem, len: int, ptr: int)
    requires CanAppend(m, 5 + CopyLen(len)) && RangeIn(m, ptr, CopyLen(len))
  {
    && HasRegisters(m') && Latest(m') == Here(m)
    && Frame(m, m', {HERE, LATEST}, Here(m), Here(m) + 5 + CopyLen(len))
    && Prev(m', Here(m)) == Latest(m) && LenFlags(m', Here(m)) == len % 256
    && (ptr + CopyLen(len) <= Here(m) || Here(m) + 5 <= ptr ==>
          BytesAt(m', Here(m) + 5, m[ptr .. ptr + CopyLen(len)]))
  }

  /** As written, HERE ends at the new entry's code field only for names of
      4 to 7 bytes; a 9-byte name leaves HERE 4 bytes short of it, inside
      the name. */
  lemma CreateAsWrittenMisplacesHere(m: Mem, len: int, ptr: int)
    requires CanAppend(m, 5 + CopyLen(len)) && RangeIn(m, ptr, CopyLen(len))
    requires Here(m) % 4 == 0 && 0 <= len < 32
    ensures var m' := CreateAsWritten(m, len, ptr);
      && ByteIn(m', Here(m) + 4)
      && (Here(m') == Cfa(m', Here(m)) <==> 4 <= len <= 7)
      && (len == 9 ==> Cfa(m', Here(m)) == Here(m') + 4)
  {
    CreateWrites(m, len, ptr, Here(m) + 12);
    HereAfterCreate(m, CreateAsWritten(m, len, ptr), len, ptr);
  }

  /** `create` as written still adds the entry in front of the list the
      runtime walk searches, visible and holding the name's first bytes;
      but the invariant that every header ends at or below HERE survives
      only for names of at most 7 bytes, and HERE is the code field only
      for 4 to 7. */
  lemma CreateAsWrittenLinks(m: Mem, len: int, ptr: int)
    requires DictInv(m) && 0 <= len < 32
    requires CanAppend(m, 5 + StoredLen(len)) && RangeIn(m, ptr, StoredLen(len))
    requires ptr + StoredLen(len) <= Here(m) || Here(m) + 5 <= ptr
    requires Here(m) + 5 + StoredLen(len) <= SearchBound(m)
    ensures var m' := CreateAsWritten(m, len, ptr);
      && Searchable(m') && SearchEntries(m') == [Here(m)] + Entries(m)
      && !IsHidden(LenFlags(m', Here(m))) && !IsImmediate(LenFlags(m', Here(m)))
      && StoredName(m', Here(m)) == m[ptr .. ptr + StoredLen(len)]
      && (DictInv(m') <==> len <= 7)
      && (Here(m') == Cfa(m', Here(m)) <==> 4 <= len <= 7)
  {
    SmallLength(len);
    CreateWrites(m, len, ptr, Here(m) + 12);
    CreatedAsWritten(m, CreateAsWritten(m, len, ptr), len, ptr);
    CreateAsWrittenMisplacesHere(m, len, ptr);
  }

  /** `create` as written keeps the runtime walk searchable on any
      searchable list whose LATEST lies at least a cell below HERE, whatever
      the earlier names' lengths: the new entry at the old HERE links down
      to the old LATEST, and the walk reads only prev cells, which the new
      header does not touch. So back-to-back creates of long names, whose
      headers overlap, still leave a list `_find` walks to 0. */
  lemma CreateAsWrittenSearchable(m: Mem, len: int, ptr: int)
    requires Searchable(m) && Latest(m) + CELL <= Here(m)
    requires CanAppend(m, 5 + CopyLen(len)) && RangeIn(m, ptr, CopyLen(len))
    requires Here(m) + 5 <= SearchBound(m)
    ensures var m' := CreateAsWritten(m, len, ptr);
      && Searchable(m') && SearchEntries(m') == [Here(m)] + SearchEntries(m)
      && Latest(m') + CELL <= Here(m')
  {
    var w := Here(m);
    var m' := CreateAsWritten(m, len, ptr);
    CreateWrites(m, len, ptr, w + 12);
    assert AgreeOn(m, m', DICT, Latest(m) + CELL);
    WalkFrame(m, m', Latest(m));
    assert Walk(m', w) == [w] + Walk(m', Latest(m));
  }

  /** The overlap two back-to-back creates leave: a 9-byte name, then a
      3-byte one. The first header runs 2 bytes past the second entry, so
      the invariant fails, yet the walk visits both new entries, newest
      first, and then the old ones. */
  lemma BackToBackCreates(m: Mem, p1: int, p2: int)
    requires DictInv(m) && Here(m) + 64 <= |m|
    requires RangeIn(m, p1, 9) && RangeIn(m, p2, 3)
    requires p1 + 9 <= Here(m) && p2 + 3 <= Here(m)
    ensures var m1 := CreateAsWritten(m, 9, p1);
      && CanAppend(m1, 8) && !DictInv(m1)
      && var m2 := CreateAsWritten(m1, 3, p2);
      && Here(m) + 5 + NameLen(m1, Here(m)) > Here(m1)
      && Here(m1) == Here(m) + 12
      && Searchable(m2) && SearchEntries(m2) == [Here(m1), Here(m)] + Entries(m)
  {
    FirstOfTwoCreates(m, p1);
    SecondOfTwoCreates(m, CreateAsWritten(m, 9, p1), p2);
  }

  /** The second create, on any memory the first one can leave. */
  lemma SecondOfTwoCreates(m: Mem, m1: Mem, p2: int)
    requires DictInv(m) && Here(m) + 64 <= |m| && |m1| == |m| && RangeIn(m, p2, 3)
    requires HasRegisters(m1) && Here(m1) == Here(m) + 12 && Latest(m1) + CELL <= Here(m1)
    requires Searchable(m1) && SearchEntries(m1) == [Here(m)] + Entries(m)
    ensures CanAppend(m1, 8) && RangeIn(m1, p2, 3)
    ensures var m2 := CreateAsWritten(m1, 3, p2);
      Searchable(m2) && SearchEntries(m2) == [Here(m1), Here(m)] + Entries(m)
  {
    assert CopyLen(3) == 3;
    CreateAsWrittenSearchable(m1, 3, p2);
    var m2 := CreateAsWritten(m1, 3, p2);
    ConsTwo(SearchEntries(m2), SearchEntries(m1), Here(m1), Here(m), Entries(m));
  }

  lemma ConsTwo(e: seq<int>, s: seq<int>, a: int, b: int, rest: seq<int>)
    requires e == [a] + s && s == [b] + rest
    ensures e == [a, b] + rest
  {
  }

  /** The first of the two creates: a 9-byte header that reaches past the
      new HERE, at the head of the searched list. */
  lemma FirstOfTwoCreates(m: Mem, p1: int)
    requires DictInv(m) && Here(m) + 64 <= |m|
    requires RangeIn(m, p1, 9) && p1 + 9 <= Here(m)
    ensures var m1 := CreateAsWritten(m, 9, p1);
      && |m1| == |m| && Here(m1) == Here(m) + 12 && !DictInv(m1)
      && ByteIn(m1, Here(m) + 4) && NameLen(m1, Here(m)) == 9
      && Searchable(m1) && SearchEntries(m1) == [Here(m)] + Entries(m)
      && Latest(m1) + CELL <= Here(m1)
  {
    assert CopyLen(9) == 9 && StoredLen(9) == 9;
    CreateAsWrittenLinks(m, 9, p1);
    CreateWrites(m, 9, p1, Here(m) + 12);
    CreatedHeader(m, CreateAsWritten(m, 9, p1), 9, p1);
  }

  lemma CreatedAsWritten(m: Mem, m': Mem, len: int, ptr: int)
    requires DictInv(m) && 0 <= len < 32
    requires CanAppend(m, 5 + StoredLen(len)) && RangeIn(m, ptr, StoredLen(len))
    requires ptr + StoredLen(len) <= Here(m) || Here(m) + 5 <= ptr
    requires Here(m) + 5 + StoredLen(len) <= SearchBound(m)
    requires CreateResult(m, m', len, ptr) && Here(m') == Here(m) + 12
    ensures Searchable(m') && SearchEntries(m') == [Here(m)] + Entries(m)
    ensures !IsHidden(LenFlags(m', Here(m))) && !IsImmediate(LenFlags(m', Here(m)))
    ensures StoredName(m', Here(m)) == m[ptr .. ptr + StoredLen(len)]
    ensures DictInv(m') <==> len <= 7
  {
    var w := Here(m);
    var k := StoredLen(len);
    CreatedHeader(m, m', len, ptr);
    CreatedChain(m, m', w, k);
  }

  /** The header `create` writes: the length byte without flags and the
      name's first bytes. */
  lemma CreatedHeader(m: Mem, m': Mem, len: int, ptr: int)
    requires 0 <= len < 32 && CanAppend(m, 5 + StoredLen(len)) && RangeIn(m, ptr, StoredLen(len))
    requires ptr + StoredLen(len) <= Here(m) || Here(m) + 5 <= ptr
    requires CreateResult(m, m', len, ptr)
    ensures ByteIn(m', Here(m) + 4) && NameLen(m', Here(m)) == StoredLen(len)
    ensures !IsHidden(LenFlags(m', Here(m))) && !IsImmediate(LenFlags(m', Here(m)))
    ensures RangeIn(m', Here(m) + 5, StoredLen(len)) && StoredName(m', Here(m)) == m[ptr .. ptr + StoredLen(len)]
  {
    var w := Here(m);
    var k := StoredLen(len);
    SmallLength(len);
    assert LenFlags(m', w) == len && NameLen(m', w) == k && CopyLen(len) == k;
    NameOfBytes(m', w, m[ptr .. ptr + k]);
  }

  /** A header at the old HERE linked to the old LATEST and made LATEST,
      with nothing below it changed, heads the searched list; the
      invariant holds afterwards exactly when the header ends at or below
      the new HERE. */
  lemma CreatedChain(m: Mem, m': Mem, w: int, k: int)
    requires DictInv(m) && w == Here(m) && HasRegisters(m') && |m'| == |m|
    requires ByteIn(m', w + 4) && NameLen(m', w) == k && w + 5 + k <= SearchBound(m')
    requires AgreeOn(m, m', DICT, w) && Prev(m', w) == Latest(m) && Latest(m') == w
    requires Here(m') == w + 12
    ensures Searchable(m') && SearchEntries(m') == [w] + Entries(m)
    ensures DictInv(m') <==> w + 5 + k <= w + 12
  {
    CreatedSearchable(m, m', w, k);
    CellStep(w, 3);
    InvWithNewest(m', w, k);
  }

  /** The searched list after the new header: the header, then the old
      entries, read the same below the header. */
  lemma CreatedSearchable(m: Mem, m': Mem, w: int, k: int)
    requires DictInv(m) && w == Here(m) && HasRegisters(m') && |m'| == |m|
    requires ByteIn(m', w + 4) && NameLen(m', w) == k && w + 5 + k <= SearchBound(m')
    requires AgreeOn(m, m', DICT, w) && Prev(m', w) == Latest(m) && Latest(m') == w
    ensures ChainOk(m', Prev(m', w), w)
    ensures Searchable(m') && SearchEntries(m') == [w] + Entries(m)
  {
    ChainFrame(m, m', Latest(m), w);
    assert ChainOk(m', w, SearchBound(m'));
    ChainWalks(m', w, SearchBound(m'));
    assert Chain(m', w, SearchBound(m')) == [w] + Chain(m', Latest(m), w);
  }

  /** A cell boundary moved by whole cells stays a cell boundary. */
  lemma CellStep(a: int, n: nat)
    requires a % CELL == 0
    ensures (a + CELL * n) % CELL == 0
  {
  }

  /** With a well-formed list behind the newest entry w, the invariant
      holds exactly when w's header ends at or below HERE. */
  lemma InvWithNewest(m: Mem, w: int, k: int)
    requires HasRegisters(m) && Latest(m) == w && DICT <= w && Here(m) == w + 12 && w + 12 <= |m| && Here(m) % 4 == 0
    requires ByteIn(m, w + 4) && NameLen(m, w) == k && ChainOk(m, Prev(m, w), w)
    ensures DictInv(m) <==> w + 5 + k <= w + 12
  {
    assert DictInv(m) <==> ChainOk(m, w, w + 12);
    assert ChainOk(m, w, w + 12) <==> HeaderIn(m, w, w + 12);
  }

  lemma HereAfterCreate(m: Mem, m': Mem, len: int, ptr: int)
    requires CanAppend(m, 5 + CopyLen(len)) && RangeIn(m, ptr, CopyLen(len))
    requires Here(m) % 4 == 0 && 0 <= len < 32
    requires CreateResult(m, m', len, ptr) && Here(m') == Here(m) + 12
    ensures ByteIn(m', Here(m) + 4)
    ensures Here(m') == Cfa(m', Here(m)) <==> 4 <= len <= 7
    ensures len == 9 ==> Cfa(m', Here(m)) == Here(m') + 4
  {
    var w := Here(m);
    var s := StoredLen(len);
    SmallLength(len);
    assert NameLen(m', w) == s;
    AlignShift(w, 5 + s);
    AlignAfterName(s);
  }

  /** A length below 32 is its own length byte, with no flag set. */
  lemma SmallLength(len: int)
    requires 0 <= len < 32
    ensures len % 256 == len && LenOf(len) == len
    ensures !IsHidden(len) && !IsImmediate(len)
  {
  }

  /** Where a 4-aligned entry's code field lies relative to its address,
      for each stored name length. */
  lemma AlignAfterName(s: int)
    requires 0 <= s <= MAX_WORD_LEN
    ensures Align(5 + s) == 12 <==> 4 <= s <= 7
    ensures s == 9 ==> Align(5 + s) == 16
  {
  }

  /** The corrected `create` adds a well-formed entry: the dictionary
      invariant holds, the new entry heads the list, it is neither hidden
      nor immediate, it stores the name's first bytes and HERE is its code
      field. */
  lemma CreateLinks(m: Mem, len: int, ptr: int)
    requires DictInv(m) && 0 <= len < 32
    requires CanAppend(m, 5 + StoredLen(len)) && RangeIn(m, ptr, StoredLen(len))
    requires ptr + StoredLen(len) <= Here(m) || Here(m) + 5 <= ptr
    requires Align(Here(m) + 5 + StoredLen(len)) <= |m|
    ensures var m' := Create(m, len, ptr);
      && DictInv(m') && Entries(m') == [Here(m)] + Entries(m)
      && Here(m') == Cfa(m', Here(m))
      && !IsHidden(LenFlags(m', Here(m))) && !IsImmediate(LenFlags(m', Here(m)))
      && StoredName(m', Here(m)) == m[ptr .. ptr + StoredLen(len)]
  {
    CreateWrites(m, len, ptr, CreatedCfa(Here(m), len));
    CreatedEntry(m, Create(m, len, ptr), len, ptr);
  }

  lemma CreatedEntry(m: Mem, m': Mem, len: int, ptr: int)
    requires DictInv(m) && 0 <= len < 32
    requires CanAppend(m, 5 + StoredLen(len)) && RangeIn(m, ptr, StoredLen(len))
    requires ptr + StoredLen(len) <= Here(m) || Here(m) + 5 <= ptr
    requires Align(Here(m) + 5 + StoredLen(len)) <= |m|
    requires CreateResult(m, m', len, ptr) && Here(m') == CreatedCfa(Here(m), len)
    ensures DictInv(m') && Entries(m') == [Here(m)] + Entries(m)
    ensures Here(m') == Cfa(m', Here(m))
    ensures !IsHidden(LenFlags(m', Here(m))) && !IsImmediate(LenFlags(m', Here(m)))
    ensures StoredName(m', Here(m)) == m[ptr .. ptr + StoredLen(len)]
  {
    var w := Here(m);
    var k := StoredLen(len);
    SmallLength(len);
    assert LenFlags(m', w) == len && NameLen(m', w) == k && CopyLen(len) == k;
    NameOfBytes(m', w, m[ptr .. ptr + k]);
    CreatedCfaIsCfa(m', w, len);
    FrameWiden(m, m', {HERE, LATEST}, w, w + 5 + k, {HERE, LATEST}, w, Here(m'));
    LinkFrame(m, m', w, Here(m'));
  }

  /** The code field of an entry whose length byte `create` wrote. */
  lemma CreatedCfaIsCfa(m: Mem, w: int, len: int)
    requires ByteIn(m, w + 4) && LenFlags(m, w) == len % 256
    ensures Cfa(m, w) == CreatedCfa(w, len)
  {
  }

  /** The stored name of the entry at w is the name bytes after its length
      byte. */
  lemma NameOfBytes(m: Mem, w: int, name: seq<Byte>)
    requires ByteIn(m, w + 4) && NameLen(m, w) == |name| && BytesAt(m, w + 5, name)
    ensures RangeIn(m, w + 5, NameLen(m, w)) && StoredName(m, w) == name
  {
  }

  /** What `create` leaves in memory: only the new header's bytes and the
      two registers change; the header links to the previous LATEST, holds
      the length byte without flags and, when the source bytes lie outside
      the header's first five, the first bytes of the name. */
  lemma CreateWrites(m: Mem, len: int, ptr: int, here': int)
    requires CanAppend(m, 5 + CopyLen(len)) && RangeIn(m, ptr, CopyLen(len))
    ensures var m' := CreateWith(m, len, ptr, here');
      && CreateResult(m, m', len, ptr)
      && (forall r :: IsReg(r) && r != HERE && r != LATEST ==> Reg(m', r) == Reg(m, r))
  {
    var w := Here(m);
    var k := CopyLen(len);
    var m3 := CreateHeader(m, len % 256, ptr, k);
    var m' := SetLink(m3, here', w);
    CreateWritten(m, m3, m', len % 256, ptr, k);
  }

  /** The facts behind CreateWith, about the intermediate memories. */
  lemma CreateWritten(m: Mem, m3: Mem, m': Mem, b: Byte, ptr: int, k: int)
    requires CanAppend(m, 5 + k) && 0 <= k && RangeIn(m, ptr, k)
    requires Frame(m, m3, {}, Here(m), Here(m) + 5 + k)
    requires Prev(m3, Here(m)) == Latest(m) && m3[Here(m) + 4] == b
    requires ptr + k <= Here(m) || Here(m) + 5 <= ptr ==> BytesAt(m3, Here(m) + 5, m[ptr .. ptr + k])
    requires HasRegisters(m3) && HasRegisters(m') && Frame(m3, m', {HERE, LATEST}, 0, 0)
    ensures Frame(m, m', {HERE, LATEST}, Here(m), Here(m) + 5 + k)
    ensures forall r :: IsReg(r) && r != HERE && r != LATEST ==> Reg(m3, r) == Reg(m, r)
    ensures Prev(m', Here(m)) == Latest(m) && m'[Here(m) + 4] == b
    ensures ptr + k <= Here(m) || Here(m) + 5 <= ptr ==> BytesAt(m', Here(m) + 5, m[ptr .. ptr + k])
  {
    var w := Here(m);
    FrameWiden(m3, m', {HERE, LATEST}, 0, 0, {HERE, LATEST}, w, w + 5 + k);
    FrameCompose(m, m3, m', {}, {HERE, LATEST}, w, w + 5 + k, w, w + 5 + k);
    assert {} + {HERE, LATEST} == {HERE, LATEST};
    forall r | IsReg(r) && r != HERE && r != LATEST
      ensures Reg(m3, r) == Reg(m, r)
    {
      FrameReadI32(m, m3, {}, w, w + 5 + k, r);
    }
    FrameReadI32(m3, m', {HERE, LATEST}, 0, 0, w);
    assert At(m', w + 4) == At(m3, w + 4);
    BytesAtFrame(m3, m', w + 5, m3[w + 5 .. w + 5 + k], {HERE, LATEST}, 0, 0);
  }
}
